=== FILE: README.md ===
# golib core, modelled in Dafny

A model of the decision layer of the `golib` Go utility packages, with proofs about it. Each package
sits in front of a library or an HTTP API:

- `pkg/queue` (gocraft/work and redigo): worker options and their job-option mapping; the job
  closure; payload serialisation; the once-only Redis pool and enqueuer.
- `pkg/https` (fasthttp): functional options over a request configuration; `Do`'s request
  construction and response handling; the round-robin proxy provider; Shopify URLs.
- `pkg/translate/google`: the retry loop of `TranslateText` and the query of one attempt.
- `pkg/observer`: the topic registry, `Notify`'s fan-out with panic containment, and the
  consumer-factory registry.
- `pkg/healthz`: `runCatchPanic`, the HTTP/1.1 response bytes, and the write sequence on each
  connection.
- `pkg/redis`: option resolution of `NewClientRedis`, first call wins.
- `pkg/log`: production detection, level choice, and the time-attribute filter.
- `pkg/env` (`MustGet`) and `pkg/timezone` (TZ default).
- `pkg/telegram`: notifier options, message texts, and the Bot API URL.

How Go constructs appear in the model:

- **Values, not state.** Every package-level variable is threaded as a value: the subject, the
  registry, and the `sync.Once` singletons (`SyncOnce.Once`). So is the process environment
  (`Env.Environ`, a map).
- **Options.** A functional option `func(*Options)` is a Dafny arrow `C -> C`. `Setters.ApplyAll`
  applies a list of them in order.
- **Parameters for what is outside the code.** Everything the code cannot see becomes a parameter:
  - the network (a dial result, an `Exchange`, one translation attempt);
  - JSON marshalling and unmarshalling;
  - `%v` rendering (passed as a string);
  - the clock (the `time.DateTime` text, or the year and month);
  - context cancellation;
  - a handler that panics or returns;
  - Go's map iteration order.
- **Strings and bytes.** A Go string is the Unicode text it encodes; its bytes are
  `Utf8.Encode`.
- **Integers.** Fixed-width arithmetic is written out where the source relies on it: the int32
  proxy counter and the int64 `time.Duration` products. Go's truncating `%` is `GoTypes.GoRem`.
  Go `int` fields such as the translator's `MaxRetries` are `GoTypes.Int64`.
- **Exact encodings.** Three are modelled byte for byte:
  - base 64 of section 4 of RFC 4648, for the Basic credentials of section 2 of RFC 7617;
  - `url.Values.Encode` / `url.QueryEscape`;
  - the response bytes of section 4 of RFC 9112, with the Content-Length of section 8.6 of
    RFC 9110.

  Each has its decoder as a partner, and the round trips are proved.

## Model

| member | source | states |
|---|---|---|
| GoTypes.Wrap32 | pkg/https/proxy.go:22-27 | the int32 result differs from the mathematical value by a multiple of 2^32, and equals it when it fits |
| GoTypes.Wrap64 | pkg/queue/worker.go:102 | the int64 result differs from the mathematical value by a multiple of 2^64, and equals it when it fits |
| GoTypes.GoRem | pkg/https/proxy.go:28 | Go's `%` takes the dividend's sign, is bounded by the divisor, and agrees with the mathematical remainder on non-negative operands |
| Decimal.Itoa | pkg/healthz/healthz.go:89 | the rendering is a minus sign (for negatives) followed by digits denoting the absolute value |
| Decimal.AtoiItoa | pkg/queue/init.go:105 | `strconv.Atoi` reads back every int64 that `strconv.Itoa` renders, with no error |
| Decimal.Atoi | pkg/redis/redis.go:56 | the result is always an int64; a syntax error yields 0; a range error yields the int64 bound on the side of the sign; success means the text after the sign is all digits |
| Decimal.AtoiSyntaxError | pkg/redis/redis.go:56 | `strconv.Atoi` reports a syntax error exactly when, after the sign, the digits are missing or a non-digit comes before they pass 2^64 - 1 |
| Decimal.AtoiInRange | pkg/redis/redis.go:56 | a signed digit string whose value fits in an int64 reads as that value, with no error |
| Decimal.AtoiOverflowFirst | pkg/redis/redis.go:56 | leading digits worth more than 2^64 - 1 give a range error and the signed int64 bound, whatever follows them |
| Decimal.OverflowThenNonDigit | pkg/redis/redis.go:56 | any number above 2^64 - 1 followed by a non-digit reads as the largest int64 with a range error, not as 0 |
| Decimal.TwentyNinesThenLetter | pkg/redis/redis.go:56 | twenty nines followed by `x` read as the largest int64 with a range error, not as 0 |
| Decimal.AtoiOrZero | pkg/queue/init.go:105 | `v, _ := strconv.Atoi(s)` is the digits' value for in-range digit strings, 0 for text that is not a number (signed or not), and the signed int64 bound when the leading digits pass 2^64 - 1 |
| Utf8.DecodeEncode | pkg/https/options.go:127 | `[]byte(s)` is the UTF-8 encoding of the text: decoding gives the text back |
| Utf8.EncodeAppend | pkg/https/options.go:154 | the bytes of a concatenation are the concatenated bytes |
| Utf8.AsciiByteOnlyFromChar | pkg/https/options.go:154 | an ASCII byte such as ':' occurs in the encoding only where the character occurs in the text |
| Base64.DecodeEncode | pkg/https/options.go:154 | base 64 decoding inverts `base64.StdEncoding.EncodeToString` on every byte string |
| Base64.Encode | pkg/https/options.go:154 | the encoding has four characters per started 3-byte group, all from the alphabet or '=' |
| GoStrings.TrimPrefix | pkg/https/https.go:62 | the prefix is removed exactly when present, otherwise the string is unchanged |
| GoStrings.IndexOf | pkg/telegram/telegram.go:112 | the result is the first position holding the character, or the length when there is none |
| SyncOnce.Do | pkg/queue/init.go:83-86 | the first call stores and returns the built value; later calls return the stored one and change nothing |
| SyncOnce.FirstCallWins | pkg/queue/init.go:83-86 | from the initial state every call of a sequence returns what the first call built |
| SyncOnce.DoneStaysDone | pkg/redis/redis.go:69-78 | once done, every later call returns the stored value and leaves the state unchanged |
| Setters.LastWriterWins | pkg/queue/worker.go:33-35 | after options applied in order, the last option that writes a field decides it when later ones keep it |
| Setters.ApplyAllKeeps | pkg/telegram/telegram.go:48-50 | options that all keep a field leave it as it started |
| Setters.ApplyAllAppend | pkg/https/https.go:160 | applying `a + b` is applying `a` and then `b` |
| Env.MustGet | pkg/env/env.go:12-21 | success exactly when the key is set (even to ""), returning its value; otherwise the panic message naming the key |
| Env.MustGetEmptyValue | pkg/env/env.go:14-16 | a key set to "" succeeds while an unset key panics, although `os.Getenv` gives "" for both |
| QueueOptions.WithPriority | pkg/queue/option.go:37-41 | sets the priority and leaves every other field unchanged |
| QueueOptions.WithMaxFails | pkg/queue/option.go:48-52 | sets MaxFails and leaves every other field unchanged |
| QueueOptions.WithSkipDead | pkg/queue/option.go:59-63 | sets SkipDead to true (no option clears it) and leaves every other field unchanged |
| QueueOptions.WithMaxConcurrency | pkg/queue/option.go:70-74 | sets MaxConcurrency and leaves every other field unchanged |
| QueueOptions.WithMaxTimeout | pkg/queue/option.go:81-85 | sets MaxTimeout and leaves every other field unchanged |
| QueueOptions.SettersIdempotent | pkg/queue/option.go:37-85 | applying any setter twice equals applying it once |
| QueueOptions.SettersIndependent | pkg/queue/option.go:37-85 | each of the five setters keeps each of the four fields it does not name |
| QueueInit.PoolProvider | pkg/queue/init.go:28-33 | "watermill" exactly when POOL_PROVIDER is "watermill", otherwise "work" |
| QueueInit.NewPoolRedis | pkg/queue/init.go:100-102 | the pool is fail-fast: it does not wait for a free connection |
| QueueInit.DialParamsOf | pkg/queue/init.go:103-111 | dials tcp to REDIS_HOST ":" REDIS_PORT with REDIS_PASSWORD; the database is the number in REDIS_DB, 0 when that is not a number, and the signed int64 bound when its leading digits pass 2^64 - 1 |
| QueueInit.PackageInit | pkg/queue/init.go:21-53 | at start neither the pool nor the enqueuer exists and the namespace is APP_NAME |
| QueueInit.InstancePool | pkg/queue/init.go:82-87 | the first call builds the pool; later calls return the stored pool; the state records it |
| QueueInit.InstancePoolOnce | pkg/queue/init.go:82-87 | a second call returns the first call's pool whatever allocation it would make, and leaves the state unchanged |
| QueueInit.Ping | pkg/queue/init.go:120-123 | the dial's error is returned unchanged, nil exactly when the dial succeeds; the pool exists afterwards |
| QueueInit.InitQueue | pkg/queue/init.go:132-139 | the enqueuer is built at most once over the package namespace and the shared pool; later calls return it unchanged |
| QueueWorker.NewWorker | pkg/queue/worker.go:27-43 | keeps the queue name, a fresh zero payload, the package concurrency 10 and namespace, and the shared pool; no options give MaxFails 3 and MaxConcurrency 10 |
| QueueWorker.NewWorkerLastWriterWins | pkg/queue/worker.go:28-35 | the last option writing MaxFails decides it over the default 3, and MaxTimeout stays 0 unless written |
| QueueWorker.GetOptions | pkg/queue/worker.go:74-94 | priority, MaxFails, SkipDead and MaxConcurrency reach the job options (copying only positive values is copying them all for unsigned fields) |
| QueueWorker.GetOptionsIgnoresTimeout | pkg/queue/worker.go:74-94 | MaxTimeout never influences the job options |
| QueueWorker.GetContext | pkg/queue/worker.go:96-107 | a deadline exists exactly when MaxTimeout > 0, and is MaxTimeout seconds when the product fits in int64 |
| QueueWorker.GetContextWrapsForHugeTimeouts | pkg/queue/worker.go:102 | a MaxTimeout beyond int64 nanoseconds wraps to a negative duration |
| QueueWorker.RunJob | pkg/queue/worker.go:48-58 | cancel always runs; the payload is decoded from a fresh zero value; a decode error is returned without calling the handler; otherwise the handler's result is returned |
| QueueWorker.RunJobIgnoresStalePayload | pkg/queue/worker.go:52 | the payload left by an earlier job never affects a later one |
| QueueWorker.RunWithContext | pkg/queue/worker.go:46-61 | the closure is registered under the worker's queue name with its job options, then the pool is started |
| QueueProducer.NewQueue | pkg/queue/queue.go:17-22 | keeps the queue name, has no payload, and binds the shared enqueuer |
| QueueProducer.WithData | pkg/queue/queue.go:25-27 | replaces the payload and nothing else |
| QueueProducer.WithDataLastWins | pkg/queue/queue.go:25-27 | of two WithData calls the later one wins |
| QueueProducer.Serialize | pkg/queue/queue.go:48-52 | a nil payload gives "null", a marshal error is swallowed as "", otherwise the marshalled text |
| QueueProducer.SerializeNonEmpty | pkg/queue/queue.go:48-52 | the text is empty exactly when a set payload fails to marshal |
| QueueProducer.Dispatch | pkg/queue/queue.go:30-45 | one enqueue on the bound queue name with exactly the argument "payload" = serialize(); only the enqueuer's error is returned |
| QueueProducer.DispatchFormsAgree | pkg/queue/queue.go:30-45 | Dispatch and DispatchUnique hand over the same call apart from the entry point |
| HttpsOptions.Merge | pkg/https/options.go:44-54 | a missing map adopts the incoming one; otherwise incoming keys overwrite and all other keys are kept |
| HttpsOptions.Put | pkg/https/options.go:57-64 | creates the map if absent, sets the key, and keeps every other key |
| HttpsOptions.MergeIdempotent | pkg/https/options.go:44-54 | merging the same map twice equals merging it once |
| HttpsOptions.WithMethod | pkg/https/options.go:37-41 | sets the method and nothing else |
| HttpsOptions.WithQueries | pkg/https/options.go:44-54 | merges into the query map and changes nothing else |
| HttpsOptions.WithQuery | pkg/https/options.go:57-64 | puts one query key and changes nothing else |
| HttpsOptions.WithHeaders | pkg/https/options.go:67-77 | merges into the header map and changes nothing else |
| HttpsOptions.WithHeader | pkg/https/options.go:80-87 | puts one header and changes nothing else |
| HttpsOptions.GraphQLBody | pkg/https/options.go:96-101 | the body has "query"; it has "variables" exactly when variables were given, set to the first one only |
| HttpsOptions.WithGraphQLReq | pkg/https/options.go:93-104 | sets method POST and the GraphQL body, and nothing else |
| HttpsOptions.WithJSONReq | pkg/https/options.go:109-113 | sets the JSON request value and nothing else |
| HttpsOptions.WithFormReq | pkg/https/options.go:118-122 | sets the form and nothing else |
| HttpsOptions.WithStrReq | pkg/https/options.go:125-129 | sets the byte body to the string's UTF-8 bytes and nothing else |
| HttpsOptions.WithByteReq | pkg/https/options.go:132-136 | sets the byte body (the same field as WithStrReq) and nothing else |
| HttpsOptions.WithMultipartFormReq | pkg/https/options.go:141-145 | sets the multipart form and nothing else |
| HttpsOptions.WithBasicAuth | pkg/https/options.go:149-156 | puts Authorization with the Basic credentials and keeps other headers and fields |
| HttpsOptions.CredentialBytes | pkg/https/options.go:154 | the credential bytes are user bytes, ':', password bytes |
| HttpsOptions.BasicCredentialsRoundTrip | pkg/https/options.go:154 | the header value is "Basic " followed by text that decodes to the credential bytes |
| HttpsOptions.BasicCredentialsSplit | pkg/https/options.go:154 | for a user id without ':', the first ':' in the decoded credentials separates user and password again (section 2 of RFC 7617) |
| HttpsOptions.WithJSONRespTo | pkg/https/options.go:165-169 | sets the JSON target and nothing else |
| HttpsOptions.WithTextRespTo | pkg/https/options.go:177-181 | sets the text target and nothing else |
| HttpsOptions.WithHeaderRespTo | pkg/https/options.go:184-188 | sets the response-header target and nothing else |
| HttpsOptions.WithTimeout | pkg/https/options.go:191-195 | sets the timeout and nothing else |
| HttpsOptions.WithGoProxyProvider | pkg/https/proxy.go:12-16 | sets the proxy provider and nothing else |
| HttpsOptions.WithShopifyAccessToken | pkg/https/shopify.go:10-17 | puts X-Shopify-Access-Token, creating the header map if needed, and keeps the rest |
| HttpsDo.StatusMessageCarriesCode | pkg/https/https.go:21-23 | the code can be read back from the message: the text between "status code: " and the next space parses to it |
| HttpsDo.WrappedCauseRecoverable | pkg/https/https.go:87-147 | every wrapped error's message ends with its cause's message |
| HttpsDo.ProxiedUrl | pkg/https/https.go:59-63 | the rewritten URL starts with "https://" + proxy host + "/" |
| HttpsDo.ProxiedUrlKeepsTarget | pkg/https/https.go:62 | the original host and path follow the proxy prefix, with an https:// or http:// scheme removed |
| HttpsDo.Resolve | pkg/https/https.go:39-54 | options in order; method GET when unset; headers never nil; Accept is JSON exactly when a JSON target is set; other fields as the options left them |
| HttpsDo.ChooseBody | pkg/https/https.go:83-105 | exactly one body kind, JSON over form over multipart over bytes; a marshal failure is the only error |
| HttpsDo.RequestHeaders | pkg/https/https.go:64-74 | Accept-Encoding is always "gzip, br"; the body's Content-Type wins over the caller's; other caller headers are kept; X-Proxy-Secret is present exactly when a secret or a caller value exists |
| HttpsDo.CallerHeaderOverridesProxySecret | pkg/https/https.go:64-74 | a caller's X-Proxy-Secret header overrides the provider's secret |
| HttpsDo.TimeoutNanos | pkg/https/https.go:109-113 | a positive timeout is that many seconds (when it fits in int64); otherwise 10 seconds |
| HttpsDo.Prepare | pkg/https/https.go:56-113 | the request has the resolved method, query, body and timeout; the proxied URL when a provider is set; Accept-Encoding; only a marshal failure stops it |
| HttpsDo.Complete | pkg/https/https.go:118-154 | headers are copied even for an error status; status > 300 is ErrorStatusNotOK; otherwise the body decompresses, then decodes into the JSON target or is written to the text target |
| HttpsDo.ThresholdIsAbove300 | pkg/https/https.go:128 | status 300 is success and 301 is an error |
| HttpsDo.Do | pkg/https/https.go:38-155 | a marshal failure ends the call before any exchange; success implies a response with status at most 300; written text is the response body |
| HttpsDo.AppendedTargetWins | pkg/https/https.go:160 | an option appended last decides the target whatever the caller's options set |
| HttpsDo.DoTextReturnsBody | pkg/https/https.go:158-162 | DoText returns the body of a successful response |
| HttpsDo.DoJSONSendsAccept | pkg/https/https.go:169-173 | DoJSON always sends Accept: application/json |
| HttpsProxy.NewRRProxyProvider | pkg/https/proxy.go:32-34 | the counter starts at -1 with the hosts and secret given |
| HttpsProxy.GetProxy | pkg/https/proxy.go:26-29 | the counter advances by one (int32); the secret is returned unchanged with one of the hosts; no hosts means a division-by-zero panic |
| HttpsProxy.CounterCountsCalls | pkg/https/proxy.go:27 | after k calls from a fresh provider the counter is k - 1 |
| HttpsProxy.RoundRobin | pkg/https/proxy.go:26-29 | the k-th call (from 0) returns hosts[k mod len(hosts)] and the secret |
| HttpsProxy.FirstCallUsesFirstHost | pkg/https/proxy.go:27-33 | a fresh provider's first call returns the first host |
| HttpsProxy.GetProxyPanicsAfterWrap | pkg/https/proxy.go:27-28 | with three hosts, call number 2^31 sees the counter wrapped to -2^31 and panics with index -2 |
| HttpsProxy.WrappedCallPanicsUnlessDivides | pkg/https/proxy.go:26-29 | once the counter is at MaxInt32 (after 2^31 calls), the next call panics exactly when the number of hosts does not divide 2^31, and otherwise returns the first host |
| HttpsProxy.GetProxyUnsigned | pkg/https/proxy.go:26-29 | with an unsigned counter the index is the counter mod len(hosts), and only an empty host list fails |
| HttpsProxy.UnsignedAfterCalls | pkg/https/proxy.go:27 | the unsigned counter stays in range and hosts and secret never change |
| HttpsProxy.UnsignedNeverPanics | pkg/https/proxy.go:26-29 | with hosts present the unsigned form succeeds after any number of calls |
| HttpsShopify.QuarterMonth | pkg/https/shopify.go:31 | the first month of the quarter: 1, 4, 7 or 10, at most the month and more than three below it |
| HttpsShopify.Pad2 | pkg/https/shopify.go:32 | `%02d` of 0..99 is two digits denoting the number |
| HttpsShopify.FallbackVersionShape | pkg/https/shopify.go:30-32 | the fallback version is the year, '-', and two digits naming the quarter's first month |
| HttpsShopify.GetVersion | pkg/https/shopify.go:27-39 | a cached version is kept; else SHOPIFY_API_VERSION when set; else the fallback; the result is cached and never empty |
| HttpsShopify.VersionIsSticky | pkg/https/shopify.go:27-39 | once a version is computed, later calls return it whatever the environment and date |
| HttpsShopify.JoinResources | pkg/https/shopify.go:59-62 | no resources give the empty path |
| HttpsShopify.JoinResourcesAppend | pkg/https/shopify.go:59-62 | the path of a concatenation is the concatenated paths |
| HttpsShopify.MakeShopifyGraphqlURL | pkg/https/shopify.go:42-44 | the admin API base for the domain and version, then "/graphql.json" |
| HttpsShopify.MakeShopifyRestURL | pkg/https/shopify.go:58-65 | the admin API base, "/" + each resource, then ".json" |
| HttpsShopify.GraphqlIsRestOfGraphql | pkg/https/shopify.go:42-65 | the GraphQL URL equals the REST URL for the single resource "graphql" |
| HttpsShopify.RestURLNests | pkg/https/shopify.go:58-65 | a nested resource's URL extends the parent's path |
| UrlQuery.HexDigit | pkg/telegram/telegram.go:112 | an upper-case hex digit that reads back as its value |
| UrlQuery.EscapeByte | pkg/telegram/telegram.go:112 | unreserved bytes stay, a space becomes '+', any other byte becomes '%' and two hex digits of its value |
| UrlQuery.EscapeBytes | pkg/telegram/telegram.go:112 | every character of an escaped text is unreserved, '+', '%' or a hex digit |
| UrlQuery.QueryEscape | pkg/telegram/telegram.go:112 | an escaped text never holds '&' or '=' |
| UrlQuery.QueryUnescapeEscape | pkg/telegram/telegram.go:112 | unescaping inverts `url.QueryEscape` on every string |
| UrlQuery.ParseEncodeQuery | pkg/telegram/telegram.go:112 | parsing inverts `url.Values.Encode` on every list of pairs |
| Translate.NewTranslator | pkg/translate/google/google.translate.go:40-51 | a nil client becomes the default client; the key is kept; the endpoint is fixed |
| Translate.AttemptURLCarriesParams | pkg/translate/google/google.translate.go:144-155 | an attempt's URL is the endpoint, '?', and a query that reads back as the fixed client parameters, the key, both languages and the text |
| Translate.NormalRetries | pkg/translate/google/google.translate.go:91-94 | negative retry counts become 0, others are kept |
| Translate.NormalDelay | pkg/translate/google/google.translate.go:96-99 | the delay is always positive: non-positive delays become one second |
| Translate.RunFromAlternates | pkg/translate/google/google.translate.go:105-123 | a run alternates attempts and waits, numbered consecutively, and makes at most maxRetries - k + 1 attempts |
| Translate.RunFromFailedBefore | pkg/translate/google/google.translate.go:105-122 | every attempt before the last failed and no wait before the last was cancelled |
| Translate.RunFromOutcome | pkg/translate/google/google.translate.go:105-126 | a run ends in one of three ways: the last attempt's success, cancellation in the wait after a failed non-final attempt, or failure after attempt maxRetries |
| Translate.AllFailuresExhaustRetries | pkg/translate/google/google.translate.go:105-126 | when every attempt fails, exactly maxRetries + 1 attempts are made and the error counts them and wraps the last error |
| Translate.FirstSuccessWins | pkg/translate/google/google.translate.go:106-109 | a success returns the text of the last attempt made, and every earlier attempt failed |
| Translate.EarlyReturnsMakeNoAttempt | pkg/translate/google/google.translate.go:81-88 | nil options fail with "options cannot be nil" and empty text returns "", both without an attempt |
| Translate.AttemptsBounded | pkg/translate/google/google.translate.go:105-122 | at most maxRetries + 1 attempts, numbered in order, with a wait only between two attempts |
| Translate.CancellationStopsRetrying | pkg/translate/google/google.translate.go:114-118 | cancellation ends the call at once with the context's error after a wait that followed a failed non-final attempt |
| Translate.RetryLoop | pkg/translate/google/google.translate.go:105-126 | the retry loop as written returns the result, and makes the attempts and waits, of the recursive reference definition |
| Translate.TranslateText | pkg/translate/google/google.translate.go:79-127 | the loop as written returns the result and makes the attempts and waits of the reference definition |
| Translate.DefaultsMakeOneAttempt | pkg/translate/google/google.translate.go:91-105 | zero MaxRetries and RetryDelay make exactly one attempt |
| Observer.NewSubject | pkg/observer/observer.go:20-22 | every topic starts with no observers |
| Observer.Subscribe | pkg/observer/observer.go:25-27 | appends at the end of the topic's list and leaves every other topic unchanged |
| Observer.SubscribeRegistersTopic | pkg/observer/observer.go:25-27 | after subscribing, the topic has an entry and no other topic gains one |
| Observer.SubscribeTwiceTwoEntries | pkg/observer/observer.go:26 | subscribing the same observer twice records it twice |
| Observer.PanicLogs | pkg/observer/observer.go:35-40 | at most one log per observer |
| Observer.Notify | pkg/observer/observer.go:30-45 | every registered observer of the topic handles it exactly once, in order; each panic is logged and stops nothing; an unknown topic does nothing |
| Observer.PanicLogsCount | pkg/observer/observer.go:35-40 | no panics give no logs, and all panicking gives one log per observer |
| ConsumerFactory.NewConsumerRegistry | pkg/observer/consumer_factory.go:36-40 | the registry starts with no factories |
| ConsumerFactory.Register | pkg/observer/consumer_factory.go:49-54 | each topic gains the factory once per time it is reported, after the factories already there |
| ConsumerFactory.RegisterNoTopics | pkg/observer/consumer_factory.go:51 | a factory reporting no topics leaves the registry unchanged |
| ConsumerFactory.RegisterDuplicateTopic | pkg/observer/consumer_factory.go:51-53 | a topic reported twice records the factory twice |
| ConsumerFactory.SubscribeEach | pkg/observer/consumer_factory.go:71-77 | a topic's factories each subscribe one fresh consumer, in order; other topics unchanged |
| ConsumerFactory.InitializeOrderSerials | pkg/observer/consumer_factory.go:68-79 | initialization creates exactly as many consumers as factory entries |
| ConsumerFactory.InitializeOrderUntouched | pkg/observer/consumer_factory.go:68-79 | topics not iterated are not changed |
| ConsumerFactory.InitializeOrderAdds | pkg/observer/consumer_factory.go:68-79 | a topic gains one fresh consumer per factory entry, in factory order |
| ConsumerFactory.Initialize | pkg/observer/consumer_factory.go:68-79 | initialization consumes exactly one serial per recorded factory entry |
| ConsumerFactory.InitializeAddsAll | pkg/observer/consumer_factory.go:68-79 | in any iteration order, each registered topic gains exactly its factories' fresh consumers in factory order, with serials after those of earlier topics |
| ConsumerFactory.InitializeKeepsOthers | pkg/observer/consumer_factory.go:68-79 | topics without registered factories keep their observers |
| ConsumerFactory.InitializeAfterRegister | pkg/observer/consumer_factory.go:49-79 | after registering one factory, each topic gains as many consumers as the factory reported it |
| Healthz.RunCatchPanic | pkg/healthz/healthz.go:19-29 | a returned error passes through unchanged; a panic becomes an error "panic: " + the value |
| Healthz.AsciiIsUtf8 | pkg/healthz/healthz.go:62-63 | the response texts' bytes are their UTF-8 encoding |
| Healthz.OKBytesIsResponse | pkg/healthz/healthz.go:62 | the healthy reply is a 200 response with Content-Length 0 and an empty body |
| Healthz.ErrWritesAreResponse | pkg/healthz/healthz.go:63-89 | the two writes of a failure form one 503 response whose Content-Length equals the error's byte length |
| Healthz.ParseResponseRoundTrip | pkg/healthz/healthz.go:62-89 | a parser reading the status line and Content-Length gets back the status line and exactly the body |
| Healthz.ServeAsWritten | pkg/healthz/healthz.go:76-97 | every connection ends with a 200 write and a close, whatever the checks did |
| Healthz.OneErrResponsePerFailure | pkg/healthz/healthz.go:76-93 | each failing check attempts one 503 response |
| Healthz.AllPassDeliversOK | pkg/healthz/healthz.go:96-97 | when every check passes the peer receives exactly the 200 response |
| Healthz.FirstFailureDelivered | pkg/healthz/healthz.go:76-90 | otherwise the peer receives exactly the first failure's 503 response |
| Healthz.AsWrittenWritesAfterClose | pkg/healthz/healthz.go:90-96 | a failing check leads to writes on the closed connection |
| Healthz.AsWrittenRunsEveryCheck | pkg/healthz/healthz.go:76-93 | two failing checks attempt two 503 responses on one connection |
| Healthz.ServeIntended | pkg/healthz/healthz.go:76-97 | the connection is closed once, last; at most one 503 response is attempted, exactly when a check fails |
| Healthz.IntendedNoWritesAfterClose | pkg/healthz/healthz.go:90-96 | the corrected loop never writes after closing |
| Healthz.IntendedDeliversSame | pkg/healthz/healthz.go:76-97 | the peer receives the same bytes from both forms |
| Healthz.RunServer | pkg/healthz/healthz.go:65-74 | a failed accept before any connection serves nothing |
| Healthz.EveryConnectionServed | pkg/healthz/healthz.go:65-98 | accepted connections are served one after another, each with the write sequence of its checks |
| Redis.FromEnv | pkg/redis/redis.go:54-62 | host and port from the environment, no password, MaxRetry 3, DB as `strconv.Atoi` leaves it |
| Redis.NonNumericDbIsZero | pkg/redis/redis.go:56 | a REDIS_DB that is not a number, signed or not, gives DB 0 |
| Redis.OverflowingDbIsClamped | pkg/redis/redis.go:56 | a REDIS_DB whose leading digits pass 2^64 - 1 gives the int64 bound on the side of its sign, even when a non-digit follows |
| Redis.Resolve | pkg/redis/redis.go:54-66 | no argument means the environment options; otherwise the first argument, later ones ignored |
| Redis.ConfigOf | pkg/redis/redis.go:70-75 | password, DB and retries copied from the options |
| Redis.AddrSplits | pkg/redis/redis.go:71 | the address is host ":" port, and splits back at its last ':' |
| Redis.NewClientRedis | pkg/redis/redis.go:50-79 | the first call builds the client from the resolved options and later calls return it; a nil pointer panics and leaves the once done |
| Redis.LaterCallsReturnSame | pkg/redis/redis.go:69-78 | once built, every call returns the same client whatever its arguments |
| Redis.FirstCallDecides | pkg/redis/redis.go:69-78 | every call of a sequence returns the client of the first call's options |
| Redis.EnvironmentClient | pkg/redis/redis.go:54-75 | with no arguments and a numeric REDIS_DB the client is host:port, no password, that DB, 3 retries |
| Redis.NilFirstCallPoisons | pkg/redis/redis.go:65-78 | a nil first argument panics, and every later call returns a nil client |
| Log.LevelFor | pkg/log/log.go:24-31 | Info exactly in production, Debug otherwise |
| Log.DevelopmentLogsMore | pkg/log/log.go:28-31 | development logs at a strictly lower minimum level than production |
| Log.ProductionIsExact | pkg/log/log.go:24 | only "prod", "production" and "master" are production; other spellings and an unset ENV are not |
| Log.ReplaceAttr | pkg/log/log.go:41-49 | an attribute is dropped exactly when its key is the time key at the root; otherwise it is returned unchanged |
| Log.ReplaceAttrIdempotent | pkg/log/log.go:45-48 | filtering twice equals filtering once |
| Log.SetLogHandler | pkg/log/log.go:19-52 | source locations are added, and the level is Info exactly in production |
| Timezone.Zone | pkg/timezone/init.go:32-37 | APP_TIMEZONE when set and non-empty, else "UTC"; never empty |
| Timezone.Init | pkg/timezone/init.go:30-42 | TZ becomes the zone; no other key changes and none is removed |
| Timezone.InitIdempotent | pkg/timezone/init.go:30-42 | running the rule twice equals running it once |
| Timezone.InitIgnoresPreviousTZ | pkg/timezone/init.go:41 | an earlier TZ value has no influence |
| Telegram.WithAppName | pkg/telegram/options.go:4-9 | sets the app name and nothing else |
| Telegram.WithChannelID | pkg/telegram/options.go:12-17 | sets the channel and nothing else |
| Telegram.WithToken | pkg/telegram/options.go:20-25 | sets the token and nothing else |
| Telegram.WithMetadata | pkg/telegram/options.go:28-33 | sets the metadata and nothing else |
| Telegram.SettersIdempotent | pkg/telegram/options.go:4-33 | applying any setter twice equals applying it once |
| Telegram.SettersIndependent | pkg/telegram/options.go:4-33 | each setter keeps the other three fields |
| Telegram.NewTelegram | pkg/telegram/telegram.go:43-56 | keeps the domain; without options every field is zero |
| Telegram.LastTokenWins | pkg/telegram/telegram.go:48-50 | the last WithToken decides the token |
| Telegram.ChannelUnsetByDefault | pkg/telegram/telegram.go:45-50 | options that do not touch the channel leave it empty |
| Telegram.MetadataSuffix | pkg/telegram/telegram.go:72-74 | the suffix is empty exactly when the metadata is nil |
| Telegram.MessageKinds | pkg/telegram/telegram.go:66-130 | install, re-install, uninstall and health messages are told apart by their first character |
| Telegram.InstallMessageLayout | pkg/telegram/telegram.go:66-71 | "Install" or "Re-install", then "[" domain "] - TIMESTAMP=" and the time |
| Telegram.MetadataOnlyAppends | pkg/telegram/telegram.go:72-74 | metadata only appends " - metadata=" and its rendering |
| Telegram.HealthMessageCode | pkg/telegram/telegram.go:130 | the health message carries app name, host, the decimal code and the error rendering, in that order |
| Telegram.UrlCarriesMessage | pkg/telegram/telegram.go:111-113 | the URL is the Bot API prefix, token and "/sendMessage?", and its query reads back as chat_id and text |
| Telegram.SendInstall | pkg/telegram/telegram.go:65-84 | requests the sendMessage URL of the token whose query reads back as the channel and the install message |
| Telegram.SendUnInstall | pkg/telegram/telegram.go:90-105 | requests the sendMessage URL whose query reads back as the channel and the uninstall message |
| Telegram.Health | pkg/telegram/telegram.go:129-139 | requests the sendMessage URL whose query reads back as the channel and the health message |
| Telegram.NotificationIsPlainGet | pkg/telegram/telegram.go:81-83 | the send is a GET with no body, only Accept-Encoding set, and the 10-second default timeout |

## Left out

- Network and I/O are parameters, never performed. This covers Redis dials, the gocraft/work
  enqueuer and worker pool, fasthttp's client, the Telegram and Google HTTP calls, the healthz
  TCP listener and signal handling, and slog output.
- gocraft/work's own semantics are not modelled: priority order, retries, dead-lettering,
  uniqueness and leasing. The model stops at the values handed to the library.
- JSON encoding and decoding are oracles: `json.Marshal`/`Unmarshal` and sonic.
- `translateTextOnce`'s response handling is an oracle (status check, JSON decoding, the error
  texts). Only its request URL is modelled.
- Goroutines are sequentialised. `Notify`'s handlers run one after another in registration
  order. A `sync.Once` is a state value, and atomic counters are plain values.
- Go map iteration order is a parameter (`Initialize`'s topic order). HTTP header names are not
  case-canonicalised the way fasthttp does it.
- Maps passed to `WithQueries`/`WithHeaders` are adopted by reference in Go, so a later merge
  also changes the caller's map. The model copies values.
- Go strings that are not valid UTF-8 are not represented.
- `Stop()` of the queue worker is not modelled; it only stops the library pool.
- Listener failure at start-up is not a separate case. A failed `ListenTCP` leaves a nil
  listener whose `AcceptTCP` fails at once, so healthz logs the error and leaves its loop. That is
  `RunServer`'s input starting with `AcceptFailed(false)`, which serves nothing.
- `Log.SetLogHandler`: the tint handler, its colours and the output stream are not modelled. Only
  the level, AddSource and the attribute filter are.
- `Observer.Notify`: the order in which goroutines run is not modelled. All completions are
  covered only in registration order.
- `Telegram.SendInstall`, `Telegram.SendUnInstall` and `Telegram.Health` return the requested
  URL. The outcome of `https.Do` is dropped by the source and not represented.
- `QueueWorker.RunJob`: jobs run one at a time. gocraft/work runs up to `maxConcurrent` jobs at
  once on one worker (pkg/queue/worker.go:39-40), and all of them assign and decode into the shared
  payload field (pkg/queue/worker.go:52-57). So a handler can receive another job's payload.
  `RunJobIgnoresStalePayload` holds only for jobs that do not overlap.
- `HttpsDo.Do`: the proxy choice `pick` is a pure parameter. The round-robin counter advance of
  pkg/https/https.go:60, which happens even when marshalling then fails, is not threaded through
  `Do`. `HttpsProxy.GetProxy` models that counter on its own.
- Writes to stdout are dropped. These are the `fmt.Println` calls at pkg/healthz/healthz.go:80
  (the failed check's message) and pkg/https/shopify.go:34 (the fallback version warning).
- `HttpsOptions.WithTimeout`: its argument is limited to int64, Go's `int` on 64-bit platforms.
- `Translate.RunFromAlternates`: with MaxRetries = MaxInt64 and every attempt failing, Go's loop never ends: `attempt++` at pkg/translate/google/google.translate.go:105 wraps to MinInt64, which still passes `attempt <= maxRetries`. The model's counter does not wrap, so it stops after 2^63 attempts, and its bound of maxRetries - k + 1 attempts does not hold for Go there.
- `Translate.RunFromOutcome`: with MaxRetries = MaxInt64 and every attempt failing, Go's loop never ends: `attempt++` at pkg/translate/google/google.translate.go:105 wraps to MinInt64, which still passes `attempt <= maxRetries`. The model's counter does not wrap, so it stops after 2^63 attempts with the all-failed ending, which Go never reaches there.
- `Translate.AllFailuresExhaustRetries`: with MaxRetries = MaxInt64 and every attempt failing, Go's loop never ends: `attempt++` at pkg/translate/google/google.translate.go:105 wraps to MinInt64, which still passes `attempt <= maxRetries`. The model's counter does not wrap, so it stops after 2^63 attempts and reports AllFailed(2^63, ...); Go returns nothing there.
- `Translate.AttemptsBounded`: with MaxRetries = MaxInt64 and every attempt failing, Go's loop never ends: `attempt++` at pkg/translate/google/google.translate.go:105 wraps to MinInt64, which still passes `attempt <= maxRetries`. The model's counter does not wrap, so it stops after 2^63 attempts; the maxRetries + 1 bound does not hold for Go there.
- `Translate.RetryLoop`: with MaxRetries = MaxInt64 and every attempt failing, Go's loop never ends: `attempt++` at pkg/translate/google/google.translate.go:105 wraps to MinInt64, which still passes `attempt <= maxRetries`. The model's counter does not wrap, so it stops after 2^63 attempts. A non-terminating loop cannot be stated here, so the loop stays bounded.
- `Translate.TranslateText`: with MaxRetries = MaxInt64 and every attempt failing, Go's loop never ends: `attempt++` at pkg/translate/google/google.translate.go:105 wraps to MinInt64, which still passes `attempt <= maxRetries`. The model's counter does not wrap, so it stops after 2^63 attempts and returns the all-failed error; Go does not return there unless an attempt succeeds or the context is cancelled.

## Findings

| source | as written | input that shows it | evidently intended | confidence | as-written member | corrected member |
|---|---|---|---|---|---|---|
| pkg/https/proxy.go:26-29 | the int32 counter wraps to -2^31 after 2^31 calls; unless the number of hosts divides 2^31 (1, 2, 4, ...), the truncating `%` then gives a negative index and the slice access panics | a provider with hosts ["a","b","c"] whose counter is 2^31-1, then one more `GetProxy` call | a lookup that never panics for a non-empty host list (an unsigned counter) | not executed | HttpsProxy.GetProxyPanicsAfterWrap | HttpsProxy.UnsignedNeverPanics |
| pkg/healthz/healthz.go:76-97 | `continue` only continues the inner loop over checks: after a failed check the connection is closed but later checks still run and write to it, and the 200 response is still written to the closed connection | one failing check: the 503 response, close, then the 200 write on the closed connection | stop at the first failure, close once, and never write the 200 response after a failure | not executed | Healthz.AsWrittenWritesAfterClose | Healthz.IntendedNoWritesAfterClose |

=== FILE: base64.dfy ===
/** The base 64 encoding of section 4 of RFC 4648 (Go's `base64.StdEncoding`): alphabet
    A-Z a-z 0-9 + /, three bytes to four characters, `=` padding to a multiple of four. */
module Base64 {
  import opened GoTypes

  predicate InAlphabet(c: char) {
    ('A' <= c <= 'Z') || ('a' <= c <= 'z') || ('0' <= c <= '9') || c == '+' || c == '/'
  }

  /** The character of a 6-bit value (Table 1 of RFC 4648). */
  function CharOf(v: nat): (c: char)
    requires v < 64
    ensures InAlphabet(c) && c != '='
  {
    if v < 26 then (('A' as int) + v) as char
    else if v < 52 then (('a' as int) + (v - 26)) as char
    else if v < 62 then (('0' as int) + (v - 52)) as char
    else if v == 62 then '+'
    else '/'
  }

  /** The 6-bit value of an alphabet character. */
  function ValueOf(c: char): (v: nat)
    requires InAlphabet(c)
    ensures v < 64
    ensures CharOf(v) == c
  {
    if 'A' <= c <= 'Z' then (c as int) - ('A' as int)
    else if 'a' <= c <= 'z' then (c as int) - ('a' as int) + 26
    else if '0' <= c <= '9' then (c as int) - ('0' as int) + 52
    else if c == '+' then 62
    else 63
  }

  lemma {:induction false} ValueOfCharOf(v: nat)
    requires v < 64
    ensures InAlphabet(CharOf(v)) && ValueOf(CharOf(v)) == v
  {
  }

  /** The four characters of a full group of three bytes. */
  function Group(b0: byte, b1: byte, b2: byte): (q: string)
    ensures |q| == 4 && forall i :: 0 <= i < 4 ==> InAlphabet(q[i])
  {
    [CharOf(b0 / 4), CharOf((b0 % 4) * 16 + b1 / 16), CharOf((b1 % 16) * 4 + b2 / 64), CharOf(b2 % 64)]
  }

  /** The final quantum of text ending one byte after a group boundary: two characters, "==". */
  function Final1(b0: byte): (q: string)
    ensures |q| == 4 && InAlphabet(q[0]) && InAlphabet(q[1]) && q[2] == '=' && q[3] == '='
  {
    [CharOf(b0 / 4), CharOf((b0 % 4) * 16), '=', '=']
  }

  /** The final quantum of text ending two bytes after a group boundary: three characters, "=". */
  function Final2(b0: byte, b1: byte): (q: string)
    ensures |q| == 4 && InAlphabet(q[0]) && InAlphabet(q[1]) && InAlphabet(q[2]) && q[3] == '='
  {
    [CharOf(b0 / 4), CharOf((b0 % 4) * 16 + b1 / 16), CharOf((b1 % 16) * 4), '=']
  }

  /** Encoded text: whole quanta of four characters, padding only at the end. */
  function Encode(bs: seq<byte>): (s: string)
    ensures |s| == 4 * ((|bs| + 2) / 3)
    ensures forall i :: 0 <= i < |s| ==> InAlphabet(s[i]) || s[i] == '='
  {
    if |bs| == 0 then ""
    else if |bs| == 1 then Final1(bs[0])
    else if |bs| == 2 then Final2(bs[0], bs[1])
    else
      var q, e := Group(bs[0], bs[1], bs[2]), Encode(bs[3..]);
      assert forall i :: 4 <= i < |q + e| ==> (q + e)[i] == e[i - 4];
      assert (|bs| + 2) / 3 == (|bs[3..]| + 2) / 3 + 1;
      q + e
  }

  /** Padded decoding: None unless the text is whole padded quanta over the alphabet. The unused
      low bits of a final quantum are ignored, so "QQ==" and "QR==" both decode to [0x41]. */
  function Decode(s: string): Option<seq<byte>>
  {
    if |s| == 0 then Some([])
    else if |s| < 4 || !InAlphabet(s[0]) || !InAlphabet(s[1]) then None
    else
      var v0, v1 := ValueOf(s[0]), ValueOf(s[1]);
      var b0 := v0 * 4 + v1 / 16;
      if s[2] == '=' && s[3] == '=' then
        if |s| == 4 then Some([b0]) else None
      else if !InAlphabet(s[2]) then None
      else
        var v2 := ValueOf(s[2]);
        var b1 := (v1 % 16) * 16 + v2 / 4;
        if s[3] == '=' then
          if |s| == 4 then Some([b0, b1]) else None
        else if !InAlphabet(s[3]) then None
        else
          var b2 := (v2 % 4) * 64 + ValueOf(s[3]);
          match Decode(s[4..])
          case None => None
          case Some(rest) => Some([b0, b1, b2] + rest)
  }

  /** Packing a high part and a low part below `k`, then splitting by `k`, gives them back. */
  lemma {:induction false} Unpack(hi: nat, lo: nat, k: nat)
    requires k == 4 || k == 16 || k == 64
    requires lo < k
    ensures (hi * k + lo) / k == hi && (hi * k + lo) % k == lo
  {
    if k == 4 {
      assert hi * k + lo == 4 * hi + lo;
    } else if k == 16 {
      assert hi * k + lo == 16 * hi + lo;
    } else {
      assert hi * k + lo == 64 * hi + lo;
    }
  }

  /** The 6-bit values one, two or three bytes are cut into, and the bytes recombined from
      them as `Decode` does, agree. */
  lemma {:induction false} Quantum(b0: byte, b1: byte, b2: byte)
    ensures (b0 / 4) * 4 + ((b0 % 4) * 16 + b1 / 16) / 16 == b0
    ensures (((b0 % 4) * 16 + b1 / 16) % 16) * 16 + ((b1 % 16) * 4 + b2 / 64) / 4 == b1
    ensures (((b1 % 16) * 4 + b2 / 64) % 4) * 64 + b2 % 64 == b2
  {
    Unpack(b0 % 4, b1 / 16, 16);
    Unpack(b1 % 16, b2 / 64, 4);
  }

  lemma {:induction false} Final1Values(b0: byte)
    ensures var q := Final1(b0); ValueOf(q[0]) * 4 + ValueOf(q[1]) / 16 == b0
  {
    var v0, v1 := b0 / 4, (b0 % 4) * 16;
    Unpack(b0 % 4, 0, 16);
    ValueOfCharOf(v0);
    ValueOfCharOf(v1);
  }

  lemma {:induction false} DecodeOneByte(b0: byte)
    ensures Decode(Encode([b0])) == Some([b0])
  {
    assert Encode([b0]) == Final1(b0);
    Final1Values(b0);
  }

  lemma {:induction false} Final2Values(b0: byte, b1: byte)
    ensures var q := Final2(b0, b1);
            && ValueOf(q[0]) * 4 + ValueOf(q[1]) / 16 == b0
            && (ValueOf(q[1]) % 16) * 16 + ValueOf(q[2]) / 4 == b1
  {
    var q := Final2(b0, b1);
    var v0, v1, v2 := b0 / 4, (b0 % 4) * 16 + b1 / 16, (b1 % 16) * 4;
    assert ValueOf(q[0]) == v0 by { ValueOfCharOf(v0); }
    assert ValueOf(q[1]) == v1 by { ValueOfCharOf(v1); }
    assert ValueOf(q[2]) == v2 by { ValueOfCharOf(v2); }
    Quantum(b0, b1, 0);
  }

  /** Decoding a final quantum of three characters and "=". */
  lemma {:induction false} DecodeFinal2(b0: byte, b1: byte)
    ensures Decode(Final2(b0, b1)) == Some([b0, b1])
  {
    Final2Values(b0, b1);
  }

  lemma {:induction false} DecodeTwoBytes(b0: byte, b1: byte)
    ensures Decode(Encode([b0, b1])) == Some([b0, b1])
  {
    assert Encode([b0, b1]) == Final2(b0, b1);
    DecodeFinal2(b0, b1);
  }

  /** The characters of a group read back as the 6-bit values that recombine to its bytes. */
  lemma {:induction false} GroupValues(b0: byte, b1: byte, b2: byte)
    ensures var q := Group(b0, b1, b2);
            && q[2] != '=' && q[3] != '='
            && ValueOf(q[0]) * 4 + ValueOf(q[1]) / 16 == b0
            && (ValueOf(q[1]) % 16) * 16 + ValueOf(q[2]) / 4 == b1
            && (ValueOf(q[2]) % 4) * 64 + ValueOf(q[3]) == b2
  {
    var q := Group(b0, b1, b2);
    var v0, v1, v2, v3 := b0 / 4, (b0 % 4) * 16 + b1 / 16, (b1 % 16) * 4 + b2 / 64, b2 % 64;
    assert ValueOf(q[0]) == v0 by { ValueOfCharOf(v0); }
    assert ValueOf(q[1]) == v1 by { ValueOfCharOf(v1); }
    assert ValueOf(q[2]) == v2 by { ValueOfCharOf(v2); }
    assert ValueOf(q[3]) == v3 by { ValueOfCharOf(v3); }
    Quantum(b0, b1, b2);
  }

  /** One full quantum in front of any text decodes to its three bytes in front of that
      text's decoding. */
  lemma {:induction false} DecodeFullQuantum(b0: byte, b1: byte, b2: byte, rest: string)
    ensures Decode(Group(b0, b1, b2) + rest)
         == (match Decode(rest) case None => None case Some(r) => Some([b0, b1, b2] + r))
  {
    var q := Group(b0, b1, b2);
    var s := q + rest;
    GroupValues(b0, b1, b2);
    assert s[0] == q[0] && s[1] == q[1] && s[2] == q[2] && s[3] == q[3];
    assert s[4..] == rest;
  }

  /** A text of three or more bytes encodes as its first quantum followed by the rest's encoding. */
  lemma {:induction false} EncodeQuantum(bs: seq<byte>)
    requires |bs| >= 3
    ensures Encode(bs) == Group(bs[0], bs[1], bs[2]) + Encode(bs[3..])
  {
  }

  lemma {:induction false} FirstThree(bs: seq<byte>)
    requires |bs| >= 3
    ensures [bs[0], bs[1], bs[2]] + bs[3..] == bs
  {
  }

  /** The step of the round trip for three or more bytes, given the round trip of the rest. */
  lemma {:induction false} DecodeEncodeStep(bs: seq<byte>)
    requires |bs| >= 3
    requires Decode(Encode(bs[3..])) == Some(bs[3..])
    ensures Decode(Encode(bs)) == Some(bs)
  {
    var rest := bs[3..];
    var q := Group(bs[0], bs[1], bs[2]);
    var e := Encode(rest);
    assert Encode(bs) == q + e by {
      EncodeQuantum(bs);
    }
    assert Decode(q + e) == Some([bs[0], bs[1], bs[2]] + rest) by {
      DecodeFullQuantum(bs[0], bs[1], bs[2], e);
    }
    FirstThree(bs);
  }

  /** Decode inverts Encode on every byte string. */
  lemma {:induction false} DecodeEncode(bs: seq<byte>)
    ensures Decode(Encode(bs)) == Some(bs)
    decreases |bs|
  {
    if |bs| == 0 {
    } else if |bs| == 1 {
      DecodeOneByte(bs[0]);
      assert [bs[0]] == bs;
    } else if |bs| == 2 {
      DecodeTwoBytes(bs[0], bs[1]);
      assert [bs[0], bs[1]] == bs;
    } else {
      DecodeEncode(bs[3..]);
      DecodeEncodeStep(bs);
    }
  }
}

=== FILE: consumer_factory.dfy ===
/** `pkg/observer/consumer_factory.go`: factories recorded per topic, then one fresh consumer
    per recorded factory subscribed at initialisation. A factory's `Topics()` is an oracle; a
    consumer is identified by its factory and a creation serial number, so each
    `CreateConsumer` call yields a new one. Go's map iteration order is a parameter. */
module ConsumerFactory {
  import Observer

  type Topic = Observer.Topic

  /** The registry's factory map. */
  type Registry<F> = map<Topic, seq<F>>

  /** The observer `CreateConsumer` returns: the `serial`-th consumer created. */
  datatype Consumer<F> = Consumer(factory: F, serial: nat)

  function NewConsumerRegistry<F>(): (r: Registry<F>)
    ensures forall t :: Observer.Get(r, t) == []
  {
    map[]
  }

  /** How often `t` occurs in `ts`. */
  function Count(ts: seq<Topic>, t: Topic): nat
  {
    if |ts| == 0 then 0 else (if ts[0] == t then 1 else 0) + Count(ts[1..], t)
  }

  /** `n` copies of `f`. */
  function Repeat<F>(f: F, n: nat): (s: seq<F>)
    ensures |s| == n && forall i :: 0 <= i < n ==> s[i] == f
  {
    seq(n, _ => f)
  }

  /** `Register` over the factory's topics: `f` is appended to each topic's list once per
      occurrence of the topic, after the factories registered before it. */
  function Register<F>(r: Registry<F>, f: F, topics: seq<Topic>): (r': Registry<F>)
    ensures forall t :: Observer.Get(r', t) == Observer.Get(r, t) + Repeat(f, Count(topics, t))
    decreases |topics|
  {
    if |topics| == 0 then r
    else
      var t0 := topics[0];
      var r1 := r[t0 := Observer.Get(r, t0) + [f]];
      var r2 := Register(r1, f, topics[1..]);
      assert forall t :: Observer.Get(r2, t) == Observer.Get(r, t) + Repeat(f, Count(topics, t)) by {
        forall t
          ensures Observer.Get(r2, t) == Observer.Get(r, t) + Repeat(f, Count(topics, t))
        {
          if t == t0 {
            assert [f] + Repeat(f, Count(topics[1..], t)) == Repeat(f, Count(topics, t));
          }
        }
      }
      r2
  }

  /** A factory with no topics leaves the registry as it was. */
  lemma {:induction false} RegisterNoTopics<F>(r: Registry<F>, f: F)
    ensures Register(r, f, []) == r
  {
  }

  /** A topic reported twice records the factory twice, in registration order. */
  lemma {:induction false} RegisterDuplicateTopic<F>(r: Registry<F>, f: F, t: Topic)
    ensures Observer.Get(Register(r, f, [t, t]), t) == Observer.Get(r, t) + [f, f]
  {
    assert [t, t][1..] == [t];
    assert [t][1..] == [];
    assert Count([t], t) == 1;
    assert Count([t, t], t) == 2;
    assert Repeat(f, 2) == [f, f];
  }

  /** The consumers created from `fs`, numbered from `serial`. */
  function Consumers<F>(fs: seq<F>, serial: nat): (cs: seq<Consumer<F>>)
    ensures |cs| == |fs|
  {
    seq(|fs|, i requires 0 <= i < |fs| => Consumer(fs[i], serial + i))
  }

  /** The i-th consumer comes from the i-th factory and has the i-th serial after `serial`. */
  lemma {:induction false} ConsumersAt<F>(fs: seq<F>, serial: nat)
    ensures forall i :: 0 <= i < |fs| ==> Consumers(fs, serial)[i] == Consumer(fs[i], serial + i)
  {
  }

  lemma {:induction false} ConsumersCons<F>(fs: seq<F>, serial: nat)
    requires |fs| > 0
    ensures [Consumer(fs[0], serial)] + Consumers(fs[1..], serial + 1) == Consumers(fs, serial)
  {
    ConsumersAt(fs, serial);
    ConsumersAt(fs[1..], serial + 1);
  }

  /** The inner loop of `Initialize`: one new consumer per factory of topic `t`, subscribed in
      factory order. */
  function SubscribeEach<F>(s: Observer.Subject<Consumer<F>>, t: Topic, fs: seq<F>, serial: nat)
    : (r: (Observer.Subject<Consumer<F>>, nat))
    ensures r.1 == serial + |fs|
    ensures Observer.Get(r.0, t) == Observer.Get(s, t) + Consumers(fs, serial)
    ensures forall u :: u != t ==> Observer.Get(r.0, u) == Observer.Get(s, u)
    decreases |fs|
  {
    if |fs| == 0 then (s, serial)
    else
      var c := Consumer(fs[0], serial);
      var s1 := Observer.Subscribe(s, t, c);
      var r := SubscribeEach(s1, t, fs[1..], serial + 1);
      ConsumersCons(fs, serial);
      assert Observer.Get(s1, t) + Consumers(fs[1..], serial + 1)
          == Observer.Get(s, t) + ([c] + Consumers(fs[1..], serial + 1));
      r
  }

  /** The outer loop of `Initialize` over the topics in `order`; a topic's factories are read
      as Go reads a map, so a topic without an entry has none. */
  function InitializeOrder<F>(s: Observer.Subject<Consumer<F>>, r: Registry<F>, order: seq<Topic>, serial: nat)
    : (res: (Observer.Subject<Consumer<F>>, nat))
    decreases |order|
  {
    if |order| == 0 then (s, serial)
    else
      var p := SubscribeEach(s, order[0], Observer.Get(r, order[0]), serial);
      InitializeOrder(p.0, r, order[1..], p.1)
  }

  /** How many consumers the topics of `order` before `t` create. */
  function Offset<F>(r: Registry<F>, order: seq<Topic>, t: Topic): nat
    decreases |order|
  {
    if |order| == 0 || order[0] == t then 0 else |Observer.Get(r, order[0])| + Offset(r, order[1..], t)
  }

  /** How many consumers all topics of `order` create. */
  function Total<F>(r: Registry<F>, order: seq<Topic>): nat
    decreases |order|
  {
    if |order| == 0 then 0 else |Observer.Get(r, order[0])| + Total(r, order[1..])
  }

  /** No topic occurs twice (a map's keys, as its iteration visits them). */
  predicate Distinct(order: seq<Topic>)
    decreases |order|
  {
    |order| == 0 || (order[0] !in order[1..] && Distinct(order[1..]))
  }

  /** Distinct positions of a repetition-free order hold distinct topics. */
  lemma {:induction false} DistinctAt(order: seq<Topic>, i: nat, j: nat)
    requires Distinct(order) && i < j < |order|
    ensures order[i] != order[j]
    decreases i
  {
    if i == 0 {
      assert order[j] == order[1..][j - 1];
    } else {
      DistinctAt(order[1..], i - 1, j - 1);
    }
  }

  /** One step of the outer loop: the first topic's factories, then the rest of the order. */
  lemma {:induction false} InitializeOrderStep<F>(s: Observer.Subject<Consumer<F>>, r: Registry<F>, order: seq<Topic>, serial: nat)
    requires |order| > 0
    ensures var p := SubscribeEach(s, order[0], Observer.Get(r, order[0]), serial);
            InitializeOrder(s, r, order, serial) == InitializeOrder(p.0, r, order[1..], p.1)
  {
  }

  /** Initialisation uses exactly the next `Total` serials. */
  lemma {:induction false} InitializeOrderSerials<F>(s: Observer.Subject<Consumer<F>>, r: Registry<F>, order: seq<Topic>, serial: nat)
    ensures InitializeOrder(s, r, order, serial).1 == serial + Total(r, order)
    decreases |order|
  {
    if |order| > 0 {
      var p := SubscribeEach(s, order[0], Observer.Get(r, order[0]), serial);
      InitializeOrderSerials(p.0, r, order[1..], p.1);
    }
  }

  /** Topics that are not iterated are left alone. */
  lemma {:induction false} InitializeOrderUntouched<F>(s: Observer.Subject<Consumer<F>>, r: Registry<F>, order: seq<Topic>, serial: nat, t: Topic)
    requires t !in order
    ensures Observer.Get(InitializeOrder(s, r, order, serial).0, t) == Observer.Get(s, t)
    decreases |order|
  {
    if |order| > 0 {
      var p := SubscribeEach(s, order[0], Observer.Get(r, order[0]), serial);
      InitializeOrderUntouched(p.0, r, order[1..], p.1, t);
    }
  }

  /** The topics before `t` use fewer serials than all of them. */
  lemma {:induction false} OffsetWithinTotal<F>(r: Registry<F>, order: seq<Topic>, t: Topic)
    requires t in order
    ensures Offset(r, order, t) + |Observer.Get(r, t)| <= Total(r, order)
    decreases |order|
  {
    if order[0] != t {
      OffsetWithinTotal(r, order[1..], t);
    }
  }

  /** The first topic of the order gets its consumers first, from `serial` on. */
  lemma {:induction false} InitializeOrderAddsFirst<F>(s: Observer.Subject<Consumer<F>>, r: Registry<F>, order: seq<Topic>, serial: nat)
    requires |order| > 0 && Distinct(order)
    ensures Observer.Get(InitializeOrder(s, r, order, serial).0, order[0])
         == Observer.Get(s, order[0]) + Consumers(Observer.Get(r, order[0]), serial + Offset(r, order, order[0]))
  {
    var t0 := order[0];
    var p := SubscribeEach(s, t0, Observer.Get(r, t0), serial);
    InitializeOrderStep(s, r, order, serial);
    InitializeOrderUntouched(p.0, r, order[1..], p.1, t0);
  }

  /** A topic listed once gains one new consumer per recorded factory, in factory order,
      numbered consecutively from where the topics before it stopped. */
  lemma {:induction false} InitializeOrderAdds<F>(s: Observer.Subject<Consumer<F>>, r: Registry<F>, order: seq<Topic>, serial: nat, t: Topic)
    requires Distinct(order) && t in order
    ensures Observer.Get(InitializeOrder(s, r, order, serial).0, t)
         == Observer.Get(s, t) + Consumers(Observer.Get(r, t), serial + Offset(r, order, t))
    decreases |order|, 1
  {
    if t == order[0] {
      InitializeOrderAddsFirst(s, r, order, serial);
    } else {
      InitializeOrderAddsLater(s, r, order, serial, t);
    }
  }

  /** A topic after the first gets what it gets from the rest of the order, whose serials
      start after the first topic's consumers. */
  lemma {:induction false} InitializeOrderAddsLater<F>(s: Observer.Subject<Consumer<F>>, r: Registry<F>, order: seq<Topic>, serial: nat, t: Topic)
    requires Distinct(order) && t in order && t != order[0]
    ensures Observer.Get(InitializeOrder(s, r, order, serial).0, t)
         == Observer.Get(s, t) + Consumers(Observer.Get(r, t), serial + Offset(r, order, t))
    decreases |order|, 0
  {
    var t0 := order[0];
    var p := SubscribeEach(s, t0, Observer.Get(r, t0), serial);
    var rest := order[1..];
    assert t in rest;
    InitializeOrderAdds(p.0, r, rest, p.1, t);
    InitializeOrderStep(s, r, order, serial);
    assert Observer.Get(p.0, t) == Observer.Get(s, t);
    assert p.1 + Offset(r, rest, t) == serial + Offset(r, order, t);
  }

  /** `Initialize` with `order` the map's iteration order: every topic of the registry, once.
      The serials used are the next `Total` ones; what each topic gains is stated by
      `InitializeAddsAll` and `InitializeKeepsOthers`. */
  function Initialize<F>(s: Observer.Subject<Consumer<F>>, r: Registry<F>, order: seq<Topic>, serial: nat)
    : (res: (Observer.Subject<Consumer<F>>, nat))
    requires forall i :: 0 <= i < |order| ==> order[i] in r
    requires forall t :: t in r ==> t in order
    requires Distinct(order)
    ensures res.1 == serial + Total(r, order)
  {
    InitializeOrderSerials(s, r, order, serial);
    InitializeOrder(s, r, order, serial)
  }

  /** Topics outside the registry are never iterated, so keep their observers. */
  lemma {:induction false} InitializeKeepsOthers<F>(s: Observer.Subject<Consumer<F>>, r: Registry<F>, order: seq<Topic>, serial: nat)
    requires forall i :: 0 <= i < |order| ==> order[i] in r
    requires forall t :: t in r ==> t in order
    requires Distinct(order)
    ensures forall t :: t !in r ==> Observer.Get(Initialize(s, r, order, serial).0, t) == Observer.Get(s, t)
  {
    forall t | t !in r ensures Observer.Get(InitializeOrder(s, r, order, serial).0, t) == Observer.Get(s, t) {
      InitializeOrderUntouched(s, r, order, serial, t);
    }
  }

  /** In any iteration order, every topic of the registry gains exactly the consumers of its
      factories, in factory order, numbered after those of the topics iterated before it and
      within the serials the loop uses. */
  lemma {:induction false} InitializeAddsAll<F>(s: Observer.Subject<Consumer<F>>, r: Registry<F>, order: seq<Topic>, serial: nat)
    requires forall i :: 0 <= i < |order| ==> order[i] in r
    requires forall t :: t in r ==> t in order
    requires Distinct(order)
    ensures forall t :: t in r ==>
              && Observer.Get(Initialize(s, r, order, serial).0, t)
                 == Observer.Get(s, t) + Consumers(r[t], serial + Offset(r, order, t))
              && serial + Offset(r, order, t) + |r[t]| <= Initialize(s, r, order, serial).1
  {
    var res := Initialize(s, r, order, serial);
    forall t | t in r
      ensures Observer.Get(res.0, t) == Observer.Get(s, t) + Consumers(r[t], serial + Offset(r, order, t))
      ensures serial + Offset(r, order, t) + |r[t]| <= res.1
    {
      InitializeOrderAdds(s, r, order, serial, t);
      OffsetWithinTotal(r, order, t);
    }
  }

  /** Initialising after registering one factory for topics `ts` subscribes, on each topic,
      exactly as many consumers of it as the topic occurs in `ts`. */
  lemma {:induction false} InitializeAfterRegister<F>(s: Observer.Subject<Consumer<F>>, f: F, ts: seq<Topic>, order: seq<Topic>, serial: nat)
    requires var r := Register(NewConsumerRegistry(), f, ts); forall t :: t in r <==> t in order
    requires Distinct(order)
    ensures var r := Register(NewConsumerRegistry(), f, ts);
            var res := Initialize(s, r, order, serial);
            forall t :: |Observer.Get(res.0, t)| == |Observer.Get(s, t)| + Count(ts, t)
  {
    var r := Register(NewConsumerRegistry(), f, ts);
    assert forall i :: 0 <= i < |order| ==> order[i] in r;
    InitializeKeepsOthers(s, r, order, serial);
    InitializeAddsAll(s, r, order, serial);
    var res := Initialize(s, r, order, serial);
    forall t ensures |Observer.Get(res.0, t)| == |Observer.Get(s, t)| + Count(ts, t) {
      assert Observer.Get(r, t) == Repeat(f, Count(ts, t));
    }
  }
}

=== FILE: decimal.dfy ===
/** Decimal text for integers: Go's `strconv.Itoa` / `%d` rendering and `strconv.Atoi` parsing
    (base 10, optional sign, no underscores, 64-bit `int`). */
module Decimal {
  import opened GoTypes

  predicate IsDigit(c: char) { '0' <= c <= '9' }

  /** Non-empty and made only of ASCII decimal digits. */
  predicate IsDigits(s: string) {
    |s| > 0 && forall i :: 0 <= i < |s| ==> IsDigit(s[i])
  }

  function DigitChar(d: nat): (c: char)
    requires d < 10
    ensures IsDigit(c)
  {
    (('0' as int) + d) as char
  }

  function DigitValue(c: char): (d: nat)
    requires IsDigit(c)
    ensures d < 10
    ensures DigitChar(d) == c
  {
    (c as int) - ('0' as int)
  }

  /** The number a string of digits denotes (most significant digit first). */
  function DigitsValue(s: string): nat
    requires forall i :: 0 <= i < |s| ==> IsDigit(s[i])
  {
    if |s| == 0 then 0 else DigitsValue(s[..|s| - 1]) * 10 + DigitValue(s[|s| - 1])
  }

  /** Shortest decimal rendering of a natural number, as Go's `%d` prints it. */
  function NatToString(n: nat): (s: string)
    ensures IsDigits(s)
    ensures DigitsValue(s) == n
    ensures s[0] == '0' ==> n == 0
  {
    if n < 10 then [DigitChar(n)]
    else
      var p := NatToString(n / 10);
      var s := p + [DigitChar(n % 10)];
      assert s[..|s| - 1] == p;
      s
  }

  /** Go's `strconv.Itoa(n)` and `fmt.Sprintf("%d", n)`. */
  function Itoa(n: int): (s: string)
    ensures |s| > 0
    ensures n >= 0 ==> IsDigits(s) && DigitsValue(s) == n
    ensures n < 0 ==> s[0] == '-' && IsDigits(s[1..]) && DigitsValue(s[1..]) == -n
  {
    if n < 0 then "-" + NatToString(-n) else NatToString(n)
  }

  /** Every character of the rendering is a digit or a minus sign; in particular it holds no space. */
  lemma {:induction false} ItoaHasNoSpace(n: int)
    ensures forall i :: 0 <= i < |Itoa(n)| ==> Itoa(n)[i] == '-' || IsDigit(Itoa(n)[i])
  {
  }

  datatype NumError = ErrSyntax | ErrRange

  /** `strconv.Atoi`'s two results: the value, and the error (None for nil). */
  datatype Parsed = Parsed(value: int, err: Option<NumError>)

  /** The text after an optional leading `+` or `-`. */
  function Unsigned(s: string): (d: string)
    ensures |s| > 0 && (s[0] == '+' || s[0] == '-') ==> d == s[1..]
    ensures !(|s| > 0 && (s[0] == '+' || s[0] == '-')) ==> d == s
  {
    if |s| > 0 && (s[0] == '+' || s[0] == '-') then s[1..] else s
  }

  /** The length of the run of digits `s` starts with. */
  function LeadingDigits(s: string): (k: nat)
    ensures k <= |s|
    ensures forall i :: 0 <= i < k ==> IsDigit(s[i])
    ensures k < |s| ==> !IsDigit(s[k])
  {
    if |s| == 0 || !IsDigit(s[0]) then 0
    else
      var k := 1 + LeadingDigits(s[1..]);
      assert forall i :: 1 <= i < k ==> s[i] == s[1..][i - 1];
      k
  }

  /** The leading run of digits is the only prefix of digits followed by a non-digit or the end. */
  lemma LeadingDigitsIs(s: string, k: nat)
    requires k <= |s|
    requires forall i :: 0 <= i < k ==> IsDigit(s[i])
    requires k < |s| ==> !IsDigit(s[k])
    ensures LeadingDigits(s) == k
  {
  }

  /** The number denoted by the digits `s` starts with (0 when it starts with none). */
  function LeadingValue(s: string): nat
  {
    DigitsValue(s[..LeadingDigits(s)])
  }

  /** The texts `strconv.Atoi` rejects with a syntax error: after the optional sign, the digits
      are missing or a non-digit comes before the digits read so far exceed 2^64 - 1. */
  predicate NotANumber(s: string) {
    !IsDigits(Unsigned(s)) && LeadingValue(Unsigned(s)) <= MaxUint64
  }

  /** Go's `strconv.Atoi` on a 64-bit platform, which reads like `strconv.ParseInt(s, 10, 64)`:
      after an optional `+`/`-` sign the digits are accumulated as a uint64 from the left, and
      the scan stops with a range error as soon as the value passes 2^64 - 1, or with a syntax
      error at the first non-digit (or at once when there are no digits). A syntax error
      yields 0; a range error yields the int64 bound on the side of the sign. */
  function Atoi(s: string): (r: Parsed)
    ensures IsInt64(r.value)
    ensures r.err == Some(ErrSyntax) ==> r.value == 0
    ensures r.err == Some(ErrRange) ==> r.value == (if |s| > 0 && s[0] == '-' then MinInt64 else MaxInt64)
    ensures r.err == None ==> IsDigits(Unsigned(s))
  {
    var neg := |s| > 0 && s[0] == '-';
    var digits := Unsigned(s);
    var k := LeadingDigits(digits);
    var run: int := DigitsValue(digits[..k]);
    if run > MaxUint64 then Parsed(if neg then MinInt64 else MaxInt64, Some(ErrRange))
    else if k == 0 || k < |digits| then Parsed(0, Some(ErrSyntax))
    else
      var v := if neg then 0 - run else run;
      if v > MaxInt64 then Parsed(MaxInt64, Some(ErrRange))
      else if v < MinInt64 then Parsed(MinInt64, Some(ErrRange))
      else Parsed(v, None)
  }

  /** A syntax error is reported exactly for the texts that are not a number. */
  lemma {:induction false} AtoiSyntaxError(s: string)
    ensures Atoi(s).err == Some(ErrSyntax) <==> NotANumber(s)
  {
    var d := Unsigned(s);
    if IsDigits(d) {
      LeadingDigitsIs(d, |d|);
      assert d[..|d|] == d;
    }
  }

  /** A signed digit string is read as its signed value when that fits in an int64. */
  lemma {:induction false} AtoiInRange(s: string)
    requires IsDigits(Unsigned(s))
    requires IsInt64(if |s| > 0 && s[0] == '-' then 0 - DigitsValue(Unsigned(s)) else DigitsValue(Unsigned(s)))
    ensures Atoi(s) == Parsed(if |s| > 0 && s[0] == '-' then 0 - DigitsValue(Unsigned(s)) else DigitsValue(Unsigned(s)), None)
  {
    var d := Unsigned(s);
    LeadingDigitsIs(d, |d|);
    assert d[..|d|] == d;
  }

  /** Digits worth more than 2^64 - 1 give a range error whatever follows them: the scan
      overflows before it reaches the first non-digit. */
  lemma {:induction false} AtoiOverflowFirst(s: string)
    requires LeadingValue(Unsigned(s)) > MaxUint64
    ensures Atoi(s) == Parsed(if |s| > 0 && s[0] == '-' then MinInt64 else MaxInt64, Some(ErrRange))
  {
  }

  /** A number above 2^64 - 1 followed by a non-digit reads as the largest int64, not as 0. */
  lemma {:induction false} OverflowThenNonDigit(n: nat, c: char)
    requires n > MaxUint64 && !IsDigit(c)
    ensures Atoi(NatToString(n) + [c]) == Parsed(MaxInt64, Some(ErrRange))
  {
    var p := NatToString(n);
    var s := p + [c];
    assert s[..|p|] == p;
    LeadingDigitsIs(s, |p|);
    assert IsDigit(s[0]);
    AtoiOverflowFirst(s);
  }

  /** For example, twenty nines followed by a letter. */
  lemma {:induction false} TwentyNinesThenLetter()
    ensures Atoi(NatToString(99999999999999999999) + "x") == Parsed(MaxInt64, Some(ErrRange))
  {
    OverflowThenNonDigit(99999999999999999999, 'x');
  }

  /** `strconv.Atoi` inverts `strconv.Itoa` on every 64-bit integer. */
  lemma {:induction false} AtoiItoa(n: int)
    requires IsInt64(n)
    ensures Atoi(Itoa(n)) == Parsed(n, None)
  {
    var s := Itoa(n);
    if n < 0 {
      assert s[0] == '-';
    } else {
      assert IsDigit(s[0]);
    }
    AtoiInRange(s);
  }

  /** A number rendered between two texts is found again at its place, and parses back. */
  lemma {:induction false} ItoaBetween(p: string, n: int, q: string)
    requires IsInt64(n)
    ensures var d := Itoa(n); var m := p + d + q;
            && m[..|p|] == p && m[|p|..|p| + |d|] == d && m[|p| + |d|..] == q
            && Atoi(m[|p|..|p| + |d|]) == Parsed(n, None)
  {
    var d := Itoa(n);
    var m := p + d + q;
    assert m[..|p|] == p;
    assert m[|p|..|p| + |d|] == d;
    assert m[|p| + |d|..] == q;
    AtoiItoa(n);
  }

  /** The value Go code obtains from `v, _ := strconv.Atoi(s)`: 0 for text that is not a
      number, the nearest int64 bound for a number out of range. */
  function AtoiOrZero(s: string): (v: int)
    ensures IsInt64(v)
    ensures IsDigits(s) && DigitsValue(s) <= MaxInt64 ==> v == DigitsValue(s)
    ensures NotANumber(s) ==> v == 0
    ensures LeadingValue(Unsigned(s)) > MaxUint64 ==> v == (if |s| > 0 && s[0] == '-' then MinInt64 else MaxInt64)
  {
    AtoiSyntaxError(s);
    if IsDigits(s) && DigitsValue(s) <= MaxInt64 then
      assert Unsigned(s) == s by { assert IsDigit(s[0]); }
      AtoiInRange(s);
      Atoi(s).value
    else
      Atoi(s).value
  }
}

=== FILE: env.dfy ===
/** The process environment, and `pkg/env`'s `MustGet`. */
module Env {
  import opened GoTypes

  /** The environment as a map; a key is set iff it is in the map. */
  type Environ = map<string, string>

  /** `os.Getenv`: the value, or "" when the key is unset. */
  function Getenv(env: Environ, key: string): string
  {
    if key in env then env[key] else ""
  }

  /** `os.Setenv` (its error return, for invalid keys, is not modelled). */
  function Setenv(env: Environ, key: string, value: string): Environ
  {
    env[key := value]
  }

  function NotFoundMessage(key: string): string
  {
    "environment variable " + key + " not found"
  }

  /** `MustGet`: the value of a set key (even an empty one); a panic for an unset key.
      Presence is decided by lookup, not by emptiness. */
  function MustGet(env: Environ, key: string): (r: Result<string, string>)
    ensures key in env <==> r.Ok?
    ensures r.Ok? ==> r.value == env[key]
    ensures r.Err? ==> r.error == "environment variable " + key + " not found"
  {
    if key in env then Ok(env[key]) else Err(NotFoundMessage(key))
  }

  /** A set key with an empty value is returned as "" and does not panic, unlike Getenv
      which cannot tell it from an unset key. */
  lemma {:induction false} MustGetEmptyValue(env: Environ, key: string)
    requires key in env && env[key] == ""
    ensures MustGet(env, key) == Ok("")
    ensures MustGet(env - {key}, key).Err?
    ensures Getenv(env, key) == Getenv(env - {key}, key)
  {
  }
}

=== FILE: go_strings.dfy ===
/** The few functions of Go's `strings` package the model needs. */
module GoStrings {

  predicate HasPrefix(s: string, prefix: string) {
    |prefix| <= |s| && s[..|prefix|] == prefix
  }

  /** `strings.TrimPrefix`: drops one leading occurrence of `prefix`, if there is one. */
  function TrimPrefix(s: string, prefix: string): (r: string)
    ensures HasPrefix(s, prefix) ==> prefix + r == s
    ensures !HasPrefix(s, prefix) ==> r == s
  {
    if HasPrefix(s, prefix) then s[|prefix|..] else s
  }

  /** Trimming a prefix that was just prepended gives the original text back. */
  lemma {:induction false} TrimPrefixOfConcat(prefix: string, s: string)
    ensures TrimPrefix(prefix + s, prefix) == s
  {
    assert (prefix + s)[..|prefix|] == prefix;
  }

  /** `strings.IndexByte` and `bytes.IndexByte`, with |s| standing for -1: the first position of `c`. */
  function IndexOf<T(==)>(s: seq<T>, c: T): (i: nat)
    ensures i <= |s| && (i < |s| ==> s[i] == c)
    ensures forall j :: 0 <= j < i ==> s[j] != c
  {
    if |s| == 0 then 0 else if s[0] == c then 0 else 1 + IndexOf(s[1..], c)
  }

  /** A position holding `c` with no `c` before it is the one found. */
  lemma {:induction false} IndexOfAt<T>(s: seq<T>, c: T, k: nat)
    requires k < |s| && s[k] == c
    requires forall j :: 0 <= j < k ==> s[j] != c
    ensures IndexOf(s, c) == k
  {
    if k > 0 {
      assert forall j :: 0 <= j < k - 1 ==> s[1..][j] == s[j + 1];
      IndexOfAt(s[1..], c, k - 1);
    }
  }

  /** The first `c` in text made of a part without `c`, then `c`, is right after that part. */
  lemma {:induction false} IndexOfAfter(a: string, c: char, b: string)
    requires c !in a
    ensures IndexOf(a + [c] + b, c) == |a|
    ensures IndexOf(a, c) == |a|
  {
    if |a| > 0 {
      assert (a + [c] + b)[1..] == a[1..] + [c] + b;
      IndexOfAfter(a[1..], c, b);
    }
  }
}

=== FILE: go_types.dfy ===
/** Go's built-in value shapes as the rest of the model uses them: nil-able values,
    results, fixed-width integers with explicit wrap-around, and Go's truncating `%`. */
module GoTypes {

  /** A value that Go represents as a nil-able pointer, map, slice or interface. */
  datatype Option<+T> = None | Some(value: T) {
    function GetOr(default: T): T {
      match this
      case Some(v) => v
      case None => default
    }
  }

  /** A computation that either produces a value or stops with an error (or a panic). */
  datatype Result<+T, +E> = Ok(value: T) | Err(error: E)

  type byte = b: int | 0 <= b < 256

  const TwoTo32: int := 0x1_0000_0000
  const TwoTo64: int := 0x1_0000_0000_0000_0000
  const MinInt32: int := -0x8000_0000
  const MaxInt32: int := 0x7fff_ffff
  const MinInt64: int := -0x8000_0000_0000_0000
  const MaxInt64: int := 0x7fff_ffff_ffff_ffff
  const MaxUint64: int := 0xffff_ffff_ffff_ffff

  /** Go `uint` on a 64-bit platform. */
  type Uint = n: int | 0 <= n < TwoTo64

  /** Go `int` on a 64-bit platform. */
  type Int64 = n: int | MinInt64 <= n <= MaxInt64

  predicate IsInt32(n: int) { MinInt32 <= n <= MaxInt32 }
  predicate IsInt64(n: int) { MinInt64 <= n <= MaxInt64 }

  /** Two's-complement wrap-around of an arbitrary integer into int32. */
  function Wrap32(n: int): (r: int)
    ensures IsInt32(r)
    ensures (r - n) % TwoTo32 == 0
    ensures IsInt32(n) ==> r == n
  {
    var m := n % TwoTo32;
    if m <= MaxInt32 then m else m - TwoTo32
  }

  /** Two's-complement wrap-around of an arbitrary integer into int64. */
  function Wrap64(n: int): (r: int)
    ensures IsInt64(r)
    ensures (r - n) % TwoTo64 == 0
    ensures IsInt64(n) ==> r == n
  {
    var m := n % TwoTo64;
    if m <= MaxInt64 then m else m - TwoTo64
  }

  /** Go's `a % b`: the remainder of division truncated toward zero, so it takes the sign of `a`. */
  function GoRem(a: int, b: int): (r: int)
    requires b != 0
    ensures a >= 0 ==> 0 <= r < (if b > 0 then b else -b)
    ensures a < 0 ==> -(if b > 0 then b else -b) < r <= 0
    ensures a >= 0 && b > 0 ==> r == a % b
  {
    var m := if b > 0 then b else -b;
    if a >= 0 then a % m else -((-a) % m)
  }
}

=== FILE: healthz.dfy ===
/** `pkg/healthz/healthz.go`: panic containment for checks, the raw HTTP/1.1 responses the TCP
    health server writes, and the writes it makes on each accepted connection. The listener,
    the signal handler and the logging are not modelled; accepted connections and the outcome
    of each check are inputs. */
module Healthz {
  import opened GoTypes
  import Utf8
  import Decimal
  import GoStrings

  /** How one call of a check function ended: it returned (nil or an error message), or it
      panicked with a value whose `%v` rendering is given. */
  datatype CheckResult = Returned(err: Option<string>) | Panicked(value: string)

  /** `runCatchPanic`: the check's own error when it returns; "panic: " + value when it panics. */
  function RunCatchPanic(c: CheckResult): (err: Option<string>)
    ensures c.Returned? ==> err == c.err
    ensures c.Panicked? ==> err == Some("panic: " + c.value)
  {
    match c
    case Returned(e) => e
    case Panicked(v) => Some("panic: " + v)
  }

  // ---- Response bytes ----

  const OKStatusLine: string := "HTTP/1.1 200 OK"
  const ErrStatusLine: string := "HTTP/1.1 503 Service Unavailable"
  const CRLF: string := "\r\n"
  const ContentLengthName: string := "Content-Length: "

  /** The bytes of text whose characters are all below 256 taken one byte each; for ASCII text
      this is `[]byte(s)`. */
  function Ascii(s: string): (bs: seq<byte>)
    ensures |bs| == |s| && forall i :: 0 <= i < |s| ==> bs[i] == (s[i] as int) % 256
  {
    seq(|s|, i requires 0 <= i < |s| => (s[i] as int) % 256)
  }

  lemma {:induction false} AsciiIsUtf8(s: string)
    requires Utf8.IsAscii(s)
    ensures Ascii(s) == Utf8.Encode(s)
  {
    Utf8.EncodeAscii(s);
  }

  /** The decimal rendering of a number is ASCII. */
  lemma {:induction false} ItoaIsAscii(n: int)
    ensures Utf8.IsAscii(Decimal.Itoa(n))
  {
    Decimal.ItoaHasNoSpace(n);
  }

  /** The header section: status line, one Content-Length header (section 8.6 of RFC 9110)
      and the empty line, as section 4 of RFC 9112 lays them out. */
  function Head(statusLine: string, contentLength: nat): string
  {
    statusLine + CRLF + ContentLengthName + Decimal.Itoa(contentLength) + CRLF + CRLF
  }

  /** A response whose Content-Length is the length of its body. */
  function Response(statusLine: string, body: seq<byte>): seq<byte>
  {
    Ascii(Head(statusLine, |body|)) + body
  }

  /** `resOKBuf` (ASCII text, so its bytes are its characters). */
  function OKBytes(): seq<byte>
  {
    Ascii("HTTP/1.1 200 OK\r\nContent-Length: 0\r\n\r\n")
  }

  /** `resErrBufPrefix`. */
  function ErrPrefix(): seq<byte>
  {
    Ascii("HTTP/1.1 503 Service Unavailable\r\nContent-Length: ")
  }

  /** The second write after a failed check: the byte length of the message in decimal, the
      end of the header section, and the message, as one Go string converted to bytes. */
  function ErrTail(errStr: string): seq<byte>
  {
    Utf8.Encode(Decimal.Itoa(|Utf8.Encode(errStr)|) + "\r\n\r\n" + errStr)
  }

  /** The status line and header name of the healthy response. */
  lemma {:induction false} OKHeadStart()
    ensures OKStatusLine + CRLF + ContentLengthName == "HTTP/1.1 200 OK\r\nContent-Length: "
  {
    assert OKStatusLine + CRLF == "HTTP/1.1 200 OK\r\n";
  }

  /** A zero length and the end of the header section. */
  lemma {:induction false} OKHeadEnd()
    ensures Decimal.Itoa(0) + "\r\n\r\n" == "0\r\n\r\n"
  {
    assert Decimal.Itoa(0) == "0";
  }

  /** The literal written for a healthy service is the header section of length 0. */
  lemma {:induction false} OKHeadText()
    ensures Head(OKStatusLine, 0) == "HTTP/1.1 200 OK\r\nContent-Length: 0\r\n\r\n"
  {
    HeadSplits(OKStatusLine, 0);
    OKHeadStart();
    OKHeadEnd();
    assert Head(OKStatusLine, 0) == "HTTP/1.1 200 OK\r\nContent-Length: " + "0\r\n\r\n";
  }

  /** The healthy response is the empty-bodied 200 response. */
  lemma {:induction false} OKBytesIsResponse()
    ensures OKBytes() == Response(OKStatusLine, [])
  {
    OKHeadText();
    assert Response(OKStatusLine, []) == Ascii(Head(OKStatusLine, 0)) + [];
  }

  /** The second write is the rest of the header section followed by the message's bytes. */
  lemma {:induction false} ErrTailSplits(errStr: string)
    ensures var t := Decimal.Itoa(|Utf8.Encode(errStr)|) + "\r\n\r\n";
            ErrTail(errStr) == Ascii(t) + Utf8.Encode(errStr)
  {
    var n := Decimal.Itoa(|Utf8.Encode(errStr)|);
    ItoaIsAscii(|Utf8.Encode(errStr)|);
    var t := n + "\r\n\r\n";
    Utf8.EncodeAppend(t, errStr);
    AsciiIsUtf8(t);
  }

  lemma {:induction false} AsciiAppend(a: string, b: string)
    ensures Ascii(a + b) == Ascii(a) + Ascii(b)
  {
  }

  /** The prefix written for a failed check is the header section up to the length value. */
  lemma {:induction false} ErrPrefixIsHeadStart()
    ensures ErrPrefix() == Ascii(ErrStatusLine + CRLF + ContentLengthName)
  {
    assert ErrStatusLine + CRLF + ContentLengthName == "HTTP/1.1 503 Service Unavailable\r\nContent-Length: ";
  }

  /** The header section splits after the header name. */
  lemma {:induction false} HeadSplits(statusLine: string, contentLength: nat)
    ensures Head(statusLine, contentLength)
         == (statusLine + CRLF + ContentLengthName) + (Decimal.Itoa(contentLength) + "\r\n\r\n")
  {
    assert CRLF + CRLF == "\r\n\r\n";
  }

  /** The two writes made for a failed check form the 503 response whose body is the message,
      so the declared Content-Length is the body's byte length. */
  lemma {:induction false} ErrWritesAreResponse(errStr: string)
    ensures ErrPrefix() + ErrTail(errStr) == Response(ErrStatusLine, Utf8.Encode(errStr))
  {
    var body := Utf8.Encode(errStr);
    var t := Decimal.Itoa(|body|) + "\r\n\r\n";
    var p := ErrStatusLine + CRLF + ContentLengthName;
    calc {
      Response(ErrStatusLine, body);
      Ascii(Head(ErrStatusLine, |body|)) + body;
      { HeadSplits(ErrStatusLine, |body|); }
      Ascii(p + t) + body;
      { AsciiAppend(p, t); ErrPrefixIsHeadStart(); }
      (ErrPrefix() + Ascii(t)) + body;
      ErrPrefix() + (Ascii(t) + body);
      { ErrTailSplits(errStr); }
      ErrPrefix() + ErrTail(errStr);
    }
  }

  // ---- Reading a response back ----

  predicate IsDigitByte(b: byte) { 0x30 <= b <= 0x39 }

  /** The number of leading decimal-digit bytes. */
  function SpanDigits(bs: seq<byte>): (k: nat)
    ensures k <= |bs| && forall j :: 0 <= j < k ==> IsDigitByte(bs[j])
    ensures k < |bs| ==> !IsDigitByte(bs[k])
  {
    if |bs| == 0 || !IsDigitByte(bs[0]) then 0 else 1 + SpanDigits(bs[1..])
  }

  function AsText(bs: seq<byte>): (s: string)
    ensures |s| == |bs| && forall i :: 0 <= i < |bs| ==> s[i] == bs[i] as char
  {
    seq(|bs|, i requires 0 <= i < |bs| => bs[i] as char)
  }

  predicate StartsWith(bs: seq<byte>, p: seq<byte>) { |p| <= |bs| && bs[..|p|] == p }

  /** The bytes between the status line and the Content-Length value. */
  function MidBytes(): seq<byte>
  {
    Ascii(CRLF + ContentLengthName)
  }

  const EndOfHead: seq<byte> := [13, 10, 13, 10]

  /** A reader for responses of the shape above: the status line up to the first CR, then
      the rest of the header section and a body of the declared length. */
  function ParseResponse(bs: seq<byte>): Option<(seq<byte>, seq<byte>)>
  {
    var i := GoStrings.IndexOf(bs, 13);
    match ParseAfterStatus(bs[i..])
    case None => None
    case Some(body) => Some((bs[..i], body))
  }

  /** After the status line: "\r\nContent-Length: ", then the length and the body. */
  function ParseAfterStatus(rest: seq<byte>): Option<seq<byte>>
  {
    if !StartsWith(rest, MidBytes()) then None else ParseLengthAndBody(rest[|MidBytes()|..])
  }

  /** Decimal digits, "\r\n\r\n", then a body of exactly the length the digits give. */
  function ParseLengthAndBody(r2: seq<byte>): Option<seq<byte>>
  {
    var k := SpanDigits(r2);
    var r3 := r2[k..];
    if k == 0 || !StartsWith(r3, EndOfHead) then None
    else
      var body := r3[4..];
      var digits := AsText(r2[..k]);
      assert Decimal.IsDigits(digits);
      if Decimal.DigitsValue(digits) != |body| then None else Some(body)
  }

  /** The first CR after ASCII text without one is right after it. */
  lemma {:induction false} IndexOfAfterText(s: string, tail: seq<byte>)
    requires Utf8.IsAscii(s) && '\r' !in s
    requires |tail| > 0 && tail[0] == 13
    ensures GoStrings.IndexOf(Ascii(s) + tail, 13) == |s|
  {
    var bs := Ascii(s) + tail;
    forall j | 0 <= j < |s| ensures bs[j] != 13 {
      assert bs[j] == s[j] as int && s[j] != '\r';
    }
    GoStrings.IndexOfAt(bs, 13, |s|);
  }

  /** The digits of a rendering are all read, up to the CR after them. */
  lemma {:induction false} SpanOfDigits(d: string, tail: seq<byte>)
    requires Decimal.IsDigits(d)
    requires |tail| > 0 && tail[0] == 13
    ensures SpanDigits(Ascii(d) + tail) == |d|
  {
    var bs := Ascii(d) + tail;
    forall j | 0 <= j < |d| ensures IsDigitByte(bs[j]) {
      assert bs[j] == d[j] as int && Decimal.IsDigit(d[j]);
    }
    SpanDigitsPrefix(bs, |d|);
  }

  lemma {:induction false} SpanDigitsPrefix(bs: seq<byte>, k: nat)
    requires k < |bs| && !IsDigitByte(bs[k])
    requires forall j :: 0 <= j < k ==> IsDigitByte(bs[j])
    ensures SpanDigits(bs) == k
  {
    if k > 0 {
      assert forall j :: 0 <= j < k - 1 ==> bs[1..][j] == bs[j + 1];
      SpanDigitsPrefix(bs[1..], k - 1);
    }
  }

  /** A response laid out as the reader sees it: status line, the middle bytes, the digits,
      the end of the header section, the body. */
  lemma {:induction false} ResponseLayout(statusLine: string, body: seq<byte>)
    ensures Response(statusLine, body)
         == Ascii(statusLine) + (MidBytes() + (Ascii(Decimal.Itoa(|body|)) + (EndOfHead + body)))
  {
    var n := Decimal.Itoa(|body|);
    assert Ascii(CRLF + CRLF) == EndOfHead;
    assert Head(statusLine, |body|) == statusLine + ((CRLF + ContentLengthName) + (n + (CRLF + CRLF)));
    AsciiAppend(statusLine, (CRLF + ContentLengthName) + (n + (CRLF + CRLF)));
    AsciiAppend(CRLF + ContentLengthName, n + (CRLF + CRLF));
    AsciiAppend(n, CRLF + CRLF);
  }

  /** Reading ASCII bytes as text gives the text back. */
  lemma {:induction false} AsTextAscii(s: string)
    requires Utf8.IsAscii(s)
    ensures AsText(Ascii(s)) == s
  {
    assert forall i :: 0 <= i < |s| ==> AsText(Ascii(s))[i] == s[i];
  }

  lemma {:induction false} ParseLengthAndBodyRoundTrip(body: seq<byte>)
    ensures ParseLengthAndBody(Ascii(Decimal.Itoa(|body|)) + (EndOfHead + body)) == Some(body)
  {
    var n := Decimal.Itoa(|body|);
    var tail := EndOfHead + body;
    var r2 := Ascii(n) + tail;
    SpanOfDigits(n, tail);
    assert r2[..|n|] == Ascii(n);
    ItoaIsAscii(|body|);
    AsTextAscii(n);
    assert r2[|n|..] == tail;
    assert tail[..4] == EndOfHead && tail[4..] == body;
    assert Decimal.DigitsValue(n) == |body|;
  }

  lemma {:induction false} ParseAfterStatusRoundTrip(body: seq<byte>)
    ensures ParseAfterStatus(MidBytes() + (Ascii(Decimal.Itoa(|body|)) + (EndOfHead + body))) == Some(body)
  {
    var mid := MidBytes();
    var r2 := Ascii(Decimal.Itoa(|body|)) + (EndOfHead + body);
    assert (mid + r2)[..|mid|] == mid;
    assert (mid + r2)[|mid|..] == r2;
    ParseLengthAndBodyRoundTrip(body);
  }

  /** Reading back a response gives its status line and body: the Content-Length written is
      the body's length, and the header section ends where the body begins. */
  lemma {:induction false} ParseResponseRoundTrip(statusLine: string, body: seq<byte>)
    requires Utf8.IsAscii(statusLine) && '\r' !in statusLine
    ensures ParseResponse(Response(statusLine, body)) == Some((Ascii(statusLine), body))
  {
    var tail := MidBytes() + (Ascii(Decimal.Itoa(|body|)) + (EndOfHead + body));
    var bs := Response(statusLine, body);
    ResponseLayout(statusLine, body);
    IndexOfAfterText(statusLine, tail);
    assert bs[..|statusLine|] == Ascii(statusLine);
    assert bs[|statusLine|..] == tail;
    ParseAfterStatusRoundTrip(body);
  }

  // ---- The writes on one connection ----

  /** What the server does to a connection; each write is named by what it writes. */
  datatype ConnEvent = SetWriteDeadline | WriteErrPrefix | WriteErrTail(errStr: string) | WriteOK | Close

  /** The bytes a write event sends. */
  function Bytes(e: ConnEvent): seq<byte>
  {
    match e
    case WriteErrPrefix => ErrPrefix()
    case WriteErrTail(s) => ErrTail(s)
    case WriteOK => OKBytes()
    case _ => []
  }

  /** The events for one failed check: deadline, the two writes, close. */
  function FailureEvents(errStr: string): seq<ConnEvent>
  {
    [SetWriteDeadline, WriteErrPrefix, WriteErrTail(errStr), Close]
  }

  /** The inner loop as written: every check runs, each failure makes its four events (the
      `continue` only moves on to the next check). */
  function ChecksAsWritten(results: seq<CheckResult>): seq<ConnEvent>
  {
    if |results| == 0 then []
    else
      var err := RunCatchPanic(results[0]);
      (if err.Some? then FailureEvents(err.value) else []) + ChecksAsWritten(results[1..])
  }

  /** One connection as written: the checks' events, then the 200 write and close. */
  function ServeAsWritten(results: seq<CheckResult>): (ev: seq<ConnEvent>)
    ensures |ev| >= 2 && ev[|ev| - 2] == WriteOK && ev[|ev| - 1] == Close
  {
    ChecksAsWritten(results) + [WriteOK, Close]
  }

  /** The bytes a client can receive: the writes made before the first close. */
  function Delivered(ev: seq<ConnEvent>): seq<byte>
  {
    if |ev| == 0 || ev[0].Close? then [] else Bytes(ev[0]) + Delivered(ev[1..])
  }

  /** The number of failed checks. */
  function Failures(results: seq<CheckResult>): nat
  {
    if |results| == 0 then 0 else (if RunCatchPanic(results[0]).Some? then 1 else 0) + Failures(results[1..])
  }

  /** The number of 503 responses attempted. */
  function ErrResponsesAttempted(ev: seq<ConnEvent>): nat
  {
    if |ev| == 0 then 0 else (if ev[0].WriteErrPrefix? then 1 else 0) + ErrResponsesAttempted(ev[1..])
  }

  lemma {:induction false} ErrResponsesAppend(a: seq<ConnEvent>, b: seq<ConnEvent>)
    ensures ErrResponsesAttempted(a + b) == ErrResponsesAttempted(a) + ErrResponsesAttempted(b)
  {
    if |a| == 0 {
      assert a + b == b;
    } else {
      assert (a + b)[1..] == a[1..] + b;
      ErrResponsesAppend(a[1..], b);
    }
  }

  /** A failure's events attempt one 503 response. */
  lemma {:induction false} FailureEventsAttempt(errStr: string)
    ensures ErrResponsesAttempted(FailureEvents(errStr)) == 1
  {
    var f := FailureEvents(errStr);
    assert f[1..] == [WriteErrPrefix, WriteErrTail(errStr), Close];
    assert f[1..][1..] == [WriteErrTail(errStr), Close];
    assert f[1..][1..][1..] == [Close];
    assert f[1..][1..][1..][1..] == [];
    assert ErrResponsesAttempted(f[1..][1..][1..]) == 0;
    assert ErrResponsesAttempted(f[1..][1..]) == 0;
    assert ErrResponsesAttempted(f[1..]) == 1;
  }

  /** A failure's events deliver the two writes and then nothing, whatever follows them. */
  lemma {:induction false} FailureEventsDeliver(errStr: string, rest: seq<ConnEvent>)
    ensures Delivered(FailureEvents(errStr) + rest) == ErrPrefix() + ErrTail(errStr)
  {
    var ev := FailureEvents(errStr) + rest;
    assert ev[1..] == [WriteErrPrefix, WriteErrTail(errStr), Close] + rest;
    assert ev[1..][1..] == [WriteErrTail(errStr), Close] + rest;
    assert ev[1..][1..][1..] == [Close] + rest;
    assert Delivered(ev[1..][1..][1..]) == [];
    assert Delivered(ev[1..][1..]) == ErrTail(errStr) + [];
    assert Delivered(ev) == [] + (ErrPrefix() + (ErrTail(errStr) + []));
  }

  /** The events of one failure hold one 503 attempt and deliver exactly its two writes. */
  lemma {:induction false} FailureEventsShape(errStr: string, rest: seq<ConnEvent>)
    ensures ErrResponsesAttempted(FailureEvents(errStr)) == 1
    ensures Delivered(FailureEvents(errStr) + rest) == ErrPrefix() + ErrTail(errStr)
  {
    FailureEventsAttempt(errStr);
    FailureEventsDeliver(errStr, rest);
  }

  lemma {:induction false} ChecksErrResponses(results: seq<CheckResult>)
    ensures ErrResponsesAttempted(ChecksAsWritten(results)) == Failures(results)
  {
    if |results| > 0 {
      var err := RunCatchPanic(results[0]);
      var head := if err.Some? then FailureEvents(err.value) else [];
      if err.Some? {
        FailureEventsShape(err.value, []);
      }
      ErrResponsesAppend(head, ChecksAsWritten(results[1..]));
      ChecksErrResponses(results[1..]);
    }
  }

  /** Each failed check makes one 503 attempt, whatever came before: after a failure the loop
      goes on to the next check. */
  lemma {:induction false} OneErrResponsePerFailure(results: seq<CheckResult>)
    ensures ErrResponsesAttempted(ServeAsWritten(results)) == Failures(results)
  {
    ChecksErrResponses(results);
    ErrResponsesAppend(ChecksAsWritten(results), [WriteOK, Close]);
  }

  /** Passing checks write nothing. */
  lemma {:induction false} AllPassSilent(results: seq<CheckResult>)
    requires forall i :: 0 <= i < |results| ==> RunCatchPanic(results[i]).None?
    ensures ChecksAsWritten(results) == []
  {
    if |results| > 0 {
      assert forall i :: 0 <= i < |results[1..]| ==> results[1..][i] == results[i + 1];
      AllPassSilent(results[1..]);
    }
  }

  /** The final 200 write followed by Close delivers the 200 bytes. */
  lemma {:induction false} DeliveredOKClose()
    ensures Delivered([WriteOK, Close]) == OKBytes()
  {
    var ev := [WriteOK, Close];
    assert ev[1..] == [Close];
    assert Delivered(ev[1..]) == [];
    assert Delivered(ev) == Bytes(WriteOK) + [];
  }

  /** When every check passes, the client receives exactly the 200 response. */
  lemma {:induction false} AllPassDeliversOK(results: seq<CheckResult>)
    requires forall i :: 0 <= i < |results| ==> RunCatchPanic(results[i]).None?
    ensures ChecksAsWritten(results) == []
    ensures Delivered(ServeAsWritten(results)) == Response(OKStatusLine, [])
  {
    AllPassSilent(results);
    assert ServeAsWritten(results) == [WriteOK, Close];
    DeliveredOKClose();
    OKBytesIsResponse();
  }

  /** Checks that pass make no events: the inner loop's events start at the first failure. */
  lemma {:induction false} PassingPrefixSilent(results: seq<CheckResult>, j: nat)
    requires j <= |results|
    requires forall i :: 0 <= i < j ==> RunCatchPanic(results[i]).None?
    ensures ChecksAsWritten(results) == ChecksAsWritten(results[j..])
    decreases j
  {
    if j > 0 {
      assert ChecksAsWritten(results) == [] + ChecksAsWritten(results[1..]);
      assert forall i :: 0 <= i < j - 1 ==> results[1..][i] == results[i + 1];
      PassingPrefixSilent(results[1..], j - 1);
      assert results[1..][j - 1..] == results[j..];
    }
  }

  /** When a check fails, the client receives exactly the 503 response carrying the first
      failure's message; everything written after that close is lost. */
  lemma {:induction false} FirstFailureDelivered(results: seq<CheckResult>, j: nat)
    requires j < |results| && RunCatchPanic(results[j]).Some?
    requires forall i :: 0 <= i < j ==> RunCatchPanic(results[i]).None?
    ensures Delivered(ServeAsWritten(results)) == Response(ErrStatusLine, Utf8.Encode(RunCatchPanic(results[j]).value))
  {
    var e := RunCatchPanic(results[j]).value;
    PassingPrefixSilent(results, j);
    var tail := results[j..];
    assert tail[0] == results[j];
    assert ChecksAsWritten(tail) == FailureEvents(e) + ChecksAsWritten(tail[1..]);
    var rest := ChecksAsWritten(tail[1..]) + [WriteOK, Close];
    assert ServeAsWritten(results) == FailureEvents(e) + rest;
    FailureEventsShape(e, rest);
    ErrWritesAreResponse(e);
  }

  /** Writes attempted after the connection was closed. */
  predicate WritesAfterClose(ev: seq<ConnEvent>) {
    exists i, j :: 0 <= i < j < |ev| && ev[i].Close? && (ev[j].WriteOK? || ev[j].WriteErrPrefix?)
  }

  /** As written, one failing check is enough for the 200 write to be attempted on the closed
      connection. */
  lemma {:induction false} AsWrittenWritesAfterClose(errStr: string)
    ensures WritesAfterClose(ServeAsWritten([Returned(Some(errStr))]))
  {
    var rs := [Returned(Some(errStr))];
    assert rs[1..] == [];
    var ev := ServeAsWritten(rs);
    assert ChecksAsWritten(rs) == FailureEvents(errStr) + [];
    assert ev == FailureEvents(errStr) + [WriteOK, Close];
    assert ev[3].Close? && ev[4].WriteOK?;
  }

  /** Two failing checks: both run, and two 503 responses are attempted on one connection. */
  lemma {:induction false} AsWrittenRunsEveryCheck(e1: string, e2: string)
    ensures ErrResponsesAttempted(ServeAsWritten([Returned(Some(e1)), Returned(Some(e2))])) == 2
  {
    var rs := [Returned(Some(e1)), Returned(Some(e2))];
    OneErrResponsePerFailure(rs);
    assert rs[1..] == [Returned(Some(e2))];
    assert rs[1..][1..] == [];
    assert Failures(rs[1..][1..]) == 0;
    assert Failures(rs[1..]) == 1;
  }

  /** The evidently intended connection handling: stop at the first failed check, answer 503
      and close; answer 200 and close only when every check passed. */
  function ServeIntended(results: seq<CheckResult>): (ev: seq<ConnEvent>)
    ensures |ev| > 0 && ev[|ev| - 1] == Close
    ensures forall i :: 0 <= i < |ev| - 1 ==> !ev[i].Close?
    ensures ErrResponsesAttempted(ev) == (if Failures(results) > 0 then 1 else 0)
  {
    if |results| == 0 then [WriteOK, Close]
    else
      var err := RunCatchPanic(results[0]);
      if err.Some? then
        FailureEventsShape(err.value, []);
        FailureEvents(err.value)
      else ServeIntended(results[1..])
  }

  /** With the intended handling nothing is written after the close. */
  lemma {:induction false} IntendedNoWritesAfterClose(results: seq<CheckResult>)
    ensures !WritesAfterClose(ServeIntended(results))
  {
  }

  /** The intended handling delivers the same bytes to the client as the code as written. */
  lemma {:induction false} IntendedDeliversSame(results: seq<CheckResult>)
    ensures Delivered(ServeIntended(results)) == Delivered(ServeAsWritten(results))
  {
    if |results| > 0 {
      var err := RunCatchPanic(results[0]);
      if err.Some? {
        IntendedHeadFails(results);
      } else {
        IntendedDeliversSame(results[1..]);
        PassingPrefixSilent(results, 1);
      }
    }
  }

  /** When the first check fails, both versions deliver that check's 503 response. */
  lemma {:induction false} IntendedHeadFails(results: seq<CheckResult>)
    requires |results| > 0 && RunCatchPanic(results[0]).Some?
    ensures Delivered(ServeIntended(results)) == Delivered(ServeAsWritten(results))
  {
    var e := RunCatchPanic(results[0]).value;
    FirstFailureDelivered(results, 0);
    assert ServeIntended(results) == FailureEvents(e) + [];
    FailureEventsShape(e, []);
    ErrWritesAreResponse(e);
  }

  // ---- The accept loop ----

  /** One result of `AcceptTCP`: a connection with the outcome of each check on it, or an
      error (after the signal handler closed the listener, or any other). */
  datatype Accept = Conn(id: nat, results: seq<CheckResult>) | AcceptFailed(killed: bool)

  /** Events of one connection tagged with its id. */
  function Tag(id: nat, ev: seq<ConnEvent>): (r: seq<(nat, ConnEvent)>)
    ensures |r| == |ev| && forall i :: 0 <= i < |ev| ==> r[i] == (id, ev[i])
  {
    seq(|ev|, i requires 0 <= i < |ev| => (id, ev[i]))
  }

  /** The accept loop: each connection is served in turn, and the first accept error ends the
      loop, whether by return (killed) or by break. */
  function RunServer(accepts: seq<Accept>): (ev: seq<(nat, ConnEvent)>)
    ensures |accepts| > 0 && accepts[0].AcceptFailed? ==> ev == []
  {
    if |accepts| == 0 || accepts[0].AcceptFailed? then []
    else Tag(accepts[0].id, ServeAsWritten(accepts[0].results)) + RunServer(accepts[1..])
  }

  /** Serving a run of connections and then the rest is serving them all in sequence. */
  lemma {:induction false} RunServerAppend(a: seq<Accept>, b: seq<Accept>)
    requires forall i :: 0 <= i < |a| ==> a[i].Conn?
    ensures RunServer(a + b) == RunServer(a) + RunServer(b)
  {
    if |a| == 0 {
      assert a + b == b;
    } else {
      assert (a + b)[0] == a[0];
      assert (a + b)[1..] == a[1..] + b;
      RunServerAppend(a[1..], b);
    }
  }

  /** Every connection accepted before the first accept error is answered, in accept order,
      with the events of its own checks. */
  lemma {:induction false} EveryConnectionServed(accepts: seq<Accept>, k: nat)
    requires k < |accepts| && forall i :: 0 <= i <= k ==> accepts[i].Conn?
    ensures RunServer(accepts) == RunServer(accepts[..k]) + Tag(accepts[k].id, ServeAsWritten(accepts[k].results))
                                  + RunServer(accepts[k + 1..])
  {
    assert accepts == accepts[..k] + accepts[k..];
    RunServerAppend(accepts[..k], accepts[k..]);
    assert accepts[k..][0] == accepts[k] && accepts[k..][1..] == accepts[k + 1..];
  }
}

=== FILE: https_do.dfy ===
/** `pkg/https/https.go`: `Do`, `DoText`, `DoJSON` and `ErrorStatusNotOK`. `Do` is split into
    the request it builds (`Prepare`) and what it makes of the exchange (`Complete`); the
    network exchange, the JSON codec and the proxy provider are parameters. */
module HttpsDo {
  import opened GoTypes
  import opened HttpsOptions
  import Setters
  import Decimal
  import GoStrings

  /** The request body and the Content-Type it carries. */
  datatype Body =
    | NoBody
    | JsonBody(bytes: seq<byte>)
    | FormBody(args: M)
    | MultipartBody(fields: M, boundary: string)
    | RawBody(bytes: seq<byte>)

  /** The request handed to the client. `query` holds the query arguments set on top of any
      the URL already has; `timeoutNanos` is the `time.Duration` given to `SetTimeout`. */
  datatype Request = Request(
    url: string,
    httpMethod: string,
    headers: M,
    query: M,
    body: Body,
    timeoutNanos: int)

  /** What the client reports: a transport error, or a response whose body, once decompressed,
      is text or a decompression error. */
  datatype Exchange =
    | Failed(cause: string)
    | Response(status: int, statusMessage: string, headers: M, uncompressed: Result<string, string>)

  /** The errors `Do` returns. */
  datatype DoError =
    | MarshalFailed(cause: string)
    | ExecuteFailed(cause: string)
    | StatusNotOK(code: int, msg: string, body: string)
    | DecompressFailed(cause: string)
    | UnmarshalFailed(cause: string)

  /** What `Do` leaves behind: its error (None for nil) and the writes to the caller's variables. */
  datatype Outcome = Outcome(
    err: Option<DoError>,
    headersWritten: Option<(Ref, M)>,
    textWritten: Option<(Ref, string)>,
    jsonDecoded: Option<(Ref, string)>)

  const StatusMultipleChoices: int := 300
  const DefaultTimeoutNanos: int := 10 * 1_000_000_000
  const JsonContentType: string := "application/json"
  const FormContentType: string := "application/x-www-form-urlencoded"
  const AcceptEncoding: string := "gzip, br"

  /** `respBody, _ := resp.BodyUncompressed()`: the text, or nothing when decompression fails. */
  function BodyOrEmpty(r: Result<string, string>): string
  {
    if r.Ok? then r.value else ""
  }

  /** `ErrorStatusNotOK.Error`, and the `%w` wrappers of the other errors. */
  function ErrorMessage(e: DoError): string
  {
    match e
    case MarshalFailed(c) => "failed to marshal JSON request: " + c
    case ExecuteFailed(c) => "failed to execute HTTP request: " + c
    case StatusNotOK(code, msg, body) => "status code: " + Decimal.Itoa(code) + " " + msg + "\n" + body
    case DecompressFailed(c) => "failed to decompress response body: " + c
    case UnmarshalFailed(c) => "failed to unmarshal response body: " + c
  }

  /** The status code can be read back from the message of `ErrorStatusNotOK`: it is the text
      between "status code: " and the first space after it. */
  lemma {:induction false} StatusMessageCarriesCode(code: int, msg: string, body: string)
    requires IsInt64(code)
    ensures var s := ErrorMessage(StatusNotOK(code, msg, body));
            var digits := Decimal.Itoa(code);
            s[..13] == "status code: " && s[13..13 + |digits|] == digits
            && s[13 + |digits|] == ' ' && ' ' !in digits
            && Decimal.Atoi(s[13..13 + |digits|]) == Decimal.Parsed(code, None)
  {
    var digits := Decimal.Itoa(code);
    var s := ErrorMessage(StatusNotOK(code, msg, body));
    var tail := " " + msg + "\n" + body;
    assert s == "status code: " + digits + tail;
    Decimal.ItoaBetween("status code: ", code, tail);
    assert s[13 + |digits|] == tail[0];
    Decimal.ItoaHasNoSpace(code);
  }

  /** The wrapped cause (`%w`) ends the message of every other error. */
  lemma {:induction false} WrappedCauseRecoverable(e: DoError)
    requires !e.StatusNotOK?
    ensures var s := ErrorMessage(e); var n := |s| - |e.cause|;
            0 <= n && s[n..] == e.cause
  {
  }

  /** The URL a proxied request goes to: the proxy host, then the original URL with one leading
      "https://" and then one leading "http://" removed. */
  function ProxiedUrl(proxyHost: string, url: string): (r: string)
    ensures GoStrings.HasPrefix(r, "https://" + proxyHost + "/")
  {
    var rest := GoStrings.TrimPrefix(GoStrings.TrimPrefix(url, "https://"), "http://");
    var r := "https://" + proxyHost + "/" + rest;
    assert r[..|"https://" + proxyHost + "/"|] == "https://" + proxyHost + "/";
    r
  }

  /** Proxying keeps the original host and path: it sits after the proxy prefix, scheme removed. */
  lemma {:induction false} ProxiedUrlKeepsTarget(proxyHost: string, hostAndPath: string)
    requires !GoStrings.HasPrefix(hostAndPath, "http://")
    ensures ProxiedUrl(proxyHost, "https://" + hostAndPath) == "https://" + proxyHost + "/" + hostAndPath
    ensures !GoStrings.HasPrefix(hostAndPath, "https://") ==>
              ProxiedUrl(proxyHost, "http://" + hostAndPath) == "https://" + proxyHost + "/" + hostAndPath
  {
    GoStrings.TrimPrefixOfConcat("https://", hostAndPath);
    GoStrings.TrimPrefixOfConcat("http://", hostAndPath);
    if !GoStrings.HasPrefix(hostAndPath, "https://") {
      assert !GoStrings.HasPrefix("http://" + hostAndPath, "https://") by {
        assert ("http://" + hostAndPath)[4] == ':';
      }
    }
  }

  /** The configuration `Do` works with: the options applied in order to `&Options{}`, then the
      method defaulted to GET, a nil header map replaced by an empty one, and Accept forced to
      JSON when a JSON target is set. */
  function Resolve(ops: seq<Config -> Config>): (cfg: Config)
    ensures cfg.headers.Some?
    ensures cfg.httpMethod != ""
    ensures var c := Setters.ApplyAll(Empty, ops);
            && cfg.httpMethod == (if c.httpMethod == "" then GET else c.httpMethod)
            && (c.jsonResp.Some? ==> cfg.headers.value == c.headers.GetOr(map[])["Accept" := JsonContentType])
            && (c.jsonResp.None? ==> cfg.headers.value == c.headers.GetOr(map[]))
            && cfg.(httpMethod := c.httpMethod, headers := c.headers) == c
  {
    var c := Setters.ApplyAll(Empty, ops);
    var c1 := c.(httpMethod := if c.httpMethod == "" then GET else c.httpMethod);
    var c2 := c1.(headers := Some(c1.headers.GetOr(map[])));
    if c2.jsonResp.Some? then c2.(headers := Some(c2.headers.value["Accept" := JsonContentType])) else c2
  }

  /** The body chosen from the configuration: JSON, else form, else multipart, else bytes. */
  function ChooseBody(cfg: Config, marshal: Value -> Result<seq<byte>, string>, boundary: string): (r: Result<Body, DoError>)
    ensures r.Err? <==> cfg.jsonReq != Null && marshal(cfg.jsonReq).Err?
    ensures r.Err? ==> r.error == MarshalFailed(marshal(cfg.jsonReq).error)
    ensures r.Ok? ==> (r.value.JsonBody? <==> cfg.jsonReq != Null)
    ensures r.Ok? && r.value.JsonBody? ==> r.value.bytes == marshal(cfg.jsonReq).value
    ensures r.Ok? ==> (r.value.FormBody? <==> cfg.jsonReq == Null && cfg.postForm.Some?)
    ensures r.Ok? ==> (r.value.MultipartBody? <==> cfg.jsonReq == Null && cfg.postForm.None? && cfg.multipartForm.Some?)
    ensures r.Ok? ==> (r.value.RawBody? <==> cfg.jsonReq == Null && cfg.postForm.None? && cfg.multipartForm.None? && cfg.byteReq.Some?)
  {
    if cfg.jsonReq != Null then
      match marshal(cfg.jsonReq)
      case Err(e) => Err(MarshalFailed(e))
      case Ok(bytes) => Ok(JsonBody(bytes))
    else if cfg.postForm.Some? then Ok(FormBody(cfg.postForm.value))
    else if cfg.multipartForm.Some? then Ok(MultipartBody(cfg.multipartForm.value, boundary))
    else if cfg.byteReq.Some? then Ok(RawBody(cfg.byteReq.value))
    else Ok(NoBody)
  }

  /** The Content-Type header a body sets, if any (a raw byte body sets none). */
  function ContentType(b: Body): Option<string>
  {
    match b
    case JsonBody(_) => Some(JsonContentType)
    case FormBody(_) => Some(FormContentType)
    case MultipartBody(_, boundary) => Some("multipart/form-data; boundary=" + boundary)
    case _ => None
  }

  /** Header writes in the order `Do` makes them: the proxy secret, the configured headers, the
      body's Content-Type, and Accept-Encoding last. */
  function RequestHeaders(proxySecret: string, configured: M, body: Body): (h: M)
    ensures "Accept-Encoding" in h && h["Accept-Encoding"] == AcceptEncoding
    ensures ContentType(body).Some? ==> "Content-Type" in h && h["Content-Type"] == ContentType(body).value
    ensures forall k :: (k in configured && k != "Accept-Encoding"
              && (k == "Content-Type" ==> ContentType(body).None?)) ==> k in h && h[k] == configured[k]
    ensures "X-Proxy-Secret" in h <==> |proxySecret| > 0 || "X-Proxy-Secret" in configured
    ensures |proxySecret| > 0 && "X-Proxy-Secret" !in configured ==> h["X-Proxy-Secret"] == proxySecret
    ensures h.Keys == configured.Keys + (if |proxySecret| > 0 then {"X-Proxy-Secret"} else {})
              + (if ContentType(body).Some? then {"Content-Type"} else {}) + {"Accept-Encoding"}
  {
    var h0: M := if |proxySecret| > 0 then map["X-Proxy-Secret" := proxySecret] else map[];
    var h1 := h0 + configured;
    var h2 := if ContentType(body).Some? then h1["Content-Type" := ContentType(body).value] else h1;
    h2["Accept-Encoding" := AcceptEncoding]
  }

  /** `time.Duration(cfg.timeout) * time.Second` (wrapping in int64) when positive, else 10 s. */
  function TimeoutNanos(seconds: int): (d: int)
    ensures IsInt64(d)
    ensures seconds <= 0 ==> d == DefaultTimeoutNanos
    ensures 0 < seconds <= MaxInt64 / 1_000_000_000 ==> d == seconds * 1_000_000_000
  {
    if seconds > 0 then Wrap64(Wrap64(seconds) * 1_000_000_000) else DefaultTimeoutNanos
  }

  /** The request `Do` sends, or the marshalling error that stops it first. `pick` is the
      configured provider's `GetProxy`. */
  function Prepare(url: string, cfg: Config, pick: ProviderRef -> (string, string),
                   marshal: Value -> Result<seq<byte>, string>, boundary: string): (r: Result<Request, DoError>)
    requires cfg.headers.Some?
    ensures r.Err? <==> ChooseBody(cfg, marshal, boundary).Err?
    ensures r.Err? ==> r.error == ChooseBody(cfg, marshal, boundary).error
    ensures r.Ok? ==> r.value.httpMethod == cfg.httpMethod && r.value.query == cfg.query.GetOr(map[])
    ensures r.Ok? ==> r.value.body == ChooseBody(cfg, marshal, boundary).value
    ensures r.Ok? ==> r.value.timeoutNanos == TimeoutNanos(cfg.timeout)
    ensures r.Ok? && cfg.proxyProvider.None? ==> r.value.url == url && "X-Proxy-Secret" !in r.value.headers - cfg.headers.value.Keys
    ensures r.Ok? && cfg.proxyProvider.Some? ==> r.value.url == ProxiedUrl(pick(cfg.proxyProvider.value).0, url)
    ensures r.Ok? ==> "Accept-Encoding" in r.value.headers && r.value.headers["Accept-Encoding"] == AcceptEncoding
  {
    var (host, secret) := if cfg.proxyProvider.Some? then pick(cfg.proxyProvider.value) else ("", "");
    var target := if cfg.proxyProvider.Some? then ProxiedUrl(host, url) else url;
    match ChooseBody(cfg, marshal, boundary)
    case Err(e) => Err(e)
    case Ok(body) =>
      Ok(Request(target, cfg.httpMethod, RequestHeaders(secret, cfg.headers.value, body),
                 cfg.query.GetOr(map[]), body, TimeoutNanos(cfg.timeout)))
  }

  /** What `Do` makes of the exchange: response headers are copied first (even for an error
      status), a status above 300 is an `ErrorStatusNotOK`, and only then is the body decoded
      into the JSON target or, when there is none, written to the text target. */
  function Complete(cfg: Config, ex: Exchange, unmarshal: string -> Option<string>): (o: Outcome)
    ensures ex.Failed? ==> o == Outcome(Some(ExecuteFailed(ex.cause)), None, None, None)
    ensures ex.Response? ==> o.headersWritten == (if cfg.headerResp.Some? then Some((cfg.headerResp.value, ex.headers)) else None)
    ensures ex.Response? && ex.status > StatusMultipleChoices ==>
              o.err == Some(StatusNotOK(ex.status, ex.statusMessage, BodyOrEmpty(ex.uncompressed)))
              && o.textWritten.None? && o.jsonDecoded.None?
    ensures o.err.None? <==> (ex.Response? && ex.status <= StatusMultipleChoices
              && ((cfg.jsonResp.Some? || cfg.textResp.Some?) ==> ex.uncompressed.Ok?)
              && (cfg.jsonResp.Some? ==> unmarshal(ex.uncompressed.value).None?))
    ensures o.textWritten.Some? <==> o.err.None? && cfg.jsonResp.None? && cfg.textResp.Some?
    ensures o.textWritten.Some? ==> o.textWritten.value == (cfg.textResp.value, ex.uncompressed.value)
    ensures o.jsonDecoded.Some? <==> o.err.None? && cfg.jsonResp.Some?
    ensures o.jsonDecoded.Some? ==> o.jsonDecoded.value == (cfg.jsonResp.value, ex.uncompressed.value)
  {
    match ex
    case Failed(cause) => Outcome(Some(ExecuteFailed(cause)), None, None, None)
    case Response(status, statusMessage, headers, uncompressed) =>
      var copied := if cfg.headerResp.Some? then Some((cfg.headerResp.value, headers)) else None;
      if status > StatusMultipleChoices then
        Outcome(Some(StatusNotOK(status, statusMessage, BodyOrEmpty(uncompressed))), copied, None, None)
      else if cfg.jsonResp.None? && cfg.textResp.None? then
        Outcome(None, copied, None, None)
      else if uncompressed.Err? then
        Outcome(Some(DecompressFailed(uncompressed.error)), copied, None, None)
      else if cfg.jsonResp.Some? then
        match unmarshal(uncompressed.value)
        case Some(e) => Outcome(Some(UnmarshalFailed(e)), copied, None, None)
        case None => Outcome(None, copied, None, Some((cfg.jsonResp.value, uncompressed.value)))
      else
        Outcome(None, copied, Some((cfg.textResp.value, uncompressed.value)), None)
  }

  /** `Do`: resolve the options, build the request, exchange it, complete. */
  function Do(url: string, ops: seq<Config -> Config>, pick: ProviderRef -> (string, string),
              marshal: Value -> Result<seq<byte>, string>, boundary: string,
              exchange: Request -> Exchange, unmarshal: string -> Option<string>): (o: Outcome)
    ensures var cfg := Resolve(ops);
            cfg.jsonReq != Null && marshal(cfg.jsonReq).Err? ==>
              o == Outcome(Some(MarshalFailed(marshal(cfg.jsonReq).error)), None, None, None)
    ensures var req := Prepare(url, Resolve(ops), pick, marshal, boundary);
            o.err.None? ==> req.Ok? && exchange(req.value).Response? && exchange(req.value).status <= StatusMultipleChoices
    ensures var req := Prepare(url, Resolve(ops), pick, marshal, boundary);
            o.textWritten.Some? ==>
              req.Ok? && exchange(req.value).Response? && exchange(req.value).uncompressed.Ok?
              && o.textWritten.value.1 == exchange(req.value).uncompressed.value
  {
    var cfg := Resolve(ops);
    match Prepare(url, cfg, pick, marshal, boundary)
    case Err(e) => Outcome(Some(e), None, None, None)
    case Ok(req) => Complete(cfg, exchange(req), unmarshal)
  }

  /** `DoText`: `Do` with a text target appended, returning the text (the zero string when
      nothing was written) and the error. */
  function DoText(url: string, ops: seq<Config -> Config>, target: Ref, pick: ProviderRef -> (string, string),
                  marshal: Value -> Result<seq<byte>, string>, boundary: string,
                  exchange: Request -> Exchange, unmarshal: string -> Option<string>): (r: (string, Option<DoError>))
  {
    var o := Do(url, ops + [WithTextRespTo(Some(target))], pick, marshal, boundary, exchange, unmarshal);
    (if o.textWritten.Some? then o.textWritten.value.1 else "", o.err)
  }

  /** `DoJSON`: `Do` with a JSON target appended; the decoded body, when decoding happened. */
  function DoJSON(url: string, ops: seq<Config -> Config>, target: Ref, pick: ProviderRef -> (string, string),
                  marshal: Value -> Result<seq<byte>, string>, boundary: string,
                  exchange: Request -> Exchange, unmarshal: string -> Option<string>): (r: (Option<string>, Option<DoError>))
  {
    var o := Do(url, ops + [WithJSONRespTo(Some(target))], pick, marshal, boundary, exchange, unmarshal);
    (if o.jsonDecoded.Some? then Some(o.jsonDecoded.value.1) else None, o.err)
  }

  /** The appended target is the one `Do` sees, whatever targets the caller's options set. */
  lemma {:induction false} AppendedTargetWins(ops: seq<Config -> Config>, op: Config -> Config, view: Config -> Option<Ref>, target: Ref)
    requires Setters.Sets(op, view, Some(target))
    ensures view(Setters.ApplyAll(Empty, ops + [op])) == Some(target)
  {
    Setters.LastWriterWins(Empty, ops + [op], |ops|, view, Some(target));
  }

  /** `DoText` returns the body of a successful exchange, provided no option set a JSON target;
      a JSON target among the options takes precedence and leaves the text empty. */
  lemma {:induction false} DoTextReturnsBody(url: string, ops: seq<Config -> Config>, target: Ref, pick: ProviderRef -> (string, string),
                          marshal: Value -> Result<seq<byte>, string>, boundary: string,
                          exchange: Request -> Exchange, unmarshal: string -> Option<string>)
    ensures var c := Setters.ApplyAll(Empty, ops);
            var r := DoText(url, ops, target, pick, marshal, boundary, exchange, unmarshal);
            var req := Prepare(url, Resolve(ops + [WithTextRespTo(Some(target))]), pick, marshal, boundary);
            && (c.jsonResp.Some? ==> r.0 == "")
            && (c.jsonResp.None? && req.Ok? && r.1.None? ==>
                  exchange(req.value).Response? && exchange(req.value).uncompressed.Ok?
                  && r.0 == exchange(req.value).uncompressed.value)
  {
    var ops' := ops + [WithTextRespTo(Some(target))];
    AppendedTargetWins(ops, WithTextRespTo(Some(target)), TextResp, target);
    Setters.ApplyAllAppend(Empty, ops, [WithTextRespTo(Some(target))]);
    assert Setters.ApplyAll(Empty, ops') == WithTextRespTo(Some(target))(Setters.ApplyAll(Empty, ops));
  }

  /** `DoJSON` always asks for JSON: Accept is "application/json" on the request it sends,
      whatever headers the options set. */
  lemma {:induction false} DoJSONSendsAccept(url: string, ops: seq<Config -> Config>, target: Ref, pick: ProviderRef -> (string, string),
                          marshal: Value -> Result<seq<byte>, string>, boundary: string)
    ensures var cfg := Resolve(ops + [WithJSONRespTo(Some(target))]);
            var req := Prepare(url, cfg, pick, marshal, boundary);
            req.Ok? ==> "Accept" in req.value.headers && req.value.headers["Accept"] == JsonContentType
  {
    AppendedTargetWins(ops, WithJSONRespTo(Some(target)), JsonResp, target);
  }

  /** A caller's own X-Proxy-Secret header overrides the provider's secret, because configured
      headers are written after it. */
  lemma {:induction false} CallerHeaderOverridesProxySecret(secret: string, configured: M, body: Body)
    requires |secret| > 0 && "X-Proxy-Secret" in configured
    ensures RequestHeaders(secret, configured, body)["X-Proxy-Secret"] == configured["X-Proxy-Secret"]
  {
  }

  /** Status 300 itself is accepted: only codes above it are errors. */
  lemma {:induction false} ThresholdIsAbove300(cfg: Config, headers: M, body: string, unmarshal: string -> Option<string>)
    requires cfg.jsonResp.None?
    ensures Complete(cfg, Response(300, "Multiple Choices", headers, Ok(body)), unmarshal).err.None?
    ensures Complete(cfg, Response(301, "Moved Permanently", headers, Ok(body)), unmarshal).err
         == Some(StatusNotOK(301, "Moved Permanently", body))
  {
  }
}

=== FILE: https_options.dfy ===
/** `pkg/https/options.go`: the request configuration and its functional options. Maps are
    modelled by value: the Go code adopts the caller's map by reference, which is not modelled. */
module HttpsOptions {
  import opened GoTypes
  import Base64
  import Utf8

  type M = map<string, string>

  const GET: string := "GET"
  const POST: string := "POST"
  const PUT: string := "PUT"
  const DELETE: string := "DELETE"
  const PATCH: string := "PATCH"

  /** A Go `any` value handed to the JSON encoder. `Null` is the nil interface. */
  datatype Value = Null | Str(s: string) | Object(fields: map<string, Value>) | Opaque(id: nat)

  /** Identity of a caller-owned variable (a Go pointer) a response is written to. */
  type Ref = nat

  /** Identity of a `GoProxyProvider` implementation. */
  type ProviderRef = nat

  /** `Options`; an Option field is None where the Go field is nil. */
  datatype Config = Config(
    httpMethod: string,
    query: Option<M>,
    headers: Option<M>,
    postForm: Option<M>,
    multipartForm: Option<M>,
    byteReq: Option<seq<byte>>,
    jsonReq: Value,
    jsonResp: Option<Ref>,
    textResp: Option<Ref>,
    headerResp: Option<Ref>,
    timeout: int,
    proxyProvider: Option<ProviderRef>)

  /** `&Options{}`: every field zero or nil. */
  const Empty: Config := Config("", None, None, None, None, None, Null, None, None, None, 0, None)

  function Headers(c: Config): Option<M> { c.headers }
  function Query(c: Config): Option<M> { c.query }
  function TextResp(c: Config): Option<Ref> { c.textResp }
  function JsonResp(c: Config): Option<Ref> { c.jsonResp }
  function ByteReq(c: Config): Option<seq<byte>> { c.byteReq }

  /** Merge used by WithQueries / WithHeaders: adopt the incoming map when there is none,
      otherwise copy its entries over the existing ones. */
  function Merge(existing: Option<M>, incoming: Option<M>): (r: Option<M>)
    ensures existing.None? ==> r == incoming
    ensures existing.Some? ==> r.Some? && r.value.Keys == existing.value.Keys + incoming.GetOr(map[]).Keys
    ensures existing.Some? ==> forall k :: k in incoming.GetOr(map[]) ==> r.value[k] == incoming.value[k]
    ensures existing.Some? ==> forall k :: k in existing.value && k !in incoming.GetOr(map[]) ==> r.value[k] == existing.value[k]
  {
    match existing
    case None => incoming
    case Some(m) => Some(m + incoming.GetOr(map[]))
  }

  /** Sets one key, creating the map when it is nil; other keys are untouched. */
  function Put(existing: Option<M>, key: string, value: string): (r: Option<M>)
    ensures r.Some? && key in r.value && r.value[key] == value
    ensures r.value.Keys == existing.GetOr(map[]).Keys + {key}
    ensures forall k :: k in existing.GetOr(map[]) && k != key ==> r.value[k] == existing.value[k]
  {
    Some(existing.GetOr(map[])[key := value])
  }

  function WithMethod(m: string): (op: Config -> Config)
    ensures forall c :: op(c).httpMethod == m && op(c).(httpMethod := c.httpMethod) == c
  {
    (c: Config) => c.(httpMethod := m)
  }

  function WithQueries(query: Option<M>): (op: Config -> Config)
    ensures forall c :: op(c).query == Merge(c.query, query) && op(c).(query := c.query) == c
  {
    (c: Config) => c.(query := Merge(c.query, query))
  }

  function WithQuery(key: string, value: string): (op: Config -> Config)
    ensures forall c :: op(c).query == Put(c.query, key, value) && op(c).(query := c.query) == c
  {
    (c: Config) => c.(query := Put(c.query, key, value))
  }

  function WithHeaders(headers: Option<M>): (op: Config -> Config)
    ensures forall c :: op(c).headers == Merge(c.headers, headers) && op(c).(headers := c.headers) == c
  {
    (c: Config) => c.(headers := Merge(c.headers, headers))
  }

  function WithHeader(key: string, value: string): (op: Config -> Config)
    ensures forall c :: op(c).headers == Put(c.headers, key, value) && op(c).(headers := c.headers) == c
  {
    (c: Config) => c.(headers := Put(c.headers, key, value))
  }

  /** The JSON body of a GraphQL request: the query, plus the first of the variables
      arguments when there is one (any further arguments are ignored). */
  function GraphQLBody(query: string, variables: seq<Value>): (v: Value)
    ensures v.Object? && "query" in v.fields && v.fields["query"] == Str(query)
    ensures "variables" in v.fields <==> |variables| > 0
    ensures |variables| > 0 ==> v.fields["variables"] == variables[0]
    ensures v.fields.Keys <= {"query", "variables"}
  {
    var base := map["query" := Str(query)];
    Object(if |variables| > 0 then base["variables" := variables[0]] else base)
  }

  /** `WithGraphQLReq`: a POST with the GraphQL JSON body. */
  function WithGraphQLReq(query: string, variables: seq<Value>): (op: Config -> Config)
    ensures forall c :: op(c).httpMethod == POST && op(c).jsonReq == GraphQLBody(query, variables)
    ensures forall c :: op(c).(httpMethod := c.httpMethod, jsonReq := c.jsonReq) == c
  {
    (c: Config) => c.(httpMethod := POST, jsonReq := GraphQLBody(query, variables))
  }

  function WithJSONReq(jsonReq: Value): (op: Config -> Config)
    ensures forall c :: op(c).jsonReq == jsonReq && op(c).(jsonReq := c.jsonReq) == c
  {
    (c: Config) => c.(jsonReq := jsonReq)
  }

  function WithFormReq(form: Option<M>): (op: Config -> Config)
    ensures forall c :: op(c).postForm == form && op(c).(postForm := c.postForm) == c
  {
    (c: Config) => c.(postForm := form)
  }

  /** `[]byte(str)` is never nil, even for "". */
  function WithStrReq(str: string): (op: Config -> Config)
    ensures forall c :: op(c).byteReq == Some(Utf8.Encode(str)) && op(c).(byteReq := c.byteReq) == c
  {
    (c: Config) => c.(byteReq := Some(Utf8.Encode(str)))
  }

  function WithByteReq(b: Option<seq<byte>>): (op: Config -> Config)
    ensures forall c :: op(c).byteReq == b && op(c).(byteReq := c.byteReq) == c
  {
    (c: Config) => c.(byteReq := b)
  }

  function WithMultipartFormReq(form: Option<M>): (op: Config -> Config)
    ensures forall c :: op(c).multipartForm == form && op(c).(multipartForm := c.multipartForm) == c
  {
    (c: Config) => c.(multipartForm := form)
  }

  /** The Authorization value of section 2 of RFC 7617: "Basic " and the base 64 encoding
      (section 4 of RFC 4648) of the UTF-8 bytes of user-id ":" password. */
  function BasicCredentials(username: string, password: string): string
  {
    "Basic " + Base64.Encode(Utf8.Encode(username + ":" + password))
  }

  function WithBasicAuth(username: string, password: string): (op: Config -> Config)
    ensures forall c :: op(c).headers == Put(c.headers, "Authorization", BasicCredentials(username, password))
    ensures forall c :: op(c).(headers := c.headers) == c
  {
    (c: Config) => c.(headers := Put(c.headers, "Authorization", BasicCredentials(username, password)))
  }

  /** The bytes the Basic token encodes: user-id, one colon byte, password. */
  lemma {:induction false} ColonByte()
    ensures Utf8.Encode(":") == [0x3A]
  {
    assert ":"[1..] == [];
  }

  lemma {:induction false} CredentialBytes(username: string, password: string)
    ensures Utf8.Encode(username + ":" + password) == Utf8.Encode(username) + [0x3A] + Utf8.Encode(password)
  {
    var tail := ":" + password;
    assert username + ":" + password == username + tail;
    Utf8.EncodeAppend(username, tail);
    Utf8.EncodeAppend(":", password);
    ColonByte();
  }

  /** The credentials travel intact: decoding the token after "Basic " gives back the bytes of
      the user-id, a colon and the password. */
  lemma {:induction false} BasicCredentialsRoundTrip(username: string, password: string)
    ensures BasicCredentials(username, password)[..6] == "Basic "
    ensures Base64.Decode(BasicCredentials(username, password)[6..])
         == Some(Utf8.Encode(username) + [0x3A] + Utf8.Encode(password))
  {
    var token := Base64.Encode(Utf8.Encode(username + ":" + password));
    assert BasicCredentials(username, password)[6..] == token;
    CredentialBytes(username, password);
    Base64.DecodeEncode(Utf8.Encode(username + ":" + password));
  }

  /** When the user-id holds no colon, as section 2 of RFC 7617 requires, the first colon byte
      of the decoded credentials splits them back into user-id and password. */
  lemma {:induction false} BasicCredentialsSplit(username: string, password: string)
    requires ':' !in username
    ensures var bs := Utf8.Encode(username) + [0x3A] + Utf8.Encode(password);
            var i := |Utf8.Encode(username)|;
            0x3A !in bs[..i] && bs[i] == 0x3A
            && Utf8.Decode(bs[..i]) == Some(username) && Utf8.Decode(bs[i + 1..]) == Some(password)
  {
    var bs := Utf8.Encode(username) + [0x3A] + Utf8.Encode(password);
    var i := |Utf8.Encode(username)|;
    Utf8.AsciiByteOnlyFromChar(username, ':');
    assert bs[..i] == Utf8.Encode(username);
    assert bs[i + 1..] == Utf8.Encode(password);
    Utf8.DecodeEncode(username);
    Utf8.DecodeEncode(password);
  }

  function WithJSONRespTo(target: Option<Ref>): (op: Config -> Config)
    ensures forall c :: op(c).jsonResp == target && op(c).(jsonResp := c.jsonResp) == c
  {
    (c: Config) => c.(jsonResp := target)
  }

  function WithTextRespTo(target: Option<Ref>): (op: Config -> Config)
    ensures forall c :: op(c).textResp == target && op(c).(textResp := c.textResp) == c
  {
    (c: Config) => c.(textResp := target)
  }

  function WithHeaderRespTo(target: Option<Ref>): (op: Config -> Config)
    ensures forall c :: op(c).headerResp == target && op(c).(headerResp := c.headerResp) == c
  {
    (c: Config) => c.(headerResp := target)
  }

  function WithTimeout(seconds: int): (op: Config -> Config)
    requires IsInt64(seconds)
    ensures forall c :: op(c).timeout == seconds && op(c).(timeout := c.timeout) == c
  {
    (c: Config) => c.(timeout := seconds)
  }

  /** `WithGoProxyProvider` (pkg/https/proxy.go). */
  function WithGoProxyProvider(provider: Option<ProviderRef>): (op: Config -> Config)
    ensures forall c :: op(c).proxyProvider == provider && op(c).(proxyProvider := c.proxyProvider) == c
  {
    (c: Config) => c.(proxyProvider := provider)
  }

  /** `WithShopifyAccessToken` (pkg/https/shopify.go). */
  function WithShopifyAccessToken(accessToken: string): (op: Config -> Config)
    ensures forall c :: op(c).headers == Put(c.headers, "X-Shopify-Access-Token", accessToken)
    ensures forall c :: op(c).(headers := c.headers) == c
  {
    (c: Config) => c.(headers := Put(c.headers, "X-Shopify-Access-Token", accessToken))
  }

  /** Merging an incoming map twice is the same as merging it once. */
  lemma {:induction false} MergeIdempotent(existing: Option<M>, incoming: Option<M>)
    ensures Merge(Merge(existing, incoming), incoming) == Merge(existing, incoming)
  {
    if existing.Some? && incoming.Some? {
      var m := existing.value + incoming.value;
      assert m + incoming.value == m;
    } else if existing.None? && incoming.Some? {
      assert incoming.value + incoming.value == incoming.value;
    } else if existing.Some? {
      assert existing.value + map[] == existing.value;
    }
  }
}

=== FILE: https_proxy.dfy ===
/** `pkg/https/proxy.go`: the round-robin proxy provider. Its counter is an `int32` advanced
    atomically; the model threads it as a plain state value. */
module HttpsProxy {
  import opened GoTypes

  datatype RRProxy = RRProxy(hosts: seq<string>, secret: string, index: int)

  /** How a `GetProxy` call can panic. */
  datatype ProxyPanic = DivideByZero | IndexOutOfRange(index: int)

  /** `NewRRProxyProvider`: the counter starts at -1 so that the first call uses hosts[0]. */
  function NewRRProxyProvider(hosts: seq<string>, secret: string): (p: RRProxy)
    ensures p.hosts == hosts && p.secret == secret && p.index == -1
  {
    RRProxy(hosts, secret, -1)
  }

  /** `GetProxy` as written: `id := atomic.AddInt32(&index, 1)`, then
      `hosts[id % int32(len(hosts))]` with Go's truncating `%`. The counter advances (with
      int32 wrap-around) even when the lookup then panics. */
  function GetProxy(p: RRProxy): (r: (Result<(string, string), ProxyPanic>, RRProxy))
    ensures r.1 == p.(index := Wrap32(p.index + 1))
    ensures r.0.Ok? ==> r.0.value.1 == p.secret && r.0.value.0 in p.hosts
    ensures |p.hosts| == 0 ==> r.0 == Err(DivideByZero)
  {
    var id := Wrap32(p.index + 1);
    var p' := p.(index := id);
    var n := Wrap32(|p.hosts|);
    if n == 0 then (Err(DivideByZero), p')
    else
      var i := GoRem(id, n);
      if 0 <= i < |p.hosts| then (Ok((p.hosts[i], p.secret)), p')
      else (Err(IndexOutOfRange(i)), p')
  }

  /** The provider after `k` calls. */
  function AfterCalls(p: RRProxy, k: nat): RRProxy
  {
    if k == 0 then p else GetProxy(AfterCalls(p, k - 1)).1
  }

  /** Before the counter overflows, k calls have moved it from -1 to k - 1. */
  lemma {:induction false} CounterCountsCalls(hosts: seq<string>, secret: string, k: nat)
    requires k <= MaxInt32 + 1
    ensures AfterCalls(NewRRProxyProvider(hosts, secret), k)
         == NewRRProxyProvider(hosts, secret).(index := k - 1)
  {
    if k > 0 {
      CounterCountsCalls(hosts, secret, k - 1);
    }
  }

  /** Round robin: on a fresh provider with hosts, call number k (from 0) returns
      hosts[k mod len(hosts)] and the secret, for as long as the counter has not overflowed. */
  lemma {:induction false} RoundRobin(hosts: seq<string>, secret: string, k: nat)
    requires 0 < |hosts| <= MaxInt32
    requires k <= MaxInt32
    ensures GetProxy(AfterCalls(NewRRProxyProvider(hosts, secret), k)).0 == Ok((hosts[k % |hosts|], secret))
  {
    CounterCountsCalls(hosts, secret, k);
  }

  /** The first call on a fresh provider returns the first host. */
  lemma {:induction false} FirstCallUsesFirstHost(hosts: seq<string>, secret: string)
    requires 0 < |hosts| <= MaxInt32
    ensures GetProxy(NewRRProxyProvider(hosts, secret)).0 == Ok((hosts[0], secret))
  {
  }

  /** After 2^31 calls the int32 counter wraps to its minimum, the truncating remainder turns
      negative and `GetProxy` panics: with three hosts, call number 2^31 fails. */
  lemma {:induction false} GetProxyPanicsAfterWrap(secret: string)
    ensures var p := NewRRProxyProvider(["a", "b", "c"], secret).(index := MaxInt32);
            GetProxy(p).0 == Err(IndexOutOfRange(-2))
  {
  }

  /** Call number 2^31 (from 0): `CounterCountsCalls` shows the counter is then MaxInt32, so the
      call wraps it to -2^31. It panics exactly when the number of hosts does not divide 2^31;
      otherwise the remainder is 0 and the call returns the first host. */
  lemma {:induction false} WrappedCallPanicsUnlessDivides(hosts: seq<string>, secret: string)
    requires 0 < |hosts| <= MaxInt32
    ensures var r := GetProxy(NewRRProxyProvider(hosts, secret).(index := MaxInt32)).0;
            && (r.Err? <==> 0x8000_0000 % |hosts| != 0)
            && (r.Ok? ==> r == Ok((hosts[0], secret)))
  {
    assert Wrap32(MaxInt32 + 1) == MinInt32;
    assert Wrap32(|hosts|) == |hosts|;
    assert GoRem(MinInt32, |hosts|) == -(0x8000_0000 % |hosts|);
  }

  /** The evidently intended lookup: a counter that stays non-negative (`uint32`), so the
      remainder is always a valid index. */
  function GetProxyUnsigned(p: RRProxy): (r: (Result<(string, string), ProxyPanic>, RRProxy))
    requires 0 <= p.index < TwoTo32
    ensures 0 <= r.1.index < TwoTo32 && r.1.hosts == p.hosts && r.1.secret == p.secret
    ensures |p.hosts| == 0 <==> r.0.Err?
    ensures 0 < |p.hosts| ==> r.0 == Ok((p.hosts[r.1.index % |p.hosts|], p.secret))
  {
    var id := (p.index + 1) % TwoTo32;
    var p' := p.(index := id);
    if |p.hosts| == 0 then (Err(DivideByZero), p')
    else (Ok((p.hosts[id % |p.hosts|], p.secret)), p')
  }

  /** With the unsigned counter no call ever panics on a non-empty host list, however many
      calls came before. */
  lemma {:induction false} UnsignedNeverPanics(p: RRProxy, k: nat)
    requires 0 <= p.index < TwoTo32 && |p.hosts| > 0
    ensures var q := UnsignedAfterCalls(p, k); 0 <= q.index < TwoTo32 && q.hosts == p.hosts
    ensures GetProxyUnsigned(UnsignedAfterCalls(p, k)).0.Ok?
  {
    if k > 0 {
      UnsignedNeverPanics(p, k - 1);
    }
  }

  function UnsignedAfterCalls(p: RRProxy, k: nat): (q: RRProxy)
    requires 0 <= p.index < TwoTo32
    ensures 0 <= q.index < TwoTo32 && q.hosts == p.hosts && q.secret == p.secret
  {
    if k == 0 then p else GetProxyUnsigned(UnsignedAfterCalls(p, k - 1)).1
  }
}

=== FILE: https_shopify.dfy ===
/** `pkg/https/shopify.go`: the Shopify API version (environment, or the quarter two months
    back, cached after the first call) and the Admin API URLs. The current date is an input:
    `year` and `month` are those of `time.Now().AddDate(0, -2, 0)`. */
module HttpsShopify {
  import opened GoTypes
  import Env
  import Decimal

  const VersionKey: string := "SHOPIFY_API_VERSION"

  /** The first month of the quarter holding `month`: ((m-1)/3)*3+1. */
  function QuarterMonth(month: int): (q: int)
    requires 1 <= month <= 12
    ensures q == 1 || q == 4 || q == 7 || q == 10
    ensures month - 3 < q <= month
  {
    ((month - 1) / 3) * 3 + 1
  }

  /** `%02d` for a number below 100. */
  function Pad2(n: nat): (s: string)
    requires n < 100
    ensures |s| == 2 && Decimal.IsDigits(s) && Decimal.DigitsValue(s) == n
  {
    var s := [Decimal.DigitChar(n / 10), Decimal.DigitChar(n % 10)];
    assert s[..1] == [s[0]] && s[..1][..0] == [];
    assert Decimal.DigitValue(s[0]) == n / 10 && Decimal.DigitValue(s[1]) == n % 10;
    assert Decimal.DigitsValue(s[..1]) == n / 10 by {
      assert Decimal.DigitsValue(s[..1][..0]) == 0;
    }
    assert Decimal.DigitsValue(s) == Decimal.DigitsValue(s[..1]) * 10 + Decimal.DigitValue(s[1]);
    s
  }

  /** The fallback version "<year>-<two-digit quarter month>". */
  function FallbackVersion(year: int, month: int): string
    requires 1 <= month <= 12
  {
    Decimal.Itoa(year) + "-" + Pad2(QuarterMonth(month))
  }

  /** The fallback version reads back as its year and quarter month: the year's digits, a dash,
      then exactly two digits naming the quarter's first month. */
  lemma {:induction false} FallbackVersionShape(year: int, month: int)
    requires IsInt64(year) && 1 <= month <= 12
    ensures var s := FallbackVersion(year, month); var n := |s| - 3;
            && 0 < n && s[n] == '-'
            && Decimal.Atoi(s[..n]) == Decimal.Parsed(year, None)
    ensures var s := FallbackVersion(year, month); var n := |s| - 3;
            && Decimal.IsDigits(s[n + 1..]) && Decimal.DigitsValue(s[n + 1..]) == QuarterMonth(month)
  {
    var s := FallbackVersion(year, month);
    var y := Decimal.Itoa(year);
    assert s[..|y|] == y;
    assert s[|y| + 1..] == Pad2(QuarterMonth(month));
    Decimal.AtoiItoa(year);
  }

  /** `getShopifyAPIVersion` over the cached value: a non-empty cache is returned; otherwise the
      environment value when non-empty; otherwise the fallback. The result is cached. */
  function GetVersion(cached: string, env: Env.Environ, year: int, month: int): (r: (string, string))
    requires 1 <= month <= 12
    ensures r.0 == r.1 && r.0 != ""
    ensures cached != "" ==> r.0 == cached
    ensures cached == "" && Env.Getenv(env, VersionKey) != "" ==> r.0 == env[VersionKey]
    ensures cached == "" && Env.Getenv(env, VersionKey) == "" ==> r.0 == FallbackVersion(year, month)
  {
    if cached != "" then (cached, cached)
    else
      var v := Env.Getenv(env, VersionKey);
      if v != "" then (v, v)
      else
        var f := FallbackVersion(year, month);
        assert f[|Decimal.Itoa(year)|] == '-';
        (f, f)
  }

  /** Once a version is cached, every later call returns it, whatever the environment or date. */
  lemma {:induction false} VersionIsSticky(cached: string, env1: Env.Environ, y1: int, m1: int, env2: Env.Environ, y2: int, m2: int)
    requires 1 <= m1 <= 12 && 1 <= m2 <= 12
    ensures var (v1, c1) := GetVersion(cached, env1, y1, m1);
            GetVersion(c1, env2, y2, m2) == (v1, c1)
  {
  }

  function ApiBase(domain: string, version: string): string
  {
    "https://" + domain + "/admin/api/" + version
  }

  /** "/" + r for each rendered resource, in order (`fmt.Sprintf("/%v", r)`). */
  function JoinResources(resources: seq<string>): (s: string)
    ensures |resources| == 0 ==> s == ""
  {
    if |resources| == 0 then "" else "/" + resources[0] + JoinResources(resources[1..])
  }

  lemma {:induction false} JoinResourcesAppend(a: seq<string>, b: seq<string>)
    ensures JoinResources(a + b) == JoinResources(a) + JoinResources(b)
  {
    if |a| == 0 {
      assert a + b == b;
    } else {
      assert (a + b)[0] == a[0];
      assert (a + b)[1..] == a[1..] + b;
      JoinResourcesAppend(a[1..], b);
    }
  }

  /** `MakeShopifyGraphqlURL`, with the version cache threaded through. */
  function MakeShopifyGraphqlURL(domain: string, cached: string, env: Env.Environ, year: int, month: int): (r: (string, string))
    requires 1 <= month <= 12
    ensures r.1 == GetVersion(cached, env, year, month).1
    ensures r.0 == ApiBase(domain, r.1) + "/graphql.json"
  {
    var (v, c) := GetVersion(cached, env, year, month);
    (ApiBase(domain, v) + "/graphql.json", c)
  }

  /** `MakeShopifyRestURL`; `resources` are the `%v` renderings of the arguments. */
  function MakeShopifyRestURL(domain: string, resources: seq<string>, cached: string, env: Env.Environ, year: int, month: int): (r: (string, string))
    requires 1 <= month <= 12
    ensures r.1 == GetVersion(cached, env, year, month).1
    ensures r.0 == ApiBase(domain, r.1) + JoinResources(resources) + ".json"
  {
    var (v, c) := GetVersion(cached, env, year, month);
    (ApiBase(domain, v) + JoinResources(resources) + ".json", c)
  }

  /** The GraphQL suffix is the rendering of the single resource "graphql" with ".json". */
  lemma {:induction false} GraphqlSuffix(base: string)
    ensures base + "/graphql.json" == base + JoinResources(["graphql"]) + ".json"
  {
    assert JoinResources(["graphql"]) == "/graphql" by {
      assert ["graphql"][1..] == [];
    }
    assert "/graphql" + ".json" == "/graphql.json";
  }

  /** The GraphQL endpoint is the REST URL of the single resource "graphql". */
  lemma {:induction false} GraphqlIsRestOfGraphql(domain: string, cached: string, env: Env.Environ, year: int, month: int)
    requires 1 <= month <= 12
    ensures MakeShopifyGraphqlURL(domain, cached, env, year, month) == MakeShopifyRestURL(domain, ["graphql"], cached, env, year, month)
  {
    var g := MakeShopifyGraphqlURL(domain, cached, env, year, month);
    var r := MakeShopifyRestURL(domain, ["graphql"], cached, env, year, month);
    GraphqlSuffix(ApiBase(domain, g.1));
    assert g.0 == r.0 && g.1 == r.1;
  }

  /** A nested resource path is the parent's path followed by the child's segments. */
  lemma {:induction false} RestURLNests(domain: string, parent: seq<string>, child: seq<string>, cached: string, env: Env.Environ, year: int, month: int)
    requires 1 <= month <= 12
    ensures var v := GetVersion(cached, env, year, month).0;
            (MakeShopifyRestURL(domain, parent + child, cached, env, year, month).0
             == ApiBase(domain, v) + JoinResources(parent) + JoinResources(child) + ".json")
  {
    JoinResourcesAppend(parent, child);
  }
}

=== FILE: log.dfy ===
/** `pkg/log/log.go`: the decisions `SetLogHandler` makes before installing its handler. The
    handler, its colours and its output stream are not modelled. */
module Log {
  import opened GoTypes
  import opened Env

  /** The slog levels the code chooses between (slog's Debug is -4 and Info is 0). */
  datatype Level = Debug | Info

  function LevelValue(l: Level): int
  {
    match l
    case Debug => -4
    case Info => 0
  }

  /** Production is decided by the exact value of ENV. */
  predicate IsProduction(env: Environ)
  {
    var e := Getenv(env, "ENV");
    e == "prod" || e == "production" || e == "master"
  }

  /** The minimum level: Info in production, Debug otherwise. */
  function LevelFor(env: Environ): (l: Level)
    ensures l == Info <==> IsProduction(env)
  {
    if IsProduction(env) then Info else Debug
  }

  /** A non-production environment logs more: its minimum level is strictly lower. */
  lemma {:induction false} DevelopmentLogsMore(dev: Environ, prod: Environ)
    requires !IsProduction(dev) && IsProduction(prod)
    ensures LevelValue(LevelFor(dev)) < LevelValue(LevelFor(prod))
  {
  }

  /** Production is decided by the exact text: other spellings and unset ENV are development. */
  lemma {:induction false} ProductionIsExact(env: Environ)
    ensures IsProduction(env["ENV" := "prod"]) && IsProduction(env["ENV" := "production"])
    ensures IsProduction(env["ENV" := "master"])
    ensures !IsProduction(env["ENV" := "Prod"]) && !IsProduction(env["ENV" := "dev"])
    ensures !IsProduction(env - {"ENV"})
  {
    assert Getenv(env - {"ENV"}, "ENV") == "";
  }

  /** An attribute: a key and its value; the zero `slog.Attr` has the empty key and no value. */
  datatype Attr<V> = Attr(key: string, value: Option<V>)

  const TimeKey: string := "time"

  function EmptyAttr<V>(): Attr<V> { Attr("", None) }

  /** The handler's `ReplaceAttr`: drops the time attribute at the root (no enclosing group);
      keeps everything else as it is. */
  function ReplaceAttr<V>(groups: seq<string>, a: Attr<V>): (r: Attr<V>)
    ensures r != a <==> a.key == TimeKey && |groups| == 0
    ensures r == a || r == EmptyAttr()
  {
    if a.key == TimeKey && |groups| == 0 then EmptyAttr() else a
  }

  /** Replacing twice is replacing once: a dropped attribute is not dropped again. */
  lemma {:induction false} ReplaceAttrIdempotent<V>(groups: seq<string>, a: Attr<V>)
    ensures ReplaceAttr(groups, ReplaceAttr(groups, a)) == ReplaceAttr(groups, a)
  {
  }

  /** The handler settings: the chosen level, with source locations added. */
  datatype HandlerOptions = HandlerOptions(level: Level, addSource: bool)

  function SetLogHandler(env: Environ): (h: HandlerOptions)
    ensures h.addSource
    ensures h.level == Info <==> IsProduction(env)
  {
    HandlerOptions(LevelFor(env), true)
  }
}

=== FILE: observer.dfy ===
/** `pkg/observer/observer.go`: the topic registry and its fan-out. The package-level subject
    is threaded as a value. `Notify` starts one goroutine per observer; the model runs the
    handlers one after another in registration order, which is one of the orders Go allows. */
module Observer {
  import opened GoTypes

  type Topic = string

  /** The registry: for each topic, its observers in subscription order. */
  type Subject<O> = map<Topic, seq<O>>

  /** Go's `subject.observers[topic]`: the list, or nil (empty) for a missing topic. */
  function Get<O>(s: Subject<O>, t: Topic): seq<O>
  {
    if t in s then s[t] else []
  }

  /** The subject created at package initialisation. */
  function NewSubject<O>(): (s: Subject<O>)
    ensures forall t :: Get(s, t) == []
  {
    map[]
  }

  /** `Subscribe`: the observer goes at the end of its topic's list; nothing is de-duplicated. */
  function Subscribe<O>(s: Subject<O>, t: Topic, o: O): (r: Subject<O>)
    ensures Get(r, t) == Get(s, t) + [o]
    ensures forall u :: u != t ==> Get(r, u) == Get(s, u)
  {
    s[t := Get(s, t) + [o]]
  }

  /** After subscribing, the topic has an entry in the subject, and no other topic gains one. */
  lemma {:induction false} SubscribeRegistersTopic<O>(s: Subject<O>, t: Topic, o: O)
    ensures Subscribe(s, t, o).Keys == s.Keys + {t}
  {
  }

  /** Subscribing the same observer twice records it twice. */
  lemma {:induction false} SubscribeTwiceTwoEntries<O>(s: Subject<O>, t: Topic, o: O)
    ensures var r := Subscribe(Subscribe(s, t, o), t, o);
            |Get(r, t)| == |Get(s, t)| + 2 && Get(r, t)[|Get(s, t)|] == o && Get(r, t)[|Get(s, t)| + 1] == o
  {
  }

  /** The record `slog.Error` makes of a recovered panic. */
  datatype PanicLog = PanicLog(topic: Topic, name: string, error: string)

  /** The panic logs of handling `obs` in order; `handle` gives the rendered panic value of a
      handler that panics and None for one that returns. */
  function PanicLogs<O, D>(obs: seq<O>, t: Topic, data: D, handle: (O, Topic, D) -> Option<string>,
                           name: O -> string): (logs: seq<PanicLog>)
    ensures |logs| <= |obs|
  {
    if |obs| == 0 then []
    else
      var o := obs[|obs| - 1];
      PanicLogs(obs[..|obs| - 1], t, data, handle, name)
        + (if handle(o, t, data).Some? then [PanicLog(t, name(o), handle(o, t, data).value)] else [])
  }

  /** `Notify`: one `Handle(topic, data)` per registered observer, in order; a panicking handler
      is recovered and logged and neither stops the others nor reaches the caller. The registry
      is not changed (the method does not return one). */
  method Notify<O, D>(s: Subject<O>, t: Topic, data: D, handle: (O, Topic, D) -> Option<string>,
                      name: O -> string)
    returns (handled: seq<O>, logs: seq<PanicLog>)
    ensures handled == Get(s, t)
    ensures logs == PanicLogs(Get(s, t), t, data, handle, name)
    ensures t !in s ==> handled == [] && logs == []
  {
    handled := [];
    logs := [];
    if t in s {
      var obs := s[t];
      var i := 0;
      while i < |obs|
        invariant 0 <= i <= |obs|
        invariant handled == obs[..i]
        invariant logs == PanicLogs(obs[..i], t, data, handle, name)
      {
        var o := obs[i];
        var panicked := handle(o, t, data);
        handled := handled + [o];
        if panicked.Some? {
          logs := logs + [PanicLog(t, name(o), panicked.value)];
        }
        assert obs[..i + 1][..i] == obs[..i];
        i := i + 1;
      }
      assert obs[..|obs|] == obs;
    }
  }

  lemma {:induction false} PanicLogsNone<O, D>(obs: seq<O>, t: Topic, data: D, handle: (O, Topic, D) -> Option<string>,
                                            name: O -> string)
    requires forall i :: 0 <= i < |obs| ==> handle(obs[i], t, data).None?
    ensures PanicLogs(obs, t, data, handle, name) == []
  {
    if |obs| > 0 {
      var front := obs[..|obs| - 1];
      assert forall i :: 0 <= i < |front| ==> front[i] == obs[i];
      PanicLogsNone(front, t, data, handle, name);
    }
  }

  lemma {:induction false} PanicLogsEach<O, D>(obs: seq<O>, t: Topic, data: D, handle: (O, Topic, D) -> Option<string>,
                                            name: O -> string)
    requires forall i :: 0 <= i < |obs| ==> handle(obs[i], t, data).Some?
    ensures |PanicLogs(obs, t, data, handle, name)| == |obs|
    ensures forall i :: 0 <= i < |obs| ==>
              PanicLogs(obs, t, data, handle, name)[i] == PanicLog(t, name(obs[i]), handle(obs[i], t, data).value)
  {
    if |obs| > 0 {
      var front := obs[..|obs| - 1];
      assert forall i :: 0 <= i < |front| ==> front[i] == obs[i];
      PanicLogsEach(front, t, data, handle, name);
    }
  }

  /** When no handler panics nothing is logged; when every handler panics, each is logged once,
      in order, and all are still handled. */
  lemma {:induction false} PanicLogsCount<O, D>(obs: seq<O>, t: Topic, data: D, handle: (O, Topic, D) -> Option<string>,
                                              name: O -> string)
    ensures (forall i :: 0 <= i < |obs| ==> handle(obs[i], t, data).None?) ==> PanicLogs(obs, t, data, handle, name) == []
    ensures (forall i :: 0 <= i < |obs| ==> handle(obs[i], t, data).Some?) ==>
              |PanicLogs(obs, t, data, handle, name)| == |obs|
              && (forall i :: 0 <= i < |obs| ==>
                    PanicLogs(obs, t, data, handle, name)[i] == PanicLog(t, name(obs[i]), handle(obs[i], t, data).value))
  {
    if forall i :: 0 <= i < |obs| ==> handle(obs[i], t, data).None? {
      PanicLogsNone(obs, t, data, handle, name);
    }
    if forall i :: 0 <= i < |obs| ==> handle(obs[i], t, data).Some? {
      PanicLogsEach(obs, t, data, handle, name);
    }
  }
}

=== FILE: once.dfy ===
/** `sync.Once` together with the package variable it initialises, as an explicit state value
    threaded through calls instead of hidden global state. */
module SyncOnce {

  datatype Once<T> = NotYet | Done(value: T)

  /** `once.Do(func() { v = build() }); return v`, with `built` the value `build` would return. */
  function Do<T>(o: Once<T>, built: T): (r: (T, Once<T>))
    ensures r.1 == Done(r.0)
    ensures o.Done? ==> r.0 == o.value && r.1 == o
    ensures o.NotYet? ==> r.0 == built
  {
    match o
    case NotYet => (built, Done(built))
    case Done(v) => (v, o)
  }

  /** The values returned by successive calls, call k offering `builts[k]`. */
  function DoAll<T>(o: Once<T>, builts: seq<T>): (r: (seq<T>, Once<T>))
    ensures |r.0| == |builts|
    decreases |builts|
  {
    if |builts| == 0 then ([], o)
    else
      var (v, o') := Do(o, builts[0]);
      var (vs, o'') := DoAll(o', builts[1..]);
      ([v] + vs, o'')
  }

  /** Starting uninitialised, every call returns what the first call built, and nothing else
      is ever built. */
  lemma {:induction false} FirstCallWins<T>(builts: seq<T>)
    requires |builts| > 0
    ensures forall k :: 0 <= k < |builts| ==> DoAll(NotYet, builts).0[k] == builts[0]
    ensures DoAll(NotYet, builts).1 == Done(builts[0])
  {
    DoneStaysDone(Done(builts[0]), builts[1..]);
  }

  /** Once done, every later call returns the stored value and the state never changes. */
  lemma {:induction false} DoneStaysDone<T>(o: Once<T>, builts: seq<T>)
    requires o.Done?
    ensures forall k :: 0 <= k < |builts| ==> DoAll(o, builts).0[k] == o.value
    ensures DoAll(o, builts).1 == o
    decreases |builts|
  {
    if |builts| > 0 {
      DoneStaysDone(o, builts[1..]);
    }
  }
}

=== FILE: queue_init.dfy ===
/** `pkg/queue/init.go`: the package's shared Redis pool and job enqueuer, each built at most
    once, the provider selector, and the pool's dial parameters. */
module QueueInit {
  import opened GoTypes
  import opened Env
  import Decimal
  import opened SyncOnce

  const PoolWaterMill: string := "watermill"
  const PoolWork: string := "work"

  /** The package-wide worker-pool concurrency handed to every worker pool. */
  const MaxConcurrent: Uint := 10

  /** `poolProvider`: "watermill" exactly when POOL_PROVIDER says so, otherwise "work". */
  function PoolProvider(env: Environ): (r: string)
    ensures r == PoolWaterMill <==> Getenv(env, "POOL_PROVIDER") == PoolWaterMill
    ensures r == PoolWaterMill || r == PoolWork
  {
    if Getenv(env, "POOL_PROVIDER") != "" && Getenv(env, "POOL_PROVIDER") == PoolWaterMill then PoolWaterMill
    else PoolWork
  }

  /** A redigo pool. `handle` stands for the allocation's identity (the Go pointer). */
  datatype RedisPool = RedisPool(handle: nat, wait: bool)

  /** Arguments of one `redis.Dial` call made by the pool's Dial function. */
  datatype DialParams = DialParams(network: string, address: string, database: int, password: string)

  /** `newPoolRedis`: a fail-fast pool (no waiting for a free connection). */
  function NewPoolRedis(handle: nat): (p: RedisPool)
    ensures !p.wait && p.handle == handle
  {
    RedisPool(handle, false)
  }

  /** What the pool's Dial function passes to `redis.Dial`. It reads the environment when it
      dials, not when the pool is built. */
  function DialParamsOf(env: Environ): (d: DialParams)
    ensures d.network == "tcp"
    ensures d.address == Getenv(env, "REDIS_HOST") + ":" + Getenv(env, "REDIS_PORT")
    ensures d.password == Getenv(env, "REDIS_PASSWORD")
    ensures Decimal.IsDigits(Getenv(env, "REDIS_DB")) && Decimal.DigitsValue(Getenv(env, "REDIS_DB")) <= MaxInt64
            ==> d.database == Decimal.DigitsValue(Getenv(env, "REDIS_DB"))
    ensures Decimal.NotANumber(Getenv(env, "REDIS_DB")) ==> d.database == 0
    ensures Decimal.LeadingValue(Decimal.Unsigned(Getenv(env, "REDIS_DB"))) > MaxUint64
            ==> d.database == (if |Getenv(env, "REDIS_DB")| > 0 && Getenv(env, "REDIS_DB")[0] == '-' then MinInt64 else MaxInt64)
  {
    DialParams("tcp", Getenv(env, "REDIS_HOST") + ":" + Getenv(env, "REDIS_PORT"),
               Decimal.AtoiOrZero(Getenv(env, "REDIS_DB")), Getenv(env, "REDIS_PASSWORD"))
  }

  /** `Task`: a gocraft/work enqueuer over a namespace and a pool. */
  datatype Task = Task(namespace: string, pool: RedisPool)

  /** The package's global state. `namespace` is read from APP_NAME at package initialisation. */
  datatype State = State(pool: Once<RedisPool>, task: Once<Task>, namespace: string)

  /** The states the package can reach: an enqueuer, once built, uses the package namespace
      and the pool the package holds. */
  predicate Valid(s: State) {
    s.task.Done? ==> s.task.value.namespace == s.namespace && s.pool == Done(s.task.value.pool)
  }

  function PackageInit(env: Environ): (s: State)
    ensures Valid(s)
    ensures s.pool.NotYet? && s.task.NotYet? && s.namespace == Getenv(env, "APP_NAME")
  {
    State(NotYet, NotYet, Getenv(env, "APP_NAME"))
  }

  /** `instancePool`: the first call builds the pool (with allocation `handle`); every call
      returns that pool. */
  function InstancePool(s: State, handle: nat): (r: (RedisPool, State))
    ensures r.1 == s.(pool := Done(r.0))
    ensures s.pool.Done? ==> r.0 == s.pool.value
    ensures s.pool.NotYet? ==> r.0 == NewPoolRedis(handle)
  {
    var (p, o) := SyncOnce.Do(s.pool, NewPoolRedis(handle));
    (p, s.(pool := o))
  }

  /** `Ping`: dials once through the shared pool; the dial's error is returned unchanged, so the
      result is nil exactly when the dial succeeds. `dial` is the network. */
  function Ping(s: State, env: Environ, handle: nat, dial: DialParams -> Option<string>): (r: (Option<string>, State))
    ensures r.0 == dial(DialParamsOf(env))
    ensures r.1.pool.Done? && r.1.task == s.task && r.1.namespace == s.namespace
  {
    var (_, s') := InstancePool(s, handle);
    (dial(DialParamsOf(env)), s')
  }

  /** `initQueue`: the first call builds the enqueuer over the namespace and the shared pool
      (building the pool too if needed); later calls return it and touch nothing. */
  function InitQueue(s: State, handle: nat): (r: (Task, State))
    ensures r.1.task == Done(r.0) && r.1.namespace == s.namespace
    ensures s.task.Done? ==> r.0 == s.task.value && r.1 == s
    ensures s.task.NotYet? ==> r.0.namespace == s.namespace && r.1.pool == Done(r.0.pool)
    ensures s.task.NotYet? && s.pool.Done? ==> r.0.pool == s.pool.value
    ensures Valid(s) ==> Valid(r.1) && r.0.namespace == s.namespace
  {
    match s.task
    case Done(t) => (t, s)
    case NotYet =>
      var (p, s') := InstancePool(s, handle);
      var t := Task(s.namespace, p);
      (t, s'.(task := Done(t)))
  }

  /** Whatever allocations later calls would make, `instancePool` keeps returning the first pool. */
  lemma {:induction false} InstancePoolOnce(s: State, h1: nat, h2: nat)
    requires s.pool.NotYet?
    ensures InstancePool(InstancePool(s, h1).1, h2).0 == NewPoolRedis(h1)
    ensures InstancePool(InstancePool(s, h1).1, h2).1 == InstancePool(s, h1).1
  {
  }
}

=== FILE: queue_option.dfy ===
/** `pkg/queue/option.go`: the per-worker job policy and its option setters. */
module QueueOptions {
  import opened GoTypes
  import opened Setters

  /** Worker policy. All fields are Go `uint`; MaxTimeout is in seconds, 0 meaning none. */
  datatype Options = Options(
    priority: Uint,
    maxFails: Uint,
    skipDead: bool,
    maxConcurrency: Uint,
    maxTimeout: Uint)

  function Priority(o: Options): Uint { o.priority }
  function MaxFails(o: Options): Uint { o.maxFails }
  function SkipDead(o: Options): bool { o.skipDead }
  function MaxConcurrency(o: Options): Uint { o.maxConcurrency }
  function MaxTimeout(o: Options): Uint { o.maxTimeout }

  function WithPriority(n: Uint): (op: Options -> Options)
    ensures forall o :: op(o).priority == n && op(o).(priority := o.priority) == o
  {
    (o: Options) => o.(priority := n)
  }

  function WithMaxFails(n: Uint): (op: Options -> Options)
    ensures forall o :: op(o).maxFails == n && op(o).(maxFails := o.maxFails) == o
  {
    (o: Options) => o.(maxFails := n)
  }

  /** Sets the flag; there is no option that clears it. */
  function WithSkipDead(): (op: Options -> Options)
    ensures forall o :: op(o).skipDead && op(o).(skipDead := o.skipDead) == o
  {
    (o: Options) => o.(skipDead := true)
  }

  function WithMaxConcurrency(n: Uint): (op: Options -> Options)
    ensures forall o :: op(o).maxConcurrency == n && op(o).(maxConcurrency := o.maxConcurrency) == o
  {
    (o: Options) => o.(maxConcurrency := n)
  }

  function WithMaxTimeout(n: Uint): (op: Options -> Options)
    ensures forall o :: op(o).maxTimeout == n && op(o).(maxTimeout := o.maxTimeout) == o
  {
    (o: Options) => o.(maxTimeout := n)
  }

  /** Setting the same field twice is the same as setting it once. */
  lemma {:induction false} SettersIdempotent(n: Uint)
    ensures Idempotent(WithPriority(n)) && Idempotent(WithMaxFails(n)) && Idempotent(WithSkipDead())
    ensures Idempotent(WithMaxConcurrency(n)) && Idempotent(WithMaxTimeout(n))
  {
    forall o: Options ensures WithPriority(n)(WithPriority(n)(o)) == WithPriority(n)(o) {
      assert WithPriority(n)(o) == o.(priority := n);
    }
    forall o: Options ensures WithMaxFails(n)(WithMaxFails(n)(o)) == WithMaxFails(n)(o) {
      assert WithMaxFails(n)(o) == o.(maxFails := n);
    }
    forall o: Options ensures WithSkipDead()(WithSkipDead()(o)) == WithSkipDead()(o) {
      assert WithSkipDead()(o) == o.(skipDead := true);
    }
    forall o: Options ensures WithMaxConcurrency(n)(WithMaxConcurrency(n)(o)) == WithMaxConcurrency(n)(o) {
      assert WithMaxConcurrency(n)(o) == o.(maxConcurrency := n);
    }
    forall o: Options ensures WithMaxTimeout(n)(WithMaxTimeout(n)(o)) == WithMaxTimeout(n)(o) {
      assert WithMaxTimeout(n)(o) == o.(maxTimeout := n);
    }
  }

  lemma {:induction false} PriorityKeepsOthers(n: Uint)
    ensures Keeps(WithPriority(n), MaxFails) && Keeps(WithPriority(n), SkipDead)
    ensures Keeps(WithPriority(n), MaxConcurrency) && Keeps(WithPriority(n), MaxTimeout)
  {
  }

  lemma {:induction false} MaxFailsKeepsOthers(n: Uint)
    ensures Keeps(WithMaxFails(n), Priority) && Keeps(WithMaxFails(n), SkipDead)
    ensures Keeps(WithMaxFails(n), MaxConcurrency) && Keeps(WithMaxFails(n), MaxTimeout)
  {
  }

  lemma {:induction false} SkipDeadKeepsOthers()
    ensures Keeps(WithSkipDead(), Priority) && Keeps(WithSkipDead(), MaxFails)
    ensures Keeps(WithSkipDead(), MaxConcurrency) && Keeps(WithSkipDead(), MaxTimeout)
  {
  }

  lemma {:induction false} MaxConcurrencyKeepsOthers(n: Uint)
    ensures Keeps(WithMaxConcurrency(n), Priority) && Keeps(WithMaxConcurrency(n), MaxFails)
    ensures Keeps(WithMaxConcurrency(n), SkipDead) && Keeps(WithMaxConcurrency(n), MaxTimeout)
  {
  }

  lemma {:induction false} MaxTimeoutKeepsOthers(n: Uint)
    ensures Keeps(WithMaxTimeout(n), Priority) && Keeps(WithMaxTimeout(n), MaxFails)
    ensures Keeps(WithMaxTimeout(n), SkipDead) && Keeps(WithMaxTimeout(n), MaxConcurrency)
  {
  }

  /** Each setter leaves the fields it does not name alone. */
  lemma {:induction false} SettersIndependent(n: Uint)
    ensures Keeps(WithPriority(n), MaxFails) && Keeps(WithPriority(n), SkipDead)
    ensures Keeps(WithPriority(n), MaxConcurrency) && Keeps(WithPriority(n), MaxTimeout)
    ensures Keeps(WithMaxFails(n), Priority) && Keeps(WithMaxFails(n), SkipDead)
    ensures Keeps(WithMaxFails(n), MaxConcurrency) && Keeps(WithMaxFails(n), MaxTimeout)
    ensures Keeps(WithSkipDead(), Priority) && Keeps(WithSkipDead(), MaxFails)
    ensures Keeps(WithSkipDead(), MaxConcurrency) && Keeps(WithSkipDead(), MaxTimeout)
    ensures Keeps(WithMaxConcurrency(n), Priority) && Keeps(WithMaxConcurrency(n), MaxFails)
    ensures Keeps(WithMaxConcurrency(n), SkipDead) && Keeps(WithMaxConcurrency(n), MaxTimeout)
    ensures Keeps(WithMaxTimeout(n), Priority) && Keeps(WithMaxTimeout(n), MaxFails)
    ensures Keeps(WithMaxTimeout(n), SkipDead) && Keeps(WithMaxTimeout(n), MaxConcurrency)
  {
    PriorityKeepsOthers(n);
    MaxFailsKeepsOthers(n);
    SkipDeadKeepsOthers();
    MaxConcurrencyKeepsOthers(n);
    MaxTimeoutKeepsOthers(n);
  }
}

=== FILE: queue_queue.dfy ===
/** `pkg/queue/queue.go`: the producer side. A queue value is bound to one queue name, holds
    the payload to send, and hands gocraft/work's enqueuer a single "payload" argument. */
module QueueProducer {
  import opened GoTypes
  import opened QueueInit
  import opened SyncOnce

  /** `Queue[T]`: `payload` is the `*T` set by WithData (None for nil). */
  datatype Queue<T> = Queue(task: Task, queueName: string, payload: Option<T>)

  /** `NewQueue`: binds the name and the shared enqueuer; no payload yet. */
  function NewQueue<T>(s: State, queueName: string, handle: nat): (r: (Queue<T>, State))
    ensures r.0.queueName == queueName && r.0.payload.None?
    ensures r.1.task == Done(r.0.task)
    ensures Valid(s) ==> Valid(r.1) && r.0.task.namespace == s.namespace
    ensures s.task.Done? ==> r.0.task == s.task.value
  {
    var (t, s') := InitQueue(s, handle);
    (Queue(t, queueName, None), s')
  }

  /** `WithData`: replaces the payload pointer; nothing else changes. */
  function WithData<T>(q: Queue<T>, data: Option<T>): (r: Queue<T>)
    ensures r.payload == data && r.task == q.task && r.queueName == q.queueName
  {
    q.(payload := data)
  }

  lemma {:induction false} WithDataLastWins<T>(q: Queue<T>, a: Option<T>, b: Option<T>)
    ensures WithData(WithData(q, a), b) == WithData(q, b)
  {
  }

  /** `serialize`: `json.Marshal` of the payload pointer as text. A nil pointer marshals to
      "null"; a marshal error is swallowed and gives "". `marshal` is `json.Marshal` on a `T`. */
  function Serialize<T>(q: Queue<T>, marshal: T -> Result<string, string>): (r: string)
    ensures q.payload.None? ==> r == "null"
    ensures q.payload.Some? && marshal(q.payload.value).Err? ==> r == ""
    ensures q.payload.Some? && marshal(q.payload.value).Ok? ==> r == marshal(q.payload.value).value
  {
    match q.payload
    case None => "null"
    case Some(v) =>
      match marshal(v)
      case Ok(text) => text
      case Err(_) => ""
  }

  /** Marshalled JSON text is never empty, so a set payload that marshals serialises to a
      non-empty string; an empty string signals a swallowed marshal error. */
  lemma {:induction false} SerializeNonEmpty<T>(q: Queue<T>, marshal: T -> Result<string, string>)
    requires forall v :: marshal(v).Ok? ==> |marshal(v).value| > 0
    ensures Serialize(q, marshal) == "" <==> q.payload.Some? && marshal(q.payload.value).Err?
  {
  }

  datatype EnqueueKind = Plain | Unique

  /** One call to `Enqueue` or `EnqueueUnique` on the shared enqueuer. */
  datatype EnqueueCall = EnqueueCall(kind: EnqueueKind, enqueuer: Task, queueName: string, args: map<string, string>)

  /** `Dispatch` / `DispatchUnique`: enqueue on the bound queue name with exactly one argument,
      "payload", and return only the enqueuer's error. `enqueue` is the library call. */
  function Dispatch<T>(q: Queue<T>, kind: EnqueueKind, marshal: T -> Result<string, string>,
                       enqueue: EnqueueCall -> Option<string>): (r: (EnqueueCall, Option<string>))
    ensures r.0.kind == kind && r.0.queueName == q.queueName && r.0.enqueuer == q.task
    ensures r.0.args.Keys == {"payload"} && r.0.args["payload"] == Serialize(q, marshal)
    ensures r.1 == enqueue(r.0)
  {
    var call := EnqueueCall(kind, q.task, q.queueName, map["payload" := Serialize(q, marshal)]);
    (call, enqueue(call))
  }

  /** The two dispatch forms differ only in the library entry point they call. */
  lemma {:induction false} DispatchFormsAgree<T>(q: Queue<T>, marshal: T -> Result<string, string>,
                              enqueue: EnqueueCall -> Option<string>)
    ensures Dispatch(q, Plain, marshal, enqueue).0.(kind := Unique) == Dispatch(q, Unique, marshal, enqueue).0
  {
  }
}

=== FILE: queue_worker.dfy ===
/** `pkg/queue/worker.go`: worker construction, the job options and context handed to
    gocraft/work, and the job closure that decodes the payload and calls the user handler. */
module QueueWorker {
  import opened GoTypes
  import opened Setters
  import opened QueueOptions
  import opened QueueInit
  import opened SyncOnce

  const DefaultMaxFails: Uint := 3
  const DefaultMaxConcurrency: Uint := 10

  /** The options a worker starts from before the caller's options run. */
  const Defaults: Options := Options(0, DefaultMaxFails, false, DefaultMaxConcurrency, 0)

  /** `work.NewWorkerPool(ctx, concurrency, namespace, pool)`. */
  datatype WorkerPool = WorkerPool(concurrency: Uint, namespace: string, redis: RedisPool)

  /** `Worker[T]`: `payload` is the `*T` the closure decodes into (None for nil). */
  datatype Worker<T> = Worker(queueName: string, pool: WorkerPool, payload: Option<T>, options: Options)

  /** `NewWorker`: defaults, then the caller's options in order; the pool always gets the
      package-wide concurrency, whatever MaxConcurrency the options say. `zero` is `*new(T)`. */
  function NewWorker<T>(s: State, queueName: string, ops: seq<Options -> Options>, zero: T, handle: nat)
    : (r: (Worker<T>, State))
    ensures r.0.queueName == queueName
    ensures r.0.payload == Some(zero)
    ensures r.0.pool.concurrency == MaxConcurrent && r.0.pool.namespace == s.namespace
    ensures r.1.pool == Done(r.0.pool.redis) && r.1.task == s.task
    ensures s.pool.Done? ==> r.0.pool.redis == s.pool.value
    ensures |ops| == 0 ==> r.0.options == Options(0, 3, false, 10, 0)
  {
    var options := ApplyAll(Defaults, ops);
    var (p, s') := InstancePool(s, handle);
    (Worker(queueName, WorkerPool(MaxConcurrent, s.namespace, p), Some(zero), options), s')
  }

  /** The options a worker ends up with: the last option writing a field decides it, and a
      field no option writes keeps its default. */
  lemma {:induction false} NewWorkerLastWriterWins<T>(s: State, name: string, ops: seq<Options -> Options>, zero: T, handle: nat,
                                   k: nat, n: Uint)
    requires k < |ops| && Sets(ops[k], MaxFails, n)
    requires forall j :: k < j < |ops| ==> Keeps(ops[j], MaxFails)
    requires forall j :: 0 <= j < |ops| ==> Keeps(ops[j], MaxTimeout)
    ensures NewWorker(s, name, ops, zero, handle).0.options.maxFails == n
    ensures NewWorker(s, name, ops, zero, handle).0.options.maxTimeout == 0
  {
    LastWriterWins(Defaults, ops, k, MaxFails, n);
    ApplyAllKeeps(Defaults, ops, MaxTimeout);
  }

  /** `work.JobOptions` as far as this package sets it (its Backoff stays nil). */
  datatype JobOptions = JobOptions(priority: Uint, maxFails: Uint, skipDead: bool, maxConcurrency: Uint)

  /** `getOptions`: copies each field only when it is positive (or true). For unsigned fields
      the guard never loses a value, so the job options mirror the worker options. MaxTimeout
      is never handed to the library. */
  function GetOptions(o: Options): (r: JobOptions)
    ensures r.priority == o.priority && r.maxFails == o.maxFails
    ensures r.skipDead == o.skipDead && r.maxConcurrency == o.maxConcurrency
  {
    var ops := JobOptions(0, 0, false, 0);
    var ops := if o.priority > 0 then ops.(priority := o.priority) else ops;
    var ops := if o.maxFails > 0 then ops.(maxFails := o.maxFails) else ops;
    var ops := if o.skipDead then ops.(skipDead := o.skipDead) else ops;
    var ops := if o.maxConcurrency > 0 then ops.(maxConcurrency := o.maxConcurrency) else ops;
    ops
  }

  lemma {:induction false} GetOptionsIgnoresTimeout(o: Options, t: Uint)
    ensures GetOptions(o.(maxTimeout := t)) == GetOptions(o)
  {
  }

  const NanosPerSecond: int := 1_000_000_000

  /** The context a job runs under: the background context, or one whose deadline lies
      `nanos` nanoseconds ahead (a Go `time.Duration`). */
  datatype JobContext = Background | WithTimeout(nanos: int)

  /** `getContext`. `time.Duration(MaxTimeout) * time.Second` is int64 arithmetic and wraps. */
  function GetContext(o: Options): (r: JobContext)
    ensures r.WithTimeout? <==> o.maxTimeout > 0
    ensures r.WithTimeout? ==> IsInt64(r.nanos)
    ensures 0 < o.maxTimeout <= MaxInt64 / NanosPerSecond ==> r == WithTimeout(o.maxTimeout * NanosPerSecond)
  {
    if o.maxTimeout > 0 then WithTimeout(Wrap64(Wrap64(o.maxTimeout) * NanosPerSecond)) else Background
  }

  /** A MaxTimeout beyond about 292 years wraps to a negative duration: the job's context is
      already expired when the handler starts. */
  lemma {:induction false} GetContextWrapsForHugeTimeouts()
    ensures GetContext(Defaults.(maxTimeout := 9_223_372_037)).WithTimeout?
    ensures GetContext(Defaults.(maxTimeout := 9_223_372_037)).nanos < 0
  {
  }

  /** What `json.Unmarshal` leaves in the payload pointer and the error it returns. A JSON
      `null` sets the pointer to nil. */
  datatype Decoded<T> = Decoded(payload: Option<T>, err: Option<string>)

  /** `job.ArgString("payload")`: the string argument, or "" when it is missing. */
  function ArgString(args: map<string, string>, key: string): string
  {
    if key in args then args[key] else ""
  }

  /** One run of the closure registered with the pool. */
  datatype JobRun<T> = JobRun(
    result: Option<string>,                        // the error handed back to gocraft/work
    handlerCall: Option<(JobContext, Option<T>)>,  // the user handler's arguments, if it ran
    payloadAfter: Option<T>,                       // the worker's payload pointer afterwards
    cancelled: bool)                               // the deferred cancel ran

  /** The job closure of `RunWithContext`: derive the context, reset the payload to a fresh
      zero value, decode the job's "payload" argument into it, then either return the decode
      error without calling the handler or return exactly the handler's result. `decode` is
      `json.Unmarshal` from a starting value; `handler` is the user's function. */
  function RunJob<T>(w: Worker<T>, args: map<string, string>, zero: T,
                     decode: (T, string) -> Decoded<T>,
                     handler: (JobContext, Option<T>) -> Option<string>): (r: JobRun<T>)
    ensures r.cancelled
    ensures r.payloadAfter == decode(zero, ArgString(args, "payload")).payload
    ensures decode(zero, ArgString(args, "payload")).err.Some? ==>
              r.result == decode(zero, ArgString(args, "payload")).err && r.handlerCall.None?
    ensures decode(zero, ArgString(args, "payload")).err.None? ==>
              r.handlerCall == Some((GetContext(w.options), r.payloadAfter))
              && r.result == handler(GetContext(w.options), r.payloadAfter)
  {
    var ctx := GetContext(w.options);
    var w' := w.(payload := Some(zero));
    var d := decode(w'.payload.value, ArgString(args, "payload"));
    if d.err.Some? then JobRun(d.err, None, d.payload, true)
    else JobRun(handler(ctx, d.payload), Some((ctx, d.payload)), d.payload, true)
  }

  /** The worker's earlier payload never influences a job: the closure starts from zero. */
  lemma {:induction false} RunJobIgnoresStalePayload<T>(w: Worker<T>, stale: Option<T>, args: map<string, string>, zero: T,
                                    decode: (T, string) -> Decoded<T>,
                                    handler: (JobContext, Option<T>) -> Option<string>)
    ensures RunJob(w.(payload := stale), args, zero, decode, handler) == RunJob(w, args, zero, decode, handler)
  {
  }

  /** `JobWithOptions(queueName, getOptions(), closure)` followed by `Start()`. */
  datatype Registration = Registration(queueName: string, jobOptions: JobOptions, started: bool)

  function RunWithContext<T>(w: Worker<T>): (r: Registration)
    ensures r.queueName == w.queueName && r.started
    ensures r.jobOptions.maxFails == w.options.maxFails && r.jobOptions.priority == w.options.priority
    ensures r.jobOptions.maxConcurrency == w.options.maxConcurrency && r.jobOptions.skipDead == w.options.skipDead
  {
    Registration(w.queueName, GetOptions(w.options), true)
  }
}

=== FILE: redis.dfy ===
/** `pkg/redis/redis.go`: how `NewClientRedis` resolves its options, and the once-only
    construction of the shared client. The client itself is represented by the configuration
    it is built with; connecting is not modelled. */
module Redis {
  import opened GoTypes
  import opened Env
  import Decimal
  import opened SyncOnce

  /** The package's `Options` record. */
  datatype Options = Options(host: string, port: string, password: string, db: int, maxRetry: int)

  /** The go-redis options the client is built with. */
  datatype ClientConfig = ClientConfig(addr: string, password: string, db: int, maxRetries: int)

  const DefaultMaxRetry: int := 3

  /** The options read from the environment when no argument is given. The DB number is
      `strconv.Atoi(REDIS_DB)` with its error dropped: 0 for text that is not a number, the
      nearest int64 bound for a number out of range. */
  function FromEnv(env: Environ): (o: Options)
    ensures o.host == Getenv(env, "REDIS_HOST") && o.port == Getenv(env, "REDIS_PORT")
    ensures o.password == "" && o.maxRetry == 3
    ensures o.db == Decimal.Atoi(Getenv(env, "REDIS_DB")).value
  {
    Options(Getenv(env, "REDIS_HOST"), Getenv(env, "REDIS_PORT"), "", Decimal.AtoiOrZero(Getenv(env, "REDIS_DB")),
            DefaultMaxRetry)
  }

  /** The options pointer the call works with: from the environment when no argument is given,
      else the first argument (possibly nil); later arguments are ignored. */
  function Resolve(env: Environ, ops: seq<Option<Options>>): (o: Option<Options>)
    ensures |ops| == 0 ==> o == Some(FromEnv(env))
    ensures |ops| > 0 ==> o == ops[0]
  {
    if |ops| == 0 then Some(FromEnv(env)) else ops[0]
  }

  /** The client configuration: address "host:port", the other fields copied. */
  function ConfigOf(o: Options): (c: ClientConfig)
    ensures c.password == o.password && c.db == o.db && c.maxRetries == o.maxRetry
  {
    ClientConfig(o.host + ":" + o.port, o.password, o.db, o.maxRetry)
  }

  /** The address is the host and the port joined by the last ':' in it when the port holds
      no ':' itself; both parts can be read back. */
  lemma {:induction false} AddrSplits(o: Options)
    requires ':' !in o.port
    ensures var a := ConfigOf(o).addr;
            |a| == |o.host| + 1 + |o.port| && a[..|o.host|] == o.host && a[|o.host|] == ':'
            && a[|o.host| + 1..] == o.port
            && forall i :: |o.host| < i < |a| ==> a[i] != ':'
  {
    var a := ConfigOf(o).addr;
    forall i | |o.host| < i < |a| ensures a[i] != ':' {
      assert a[i] == o.port[i - |o.host| - 1];
    }
  }

  /** A call panics when the options pointer it would dereference is nil. */
  datatype Panic = NilPointerDereference

  /** The singleton: `instanceRedis` and `redisOnce` together. A client is None until a call
      completes construction; a construction that panicked leaves the once done with no client. */
  type Singleton = Once<Option<ClientConfig>>

  /** `NewClientRedis(ops...)`: the result and the singleton after the call. Only the first
      call runs the construction; when it dereferences a nil options pointer the panic reaches
      the caller, and the once still counts as done. */
  function NewClientRedis(s: Singleton, env: Environ, ops: seq<Option<Options>>): (r: (Result<Option<ClientConfig>, Panic>, Singleton))
    ensures r.1.Done?
    ensures s.Done? ==> r == (Ok(s.value), s)
    ensures s.NotYet? && Resolve(env, ops).Some? ==> r.0 == Ok(Some(ConfigOf(Resolve(env, ops).value)))
    ensures s.NotYet? && Resolve(env, ops).None? ==> r == (Err(NilPointerDereference), Done(None))
  {
    match s
    case Done(c) => (Ok(c), s)
    case NotYet =>
      match Resolve(env, ops)
      case None => (Err(NilPointerDereference), Done(None))
      case Some(o) =>
        var (c, s') := Do(s, Some(ConfigOf(o)));
        (Ok(c), s')
  }

  /** Successive calls, each with its own environment and arguments. */
  function Calls(s: Singleton, calls: seq<(Environ, seq<Option<Options>>)>): (r: (seq<Result<Option<ClientConfig>, Panic>>, Singleton))
    ensures |r.0| == |calls|
    decreases |calls|
  {
    if |calls| == 0 then ([], s)
    else
      var first := NewClientRedis(s, calls[0].0, calls[0].1);
      var rest := Calls(first.1, calls[1..]);
      ([first.0] + rest.0, rest.1)
  }

  /** Once a call has run, every later call returns the same client whatever its arguments,
      and never panics. */
  lemma {:induction false} LaterCallsReturnSame(s: Singleton, calls: seq<(Environ, seq<Option<Options>>)>)
    requires s.Done?
    ensures forall k :: 0 <= k < |calls| ==> Calls(s, calls).0[k] == Ok(s.value)
    ensures Calls(s, calls).1 == s
    decreases |calls|
  {
    if |calls| > 0 {
      LaterCallsReturnSame(s, calls[1..]);
    }
  }

  /** The first call decides the configuration: every call in a run starting uninitialised
      returns the client the first call built. */
  lemma {:induction false} FirstCallDecides(calls: seq<(Environ, seq<Option<Options>>)>)
    requires |calls| > 0 && Resolve(calls[0].0, calls[0].1).Some?
    ensures forall k :: 0 <= k < |calls| ==>
              Calls(NotYet, calls).0[k] == Ok(Some(ConfigOf(Resolve(calls[0].0, calls[0].1).value)))
  {
    var first := NewClientRedis(NotYet, calls[0].0, calls[0].1);
    LaterCallsReturnSame(first.1, calls[1..]);
  }

  /** With no arguments the client is built from the environment: the address joins REDIS_HOST
      and REDIS_PORT, a numeric REDIS_DB selects the database, and three retries are allowed. */
  lemma {:induction false} EnvironmentClient(env: Environ)
    requires Decimal.IsDigits(Getenv(env, "REDIS_DB")) && Decimal.DigitsValue(Getenv(env, "REDIS_DB")) <= MaxInt64
    ensures NewClientRedis(NotYet, env, []).0
         == Ok(Some(ClientConfig(Getenv(env, "REDIS_HOST") + ":" + Getenv(env, "REDIS_PORT"), "",
                                 Decimal.DigitsValue(Getenv(env, "REDIS_DB")), 3)))
  {
  }

  /** An unset or non-numeric REDIS_DB, signed or not, selects database 0. */
  lemma {:induction false} NonNumericDbIsZero(env: Environ)
    requires Decimal.NotANumber(Getenv(env, "REDIS_DB"))
    ensures FromEnv(env).db == 0
  {
  }

  /** A REDIS_DB whose leading digits pass 2^64 - 1 selects the int64 bound on the side of its
      sign, even when a non-digit follows. */
  lemma {:induction false} OverflowingDbIsClamped(env: Environ)
    requires Decimal.LeadingValue(Decimal.Unsigned(Getenv(env, "REDIS_DB"))) > MaxUint64
    ensures FromEnv(env).db == (if |Getenv(env, "REDIS_DB")| > 0 && Getenv(env, "REDIS_DB")[0] == '-' then MinInt64 else MaxInt64)
  {
  }

  /** A first call with a nil options pointer panics and leaves every later call a nil client. */
  lemma {:induction false} NilFirstCallPoisons(env: Environ, ops: seq<Option<Options>>, later: seq<(Environ, seq<Option<Options>>)>)
    requires |ops| > 0 && ops[0].None?
    ensures NewClientRedis(NotYet, env, ops).0 == Err(NilPointerDereference)
    ensures forall k :: 0 <= k < |later| ==> Calls(NewClientRedis(NotYet, env, ops).1, later).0[k] == Ok(None)
  {
    LaterCallsReturnSame(Done(None), later);
  }
}

=== FILE: setters.dfy ===
/** Go's functional-options idiom: an option is a function that updates a configuration record,
    and a constructor applies the options it receives in order. */
module Setters {

  /** Applies `ops` left to right, as `for _, op := range ops { op(cfg) }` does. */
  function ApplyAll<C>(c: C, ops: seq<C -> C>): C
    decreases |ops|
  {
    if |ops| == 0 then c else ApplyAll(ops[0](c), ops[1..])
  }

  lemma {:induction false} ApplyAllAppend<C>(c: C, a: seq<C -> C>, b: seq<C -> C>)
    ensures ApplyAll(c, a + b) == ApplyAll(ApplyAll(c, a), b)
    decreases |a|
  {
    if |a| == 0 {
      assert a + b == b;
    } else {
      assert (a + b)[0] == a[0];
      assert (a + b)[1..] == a[1..] + b;
      ApplyAllAppend(a[0](c), a[1..], b);
    }
  }

  /** `op` never changes the part of the configuration that `view` sees. */
  ghost predicate Keeps<C(!new), X>(op: C -> C, view: C -> X) {
    forall c :: view(op(c)) == view(c)
  }

  /** `op` always leaves `view` showing `v`. */
  ghost predicate Sets<C(!new), X>(op: C -> C, view: C -> X, v: X) {
    forall c :: view(op(c)) == v
  }

  /** Options that leave a view alone compose into a sequence that leaves it alone. */
  lemma {:induction false} ApplyAllKeeps<C(!new), X>(c: C, ops: seq<C -> C>, view: C -> X)
    requires forall j :: 0 <= j < |ops| ==> Keeps(ops[j], view)
    ensures view(ApplyAll(c, ops)) == view(c)
    decreases |ops|
  {
    if |ops| > 0 {
      assert Keeps(ops[0], view);
      ApplyAllKeeps(ops[0](c), ops[1..], view);
    }
  }

  /** The last option that writes a view decides it: options before it are overwritten and
      options after it leave it alone. */
  lemma {:induction false} LastWriterWins<C(!new), X>(c: C, ops: seq<C -> C>, k: nat, view: C -> X, v: X)
    requires k < |ops|
    requires Sets(ops[k], view, v)
    requires forall j :: k < j < |ops| ==> Keeps(ops[j], view)
    ensures view(ApplyAll(c, ops)) == v
  {
    ApplyAllAppend(c, ops[..k + 1], ops[k + 1..]);
    assert ops == ops[..k + 1] + ops[k + 1..];
    ApplyAllAppend(c, ops[..k], [ops[k]]);
    assert ops[..k + 1] == ops[..k] + [ops[k]];
    var mid := ApplyAll(c, ops[..k + 1]);
    assert mid == ops[k](ApplyAll(c, ops[..k]));
    ApplyAllKeeps(mid, ops[k + 1..], view);
  }

  ghost predicate Idempotent<C(!new)>(op: C -> C) {
    forall c :: op(op(c)) == op(c)
  }
}

=== FILE: telegram.dfy ===
/** `pkg/telegram`: the notifier's options, the text of its three notifications, and the Bot API
    URL each is sent to. The send goes through `HttpsDo` with no options and its outcome is
    dropped, so each notification is modelled by the URL it requests. The current time is a
    parameter (`ts`, the `time.DateTime` rendering of the clock). */
module Telegram {
  import opened GoTypes
  import opened Setters
  import Decimal
  import opened GoStrings
  import opened UrlQuery
  import HttpsOptions
  import HttpsDo

  /** The notifier's options. `metadata` is the `%v` rendering of a non-nil metadata value;
      None stands for nil. */
  datatype Options = Options(key: string, channelID: string, appName: string, metadata: Option<string>)

  const ZeroOptions: Options := Options("", "", "", None)

  function Key(o: Options): string { o.key }
  function ChannelID(o: Options): string { o.channelID }
  function AppName(o: Options): string { o.appName }
  function Metadata(o: Options): Option<string> { o.metadata }

  function WithAppName(name: string): (op: Options -> Options)
    ensures forall o :: op(o).appName == name && op(o).(appName := o.appName) == o
  {
    (o: Options) => o.(appName := name)
  }

  function WithChannelID(id: string): (op: Options -> Options)
    ensures forall o :: op(o).channelID == id && op(o).(channelID := o.channelID) == o
  {
    (o: Options) => o.(channelID := id)
  }

  function WithToken(token: string): (op: Options -> Options)
    ensures forall o :: op(o).key == token && op(o).(key := o.key) == o
  {
    (o: Options) => o.(key := token)
  }

  /** `WithMetadata(meta)`; `meta` None stands for a nil interface. */
  function WithMetadata(meta: Option<string>): (op: Options -> Options)
    ensures forall o :: op(o).metadata == meta && op(o).(metadata := o.metadata) == o
  {
    (o: Options) => o.(metadata := meta)
  }

  /** Each setter, applied twice, is the same as applied once. */
  lemma {:induction false} SettersIdempotent(s: string, meta: Option<string>)
    ensures Idempotent(WithAppName(s)) && Idempotent(WithChannelID(s))
    ensures Idempotent(WithToken(s)) && Idempotent(WithMetadata(meta))
  {
    forall o: Options ensures WithAppName(s)(WithAppName(s)(o)) == WithAppName(s)(o) {
      assert WithAppName(s)(o) == o.(appName := s);
    }
    forall o: Options ensures WithChannelID(s)(WithChannelID(s)(o)) == WithChannelID(s)(o) {
      assert WithChannelID(s)(o) == o.(channelID := s);
    }
    forall o: Options ensures WithToken(s)(WithToken(s)(o)) == WithToken(s)(o) {
      assert WithToken(s)(o) == o.(key := s);
    }
    forall o: Options ensures WithMetadata(meta)(WithMetadata(meta)(o)) == WithMetadata(meta)(o) {
      assert WithMetadata(meta)(o) == o.(metadata := meta);
    }
  }

  /** The notifier: its options and the domain that identifies the application. */
  datatype Notifier = Notifier(option: Options, domain: string)

  /** `NewTelegram`: options applied in order to the zero options; the domain kept as given. */
  function NewTelegram(domain: string, ops: seq<Options -> Options>): (t: Notifier)
    ensures t.domain == domain
    ensures |ops| == 0 ==> t.option == ZeroOptions
  {
    Notifier(ApplyAll(ZeroOptions, ops), domain)
  }

  /** The last `WithToken` decides the token, whatever comes after it that is not a token setter. */
  lemma {:induction false} LastTokenWins(domain: string, ops: seq<Options -> Options>, k: nat, token: string)
    requires k < |ops| && ops[k] == WithToken(token)
    requires forall j :: k < j < |ops| ==> Keeps(ops[j], Key)
    ensures NewTelegram(domain, ops).option.key == token
  {
    LastWriterWins(ZeroOptions, ops, k, Key, token);
  }

  /** Options that do not touch the channel leave it empty. */
  lemma {:induction false} ChannelUnsetByDefault(domain: string, ops: seq<Options -> Options>)
    requires forall j :: 0 <= j < |ops| ==> Keeps(ops[j], ChannelID)
    ensures NewTelegram(domain, ops).option.channelID == ""
  {
    ApplyAllKeeps(ZeroOptions, ops, ChannelID);
  }

  /** The setters are independent: each keeps the other three fields. */
  lemma {:induction false} SettersIndependent(s: string, meta: Option<string>)
    ensures Keeps(WithAppName(s), Key) && Keeps(WithAppName(s), ChannelID) && Keeps(WithAppName(s), Metadata)
    ensures Keeps(WithChannelID(s), Key) && Keeps(WithChannelID(s), AppName) && Keeps(WithChannelID(s), Metadata)
    ensures Keeps(WithToken(s), ChannelID) && Keeps(WithToken(s), AppName) && Keeps(WithToken(s), Metadata)
    ensures Keeps(WithMetadata(meta), Key) && Keeps(WithMetadata(meta), ChannelID) && Keeps(WithMetadata(meta), AppName)
  {
  }

  // ---- Messages ----

  /** "[domain] - TIMESTAMP=ts". */
  function DomainPart(domain: string, ts: string): string
  {
    "[" + domain + "] - TIMESTAMP=" + ts
  }

  /** " - metadata=" + rendering when metadata is set; nothing when it is nil. */
  function MetadataSuffix(meta: Option<string>): (s: string)
    ensures meta.None? <==> s == ""
  {
    if meta.Some? then " - metadata=" + meta.value else ""
  }

  function InstallMessage(t: Notifier, newUser: bool, ts: string): string
  {
    (if newUser then "Install" else "Re-install") + DomainPart(t.domain, ts) + MetadataSuffix(t.option.metadata)
  }

  function UnInstallMessage(t: Notifier, ts: string): string
  {
    "UnInstall" + DomainPart(t.domain, ts) + MetadataSuffix(t.option.metadata)
  }

  /** `%v` of an error: its message, or "<nil>" for a nil error. */
  function ErrorText(err: Option<string>): string
  {
    if err.Some? then err.value else "<nil>"
  }

  function HealthMessage(t: Notifier, host: string, code: int, err: Option<string>): string
  {
    "[" + t.option.appName + "] - [" + host + "] - status : " + Decimal.Itoa(code) + " [error] " + ErrorText(err)
  }

  /** The three kinds of message are told apart by their first character. */
  lemma {:induction false} MessageKinds(t: Notifier, ts: string, host: string, code: int, err: Option<string>)
    ensures InstallMessage(t, true, ts)[0] == 'I'
    ensures InstallMessage(t, false, ts)[0] == 'R'
    ensures UnInstallMessage(t, ts)[0] == 'U'
    ensures HealthMessage(t, host, code, err)[0] == '['
  {
  }

  /** Setting metadata appends exactly " - metadata=" and its rendering to the message that
      would be sent without it, and to nothing else. */
  lemma {:induction false} MetadataOnlyAppends(t: Notifier, newUser: bool, ts: string, v: string)
    ensures var with := t.(option := t.option.(metadata := Some(v)));
            var without := t.(option := t.option.(metadata := None));
            InstallMessage(with, newUser, ts) == InstallMessage(without, newUser, ts) + " - metadata=" + v
            && UnInstallMessage(with, ts) == UnInstallMessage(without, ts) + " - metadata=" + v
  {
  }

  /** The domain and the timestamp follow the kind word verbatim. */
  lemma {:induction false} InstallMessageLayout(t: Notifier, newUser: bool, ts: string)
    requires t.option.metadata.None?
    ensures var word := if newUser then "Install" else "Re-install";
            var m := InstallMessage(t, newUser, ts);
            HasPrefix(m, word + "[" + t.domain + "] - TIMESTAMP=")
            && m[|word + "[" + t.domain + "] - TIMESTAMP="|..] == ts
  {
    var word := if newUser then "Install" else "Re-install";
    var p := word + "[" + t.domain + "] - TIMESTAMP=";
    var m := InstallMessage(t, newUser, ts);
    assert m == p + ts;
    assert m[..|p|] == p;
  }

  /** The health message is the prefix naming app and host, the code, then the error part. */
  lemma {:induction false} HealthMessageSplits(t: Notifier, host: string, code: int, err: Option<string>)
    ensures HealthMessage(t, host, code, err)
         == ("[" + t.option.appName + "] - [" + host + "] - status : ") + Decimal.Itoa(code)
            + (" [error] " + ErrorText(err))
  {
  }

  /** The health message shows the status code, which parses back. */
  lemma {:induction false} HealthMessageCode(t: Notifier, host: string, code: int, err: Option<string>)
    requires IsInt64(code)
    ensures var p := "[" + t.option.appName + "] - [" + host + "] - status : ";
            var m := HealthMessage(t, host, code, err);
            var d := Decimal.Itoa(code);
            HasPrefix(m, p) && Decimal.Atoi(m[|p|..|p| + |d|]) == Decimal.Parsed(code, None)
            && m[|p| + |d|..] == " [error] " + ErrorText(err)
  {
    HealthMessageSplits(t, host, code, err);
    Decimal.ItoaBetween("[" + t.option.appName + "] - [" + host + "] - status : ", code, " [error] " + ErrorText(err));
  }

  // ---- The request ----

  const ApiPrefix: string := "https://api.telegram.org/bot"
  const SendMessagePath: string := "/sendMessage?"

  /** The query: `chat_id` and `text`, in the order `url.Values.Encode` sorts them. */
  function Query(channelID: string, text: string): seq<(string, string)>
  {
    [("chat_id", channelID), ("text", text)]
  }

  /** `getUrl`: the sendMessage endpoint for the bot token, with the encoded query. */
  function GetUrl(t: Notifier, query: seq<(string, string)>): string
  {
    ApiPrefix + t.option.key + SendMessagePath + EncodeQuery(query)
  }

  /** The URL requested for a message: the token sits between the endpoint prefix and the
      method path, and the query reads back as exactly the channel and the message. */
  lemma {:induction false} UrlCarriesMessage(t: Notifier, text: string)
    ensures var u := GetUrl(t, Query(t.option.channelID, text));
            var p := ApiPrefix + t.option.key + SendMessagePath;
            HasPrefix(u, p) && ParseQuery(u[|p|..]) == Some([("chat_id", t.option.channelID), ("text", text)])
  {
    var p := ApiPrefix + t.option.key + SendMessagePath;
    var q := EncodeQuery(Query(t.option.channelID, text));
    var u := GetUrl(t, Query(t.option.channelID, text));
    assert u == p + q;
    assert u[..|p|] == p;
    assert u[|p|..] == q;
    ParseEncodeQuery(Query(t.option.channelID, text));
  }

  /** `SendInstall`: the URL handed to the HTTP client; the client's error is discarded. */
  function SendInstall(t: Notifier, newUser: bool, ts: string): (url: string)
    ensures var p := ApiPrefix + t.option.key + SendMessagePath;
            HasPrefix(url, p)
            && ParseQuery(url[|p|..]) == Some([("chat_id", t.option.channelID), ("text", InstallMessage(t, newUser, ts))])
  {
    UrlCarriesMessage(t, InstallMessage(t, newUser, ts));
    GetUrl(t, Query(t.option.channelID, InstallMessage(t, newUser, ts)))
  }

  /** `SendUnInstall`: the URL handed to the HTTP client. */
  function SendUnInstall(t: Notifier, ts: string): (url: string)
    ensures var p := ApiPrefix + t.option.key + SendMessagePath;
            HasPrefix(url, p)
            && ParseQuery(url[|p|..]) == Some([("chat_id", t.option.channelID), ("text", UnInstallMessage(t, ts))])
  {
    UrlCarriesMessage(t, UnInstallMessage(t, ts));
    GetUrl(t, Query(t.option.channelID, UnInstallMessage(t, ts)))
  }

  /** `Health`: the URL handed to the HTTP client. */
  function Health(t: Notifier, host: string, code: int, err: Option<string>): (url: string)
    ensures var p := ApiPrefix + t.option.key + SendMessagePath;
            HasPrefix(url, p)
            && ParseQuery(url[|p|..]) == Some([("chat_id", t.option.channelID), ("text", HealthMessage(t, host, code, err))])
  {
    UrlCarriesMessage(t, HealthMessage(t, host, code, err));
    GetUrl(t, Query(t.option.channelID, HealthMessage(t, host, code, err)))
  }

  /** Every notification is a plain GET of its URL: no body, no headers of its own beyond the
      client's Accept-Encoding, no query beyond the URL's, and the default 10 s timeout. */
  lemma {:induction false} NotificationIsPlainGet(url: string, pick: HttpsOptions.ProviderRef -> (string, string),
                               marshal: HttpsOptions.Value -> Result<seq<byte>, string>, boundary: string)
    ensures HttpsDo.Prepare(url, HttpsDo.Resolve([]), pick, marshal, boundary)
         == Ok(HttpsDo.Request(url, HttpsOptions.GET, map["Accept-Encoding" := HttpsDo.AcceptEncoding], map[],
                               HttpsDo.NoBody, HttpsDo.DefaultTimeoutNanos))
  {
    assert ApplyAll(HttpsOptions.Empty, []) == HttpsOptions.Empty;
    var cfg := HttpsDo.Resolve([]);
    assert cfg == HttpsOptions.Empty.(httpMethod := HttpsOptions.GET, headers := Some(map[]));
  }
}

=== FILE: timezone.dfy ===
/** `pkg/timezone/init.go`: the package initialiser that sets TZ from APP_TIMEZONE. */
module Timezone {
  import opened Env

  const DefaultZone: string := "UTC"

  /** The zone chosen: APP_TIMEZONE when set to non-empty text, else "UTC". */
  function Zone(env: Environ): (z: string)
    ensures z != ""
    ensures Getenv(env, "APP_TIMEZONE") != "" ==> z == env["APP_TIMEZONE"]
    ensures Getenv(env, "APP_TIMEZONE") == "" ==> z == "UTC"
  {
    var tz := Getenv(env, "APP_TIMEZONE");
    if tz == "" then DefaultZone else tz
  }

  /** The environment after `init`: only TZ is written. */
  function Init(env: Environ): (env': Environ)
    ensures "TZ" in env' && env'["TZ"] == Zone(env)
    ensures env'.Keys == env.Keys + {"TZ"}
    ensures forall k :: k in env && k != "TZ" ==> env'[k] == env[k]
  {
    Setenv(env, "TZ", Zone(env))
  }

  /** Running the initialiser again changes nothing. */
  lemma {:induction false} InitIdempotent(env: Environ)
    ensures Init(Init(env)) == Init(env)
  {
    assert Getenv(Init(env), "APP_TIMEZONE") == Getenv(env, "APP_TIMEZONE");
  }

  /** TZ is always set to a non-empty zone after `init`, whatever it held before. */
  lemma {:induction false} InitIgnoresPreviousTZ(env: Environ, prev: string)
    ensures Init(env["TZ" := prev]) == Init(env)
  {
    assert Getenv(env["TZ" := prev], "APP_TIMEZONE") == Getenv(env, "APP_TIMEZONE");
  }
}

=== FILE: translate.dfy ===
/** `pkg/translate/google/google.translate.go`: `NewTranslator` and the retry loop of
    `TranslateText`. One HTTP attempt (`translateTextOnce`) is an oracle indexed by attempt
    number; whether the context is cancelled during the wait after attempt k is another. */
module Translate {
  import opened GoTypes
  import Decimal
  import opened GoStrings
  import opened UrlQuery

  /** `translation.TranslatorOptions`; `retryDelay` is a `time.Duration` in nanoseconds. */
  datatype TranslatorOptions = TranslatorOptions(
    text: string, sourceLang: string, targetLang: string, maxRetries: Int64, retryDelay: Int64)

  datatype Client = DefaultClient | Custom(id: nat)

  datatype Translator = Translator(client: Client, baseURL: string, apiKey: string)

  const BaseURL: string := "https://translate-pa.googleapis.com/v1/translate"
  const Second: int := 1_000_000_000

  /** `NewTranslator`: a nil client becomes `http.DefaultClient`; the endpoint is fixed. */
  function NewTranslator(client: Option<Client>, apiKey: string): (t: Translator)
    ensures t.baseURL == BaseURL && t.apiKey == apiKey
    ensures client.None? ==> t.client == DefaultClient
    ensures client.Some? ==> t.client == client.value
  {
    Translator(client.GetOr(DefaultClient), BaseURL, apiKey)
  }

  /** The query of one attempt in the order `url.Values.Encode` emits it: keys sorted, and the
      three `data_types` values in the order they were added. */
  function AttemptParams(t: Translator, text: string, sourceLang: string, targetLang: string): seq<(string, string)>
  {
    [("data_types", "TRANSLATION"), ("data_types", "SENTENCE_SPLITS"), ("data_types", "BILINGUAL_DICTIONARY_FULL"),
     ("key", t.apiKey), ("params.client", "gtx"), ("query.source_language", sourceLang),
     ("query.target_language", targetLang), ("query.text", text)]
  }

  /** The URL one attempt requests: the endpoint, '?', the encoded query. */
  function AttemptURL(t: Translator, text: string, sourceLang: string, targetLang: string): string
  {
    t.baseURL + "?" + EncodeQuery(AttemptParams(t, text, sourceLang, targetLang))
  }

  /** A query after any prefix reads back, from just after the prefix, as the pairs encoded. */
  lemma {:induction false} PrefixedQueryParses(p: string, ps: seq<(string, string)>)
    ensures HasPrefix(p + EncodeQuery(ps), p)
    ensures ParseQuery((p + EncodeQuery(ps))[|p|..]) == Some(ps)
  {
    var q := EncodeQuery(ps);
    assert (p + q)[..|p|] == p;
    assert (p + q)[|p|..] == q;
    ParseEncodeQuery(ps);
  }

  /** The query of an attempt reads back as the fixed client parameters, the key, both
      languages and the text, whatever characters they hold. */
  lemma {:induction false} AttemptURLCarriesParams(t: Translator, text: string, sourceLang: string, targetLang: string)
    ensures var u := AttemptURL(t, text, sourceLang, targetLang);
            HasPrefix(u, t.baseURL + "?")
            && ParseQuery(u[|t.baseURL| + 1..]) == Some(AttemptParams(t, text, sourceLang, targetLang))
            && AttemptParams(t, text, sourceLang, targetLang)[7] == ("query.text", text)
            && AttemptParams(t, text, sourceLang, targetLang)[3] == ("key", t.apiKey)
  {
    var ps := AttemptParams(t, text, sourceLang, targetLang);
    assert ps[7] == ("query.text", text) && ps[3] == ("key", t.apiKey);
    PrefixedQueryParses(t.baseURL + "?", ps);
  }

  datatype TranslateError =
    | NilOptions
    | Cancelled(ctxErr: string)
    | AllFailed(attempts: int, last: string)

  function ErrorMessage(e: TranslateError): string
  {
    match e
    case NilOptions => "options cannot be nil"
    case Cancelled(c) => c
    case AllFailed(n, last) => "translation failed after " + Decimal.Itoa(n) + " attempts: " + last
  }

  /** What the loop does, in order: an HTTP attempt, or a wait of the retry delay. */
  datatype Event = Attempt(n: nat) | Wait(n: nat, delay: int)

  /** Negative retry counts become 0. */
  function NormalRetries(maxRetries: int): (n: nat)
    ensures maxRetries >= 0 ==> n == maxRetries
    ensures maxRetries < 0 ==> n == 0
  {
    if maxRetries < 0 then 0 else maxRetries
  }

  /** Non-positive delays become one second. */
  function NormalDelay(retryDelay: int): (d: int)
    ensures d > 0
    ensures retryDelay > 0 ==> d == retryDelay
    ensures retryDelay <= 0 ==> d == Second
  {
    if retryDelay <= 0 then Second else retryDelay
  }

  /** The events of attempts k, k+1, ... alternate with the waits between them. */
  ghost predicate Alternates(tr: seq<Event>, k: nat, delay: int) {
    forall j :: 0 <= j < |tr| ==> tr[j] == (if j % 2 == 0 then Attempt(k + j / 2) else Wait(k + j / 2, delay))
  }

  /** Every attempt from `k` up to (not including) `n` failed, and no wait after them was cancelled. */
  ghost predicate FailedUncancelled(k: nat, n: nat, attempt: nat -> Result<string, string>, cancelled: nat -> Option<string>) {
    forall i :: k <= i < n ==> attempt(i).Err? && cancelled(i).None?
  }

  /** The loop from attempt `k` on, as a recursive reference definition. */
  function RunFrom(k: nat, maxRetries: nat, delay: int, attempt: nat -> Result<string, string>,
                   cancelled: nat -> Option<string>): (r: (Result<string, TranslateError>, seq<Event>))
    requires k <= maxRetries
    decreases maxRetries - k
  {
    match attempt(k)
    case Ok(text) => (Ok(text), [Attempt(k)])
    case Err(e) =>
      if k < maxRetries then
        if cancelled(k).Some? then (Err(Cancelled(cancelled(k).value)), [Attempt(k), Wait(k, delay)])
        else
          var (res, tr) := RunFrom(k + 1, maxRetries, delay, attempt, cancelled);
          (res, [Attempt(k), Wait(k, delay)] + tr)
      else (Err(AllFailed(maxRetries + 1, e)), [Attempt(k)])
  }

  /** `TranslateText` as a reference: nil options fail and empty text succeeds, both without an
      attempt; otherwise the loop from attempt 0 with normalised settings. */
  function Reference(opts: Option<TranslatorOptions>, attempt: nat -> Result<string, string>,
                     cancelled: nat -> Option<string>): (Result<string, TranslateError>, seq<Event>)
  {
    if opts.None? then (Err(NilOptions), [])
    else if opts.value.text == "" then (Ok(""), [])
    else RunFrom(0, NormalRetries(opts.value.maxRetries), NormalDelay(opts.value.retryDelay), attempt, cancelled)
  }

  /** Every run from `k` alternates attempts and waits, starting with attempt `k`, and makes at
      most maxRetries - k + 1 attempts. */
  lemma {:induction false} RunFromAlternates(k: nat, maxRetries: nat, delay: int, attempt: nat -> Result<string, string>,
                                             cancelled: nat -> Option<string>)
    requires k <= maxRetries
    ensures var tr := RunFrom(k, maxRetries, delay, attempt, cancelled).1;
            1 <= |tr| <= 2 * (maxRetries - k) + 1 && Alternates(tr, k, delay)
    decreases maxRetries - k
  {
    var tr := RunFrom(k, maxRetries, delay, attempt, cancelled).1;
    if attempt(k).Err? && k < maxRetries && cancelled(k).None? {
      RunFromAlternates(k + 1, maxRetries, delay, attempt, cancelled);
      var tr' := RunFrom(k + 1, maxRetries, delay, attempt, cancelled).1;
      assert tr == [Attempt(k), Wait(k, delay)] + tr';
      forall j | 2 <= j < |tr|
        ensures tr[j] == (if j % 2 == 0 then Attempt(k + j / 2) else Wait(k + j / 2, delay))
      {
        assert tr[j] == tr'[j - 2];
      }
    }
  }

  /** Before the last attempt of a run, every attempt failed and no wait was cancelled. */
  lemma {:induction false} RunFromFailedBefore(k: nat, maxRetries: nat, delay: int, attempt: nat -> Result<string, string>,
                                               cancelled: nat -> Option<string>)
    requires k <= maxRetries
    ensures var tr := RunFrom(k, maxRetries, delay, attempt, cancelled).1;
            FailedUncancelled(k, k + (|tr| - 1) / 2, attempt, cancelled)
    decreases maxRetries - k
  {
    if attempt(k).Err? && k < maxRetries && cancelled(k).None? {
      RunFromFailedBefore(k + 1, maxRetries, delay, attempt, cancelled);
    }
  }

  /** How a run from `k` ends: success with the text of its last attempt, cancellation during
      the wait after a failed attempt, or failure after the attempt numbered maxRetries. */
  lemma {:induction false} RunFromOutcome(k: nat, maxRetries: nat, delay: int, attempt: nat -> Result<string, string>,
                                          cancelled: nat -> Option<string>)
    requires k <= maxRetries
    ensures var p := RunFrom(k, maxRetries, delay, attempt, cancelled);
            var n := k + (|p.1| - 1) / 2;
            && (p.0.Ok? ==> |p.1| % 2 == 1 && attempt(n) == Ok(p.0.value))
            && (p.0.Err? ==> p.0.error.Cancelled? || p.0.error.AllFailed?)
            && (p.0.Err? && p.0.error.Cancelled? ==>
                  |p.1| % 2 == 0 && n < maxRetries && attempt(n).Err? && cancelled(n) == Some(p.0.error.ctxErr))
            && (p.0.Err? && p.0.error.AllFailed? ==>
                  |p.1| % 2 == 1 && n == maxRetries && attempt(n).Err?
                  && p.0.error == AllFailed(maxRetries + 1, attempt(n).error))
    decreases maxRetries - k
  {
    if attempt(k).Err? && k < maxRetries && cancelled(k).None? {
      RunFromOutcome(k + 1, maxRetries, delay, attempt, cancelled);
    }
  }

  /** All attempts failing: exactly maxRetries + 1 attempts with a wait between each pair, and
      the error names that count and wraps the last attempt's error. */
  lemma {:induction false} AllFailuresExhaustRetries(opts: TranslatorOptions, attempt: nat -> Result<string, string>,
                                  cancelled: nat -> Option<string>)
    requires opts.text != ""
    requires forall i :: attempt(i).Err?
    requires forall i :: cancelled(i).None?
    ensures var n := NormalRetries(opts.maxRetries);
            var (res, tr) := Reference(Some(opts), attempt, cancelled);
            && |tr| == 2 * n + 1
            && res == Err(AllFailed(n + 1, attempt(n).error))
  {
    var n := NormalRetries(opts.maxRetries);
    RunFromAlternates(0, n, NormalDelay(opts.retryDelay), attempt, cancelled);
    RunFromOutcome(0, n, NormalDelay(opts.retryDelay), attempt, cancelled);
  }

  /** The first success wins: the text it returns is that of the last attempt made, and every
      attempt before it failed. */
  lemma {:induction false} FirstSuccessWins(opts: TranslatorOptions, attempt: nat -> Result<string, string>,
                         cancelled: nat -> Option<string>)
    requires opts.text != ""
    ensures var (res, tr) := Reference(Some(opts), attempt, cancelled);
            res.Ok? ==> var n := |tr| / 2;
              && tr[|tr| - 1] == Attempt(n) && attempt(n) == Ok(res.value)
              && forall i :: 0 <= i < n ==> attempt(i).Err?
  {
    var n := NormalRetries(opts.maxRetries);
    RunFromAlternates(0, n, NormalDelay(opts.retryDelay), attempt, cancelled);
    RunFromFailedBefore(0, n, NormalDelay(opts.retryDelay), attempt, cancelled);
    RunFromOutcome(0, n, NormalDelay(opts.retryDelay), attempt, cancelled);
  }

  /** Nil options and empty text make no attempt at all. */
  lemma {:induction false} EarlyReturnsMakeNoAttempt(opts: Option<TranslatorOptions>, attempt: nat -> Result<string, string>,
                                  cancelled: nat -> Option<string>)
    requires opts.None? || opts.value.text == ""
    ensures Reference(opts, attempt, cancelled).1 == []
    ensures opts.None? ==> ErrorMessage(Reference(opts, attempt, cancelled).0.error) == "options cannot be nil"
    ensures opts.Some? ==> Reference(opts, attempt, cancelled).0 == Ok("")
  {
  }

  /** At most maxRetries + 1 attempts are made, and the i-th attempt of the trace is attempt
      number i, with waits only between attempts. */
  lemma {:induction false} AttemptsBounded(opts: TranslatorOptions, attempt: nat -> Result<string, string>,
                        cancelled: nat -> Option<string>)
    ensures var tr := Reference(Some(opts), attempt, cancelled).1;
            && (|tr| + 1) / 2 <= NormalRetries(opts.maxRetries) + 1
            && (forall j :: 0 <= j < |tr| && j % 2 == 0 ==> tr[j] == Attempt(j / 2))
            && (forall j :: 0 <= j < |tr| && j % 2 == 1 ==> tr[j] == Wait(j / 2, NormalDelay(opts.retryDelay)))
  {
    if opts.text != "" {
      RunFromAlternates(0, NormalRetries(opts.maxRetries), NormalDelay(opts.retryDelay), attempt, cancelled);
    }
  }

  /** Cancellation during a wait ends the call at once with the context's error: the trace ends
      with that wait, which followed a failed attempt that was not the last allowed. */
  lemma {:induction false} CancellationStopsRetrying(opts: TranslatorOptions, attempt: nat -> Result<string, string>,
                                  cancelled: nat -> Option<string>)
    requires opts.text != ""
    ensures var p := Reference(Some(opts), attempt, cancelled);
            p.0.Err? && p.0.error.Cancelled? ==>
              var n := (|p.1| - 1) / 2;
              && p.1[|p.1| - 1] == Wait(n, NormalDelay(opts.retryDelay))
              && n < NormalRetries(opts.maxRetries)
              && attempt(n).Err? && cancelled(n) == Some(p.0.error.ctxErr)
              && ErrorMessage(p.0.error) == cancelled(n).value
  {
    var m := NormalRetries(opts.maxRetries);
    RunFromAlternates(0, m, NormalDelay(opts.retryDelay), attempt, cancelled);
    RunFromOutcome(0, m, NormalDelay(opts.retryDelay), attempt, cancelled);
  }

  /** A successful attempt ends the run with its text. */
  lemma {:induction false} RunFromSucceeds(k: nat, maxRetries: nat, delay: int, attempt: nat -> Result<string, string>,
                                           cancelled: nat -> Option<string>)
    requires k <= maxRetries && attempt(k).Ok?
    ensures RunFrom(k, maxRetries, delay, attempt, cancelled) == (Ok(attempt(k).value), [Attempt(k)])
  {
  }

  /** A failed attempt whose wait is cancelled ends the run with the context's error. */
  lemma {:induction false} RunFromCancelled(k: nat, maxRetries: nat, delay: int, attempt: nat -> Result<string, string>,
                                            cancelled: nat -> Option<string>)
    requires k < maxRetries && attempt(k).Err? && cancelled(k).Some?
    ensures RunFrom(k, maxRetries, delay, attempt, cancelled)
         == (Err(Cancelled(cancelled(k).value)), [Attempt(k), Wait(k, delay)])
  {
  }

  /** A failed attempt before the last, with an uncancelled wait, is followed by the next one. */
  lemma {:induction false} RunFromRetries(k: nat, maxRetries: nat, delay: int, attempt: nat -> Result<string, string>,
                                          cancelled: nat -> Option<string>)
    requires k < maxRetries && attempt(k).Err? && cancelled(k).None?
    ensures RunFrom(k, maxRetries, delay, attempt, cancelled).0 == RunFrom(k + 1, maxRetries, delay, attempt, cancelled).0
    ensures RunFrom(k, maxRetries, delay, attempt, cancelled).1
         == [Attempt(k), Wait(k, delay)] + RunFrom(k + 1, maxRetries, delay, attempt, cancelled).1
  {
  }

  /** The last allowed attempt failing ends the run with the attempt count and its error. */
  lemma {:induction false} RunFromExhausted(maxRetries: nat, delay: int, attempt: nat -> Result<string, string>,
                                            cancelled: nat -> Option<string>)
    requires attempt(maxRetries).Err?
    ensures RunFrom(maxRetries, maxRetries, delay, attempt, cancelled)
         == (Err(AllFailed(maxRetries + 1, attempt(maxRetries).error)), [Attempt(maxRetries)])
  {
  }

  /** `TranslateText`'s loop as written, with its event trace, after the options have been
      normalised. */
  method RetryLoop(maxRetries: nat, delay: int, attempt: nat -> Result<string, string>,
                   cancelled: nat -> Option<string>)
    returns (text: string, err: Option<TranslateError>, trace: seq<Event>)
    ensures trace == RunFrom(0, maxRetries, delay, attempt, cancelled).1
    ensures RunFrom(0, maxRetries, delay, attempt, cancelled).0.Ok? ==>
              text == RunFrom(0, maxRetries, delay, attempt, cancelled).0.value && err.None?
    ensures RunFrom(0, maxRetries, delay, attempt, cancelled).0.Err? ==>
              text == "" && err == Some(RunFrom(0, maxRetries, delay, attempt, cancelled).0.error)
  {
    ghost var full := RunFrom(0, maxRetries, delay, attempt, cancelled);
    var lastErr := "";
    trace := [];
    var k: nat := 0;
    while k <= maxRetries
      invariant k <= maxRetries + 1
      invariant k <= maxRetries ==>
        && full.0 == RunFrom(k, maxRetries, delay, attempt, cancelled).0
        && full.1 == trace + RunFrom(k, maxRetries, delay, attempt, cancelled).1
      invariant k > maxRetries ==> full == (Err(AllFailed(maxRetries + 1, lastErr)), trace)
      decreases maxRetries + 1 - k
    {
      var r := attempt(k);
      if r.Ok? {
        RunFromSucceeds(k, maxRetries, delay, attempt, cancelled);
        return r.value, None, trace + [Attempt(k)];
      }
      lastErr := r.error;
      if k < maxRetries {
        if cancelled(k).Some? {
          RunFromCancelled(k, maxRetries, delay, attempt, cancelled);
          return "", Some(Cancelled(cancelled(k).value)), trace + [Attempt(k), Wait(k, delay)];
        }
        RunFromRetries(k, maxRetries, delay, attempt, cancelled);
        var rest := RunFrom(k + 1, maxRetries, delay, attempt, cancelled).1;
        assert trace + ([Attempt(k), Wait(k, delay)] + rest) == (trace + [Attempt(k), Wait(k, delay)]) + rest;
        trace := trace + [Attempt(k), Wait(k, delay)];
      } else {
        RunFromExhausted(maxRetries, delay, attempt, cancelled);
        trace := trace + [Attempt(k)];
      }
      k := k + 1;
    }
    return "", Some(AllFailed(maxRetries + 1, lastErr)), trace;
  }

  /** `TranslateText`: nil options and empty text return at once; otherwise the retry loop runs
      with the normalised settings. */
  method TranslateText(opts: Option<TranslatorOptions>, attempt: nat -> Result<string, string>,
                       cancelled: nat -> Option<string>)
    returns (text: string, err: Option<TranslateError>, trace: seq<Event>)
    ensures trace == Reference(opts, attempt, cancelled).1
    ensures Reference(opts, attempt, cancelled).0.Ok? ==>
              text == Reference(opts, attempt, cancelled).0.value && err.None?
    ensures Reference(opts, attempt, cancelled).0.Err? ==>
              text == "" && err == Some(Reference(opts, attempt, cancelled).0.error)
  {
    if opts.None? {
      return "", Some(NilOptions), [];
    }
    var o := opts.value;
    if o.text == "" {
      return "", None, [];
    }
    text, err, trace := RetryLoop(NormalRetries(o.maxRetries), NormalDelay(o.retryDelay), attempt, cancelled);
  }

  /** A caller with a zero-value options record (no retries, no delay) gets exactly one attempt. */
  lemma {:induction false} DefaultsMakeOneAttempt(text: string, attempt: nat -> Result<string, string>, cancelled: nat -> Option<string>)
    requires text != ""
    ensures Reference(Some(TranslatorOptions(text, "", "", 0, 0)), attempt, cancelled).1 == [Attempt(0)]
  {
  }
}

=== FILE: url_query.dfy ===
/** Go's `url.QueryEscape` and `url.Values.Encode` (the query-component escaping of the
    `net/url` package), with an unescaping reader as their inverse. */
module UrlQuery {
  import opened GoTypes
  import Utf8
  import opened GoStrings

  /** Bytes that `QueryEscape` copies: ASCII letters and digits and `-_.~`. */
  predicate Unreserved(b: byte)
  {
    (0x41 <= b <= 0x5A) || (0x61 <= b <= 0x7A) || (0x30 <= b <= 0x39)
    || b == '-' as int || b == '_' as int || b == '.' as int || b == '~' as int
  }

  /** Upper-case hexadecimal digit. */
  function HexDigit(d: nat): (c: char)
    requires d < 16
    ensures IsHex(c) && HexValue(c) == d
  {
    if d < 10 then (('0' as int) + d) as char else (('A' as int) + d - 10) as char
  }

  predicate IsHex(c: char) { ('0' <= c <= '9') || ('a' <= c <= 'f') || ('A' <= c <= 'F') }

  function HexValue(c: char): (d: nat)
    requires IsHex(c)
    ensures d < 16
  {
    if '0' <= c <= '9' then (c as int) - ('0' as int)
    else if 'a' <= c <= 'f' then (c as int) - ('a' as int) + 10
    else (c as int) - ('A' as int) + 10
  }

  /** The escape of one byte: itself when unreserved, '+' for a space, else %XX. */
  function EscapeByte(b: byte): (s: string)
    ensures |s| == 1 || |s| == 3
    ensures Unreserved(b) ==> s == [b as char]
    ensures b == 0x20 ==> s == "+"
    ensures !Unreserved(b) && b != 0x20 ==> s[0] == '%' && |s| == 3 && IsHex(s[1]) && IsHex(s[2]) && HexValue(s[1]) * 16 + HexValue(s[2]) == b
  {
    if Unreserved(b) then [b as char]
    else if b == 0x20 then "+"
    else ['%', HexDigit(b / 16), HexDigit(b % 16)]
  }

  /** Escaped text uses only these characters: in particular never '&' or '='. */
  predicate EscapedChar(c: char)
  {
    ('A' <= c <= 'Z') || ('a' <= c <= 'z') || ('0' <= c <= '9') || c in "-_.~+%"
  }

  function EscapeBytes(bs: seq<byte>): (s: string)
    ensures forall i :: 0 <= i < |s| ==> EscapedChar(s[i])
  {
    if |bs| == 0 then "" else EscapeByte(bs[0]) + EscapeBytes(bs[1..])
  }

  /** `url.QueryEscape`: escapes the UTF-8 bytes of the text. */
  function QueryEscape(s: string): (r: string)
    ensures '&' !in r && '=' !in r
  {
    var r := EscapeBytes(Utf8.Encode(s));
    assert forall i :: 0 <= i < |r| ==> EscapedChar(r[i]);
    r
  }

  /** Query-component unescaping to bytes: '+' is a space, %XX a byte (either hex case), other
      characters their own UTF-8 bytes; a '%' not followed by two hex digits is an error. */
  function UnescapeBytes(s: string): Option<seq<byte>>
  {
    if |s| == 0 then Some([])
    else if s[0] == '%' then
      if |s| < 3 || !IsHex(s[1]) || !IsHex(s[2]) then None
      else
        match UnescapeBytes(s[3..])
        case None => None
        case Some(rest) => Some([HexValue(s[1]) * 16 + HexValue(s[2])] + rest)
    else
      match UnescapeBytes(s[1..])
      case None => None
      case Some(rest) => Some((if s[0] == '+' then [0x20] else Utf8.EncodeChar(s[0])) + rest)
  }

  /** `url.QueryUnescape`: the unescaped bytes read back as text (None also for bytes that are
      not UTF-8, which the model has no text for). */
  function QueryUnescape(s: string): Option<string>
  {
    match UnescapeBytes(s)
    case None => None
    case Some(bs) => Utf8.Decode(bs)
  }

  lemma {:induction false} UnescapeEscapeByte(b: byte, tail: string)
    ensures UnescapeBytes(EscapeByte(b) + tail)
         == (match UnescapeBytes(tail) case None => None case Some(r) => Some([b] + r))
  {
    var e := EscapeByte(b);
    if |e| == 3 {
      assert (e + tail)[3..] == tail;
    } else {
      assert (e + tail)[1..] == tail;
    }
  }

  lemma {:induction false} UnescapeEscapeBytes(bs: seq<byte>)
    ensures UnescapeBytes(EscapeBytes(bs)) == Some(bs)
  {
    if |bs| > 0 {
      UnescapeEscapeByte(bs[0], EscapeBytes(bs[1..]));
      UnescapeEscapeBytes(bs[1..]);
      assert [bs[0]] + bs[1..] == bs;
    }
  }

  /** Unescaping inverts `QueryEscape` on every text. */
  lemma {:induction false} QueryUnescapeEscape(s: string)
    ensures QueryUnescape(QueryEscape(s)) == Some(s)
  {
    UnescapeEscapeBytes(Utf8.Encode(s));
    Utf8.DecodeEncode(s);
  }

  /** One `key=value` pair of an encoded query. */
  function EncodePair(p: (string, string)): string
  {
    QueryEscape(p.0) + "=" + QueryEscape(p.1)
  }

  /** `url.Values.Encode` of values whose pairs are listed in the order it emits them (keys
      sorted, each key's values in the order they were added): the escaped pairs joined by '&'. */
  function EncodeQuery(ps: seq<(string, string)>): string
  {
    if |ps| == 0 then ""
    else if |ps| == 1 then EncodePair(ps[0])
    else EncodePair(ps[0]) + "&" + EncodeQuery(ps[1..])
  }

  /** Reads one segment `key=value` (or a bare `key`, with an empty value). */
  function ParsePair(seg: string): Option<(string, string)>
  {
    var i := IndexOf(seg, '=');
    var k := QueryUnescape(seg[..i]);
    var v := QueryUnescape(if i < |seg| then seg[i + 1..] else "");
    if k.None? || v.None? then None else Some((k.value, v.value))
  }

  /** Reads a query: segments separated by '&', empty segments skipped; None when any segment
      does not unescape. */
  function ParseQuery(s: string): Option<seq<(string, string)>>
    decreases |s|
  {
    if |s| == 0 then Some([])
    else
      var i := IndexOf(s, '&');
      var rest := if i < |s| then ParseQuery(s[i + 1..]) else Some([]);
      if i == 0 then rest
      else
        match ParsePair(s[..i])
        case None => None
        case Some(p) => if rest.None? then None else Some([p] + rest.value)
  }

  lemma {:induction false} ParsePairEncode(p: (string, string))
    ensures ParsePair(EncodePair(p)) == Some(p)
  {
    var k := QueryEscape(p.0);
    var v := QueryEscape(p.1);
    IndexOfAfter(k, '=', v);
    assert EncodePair(p) == k + ['='] + v;
    assert EncodePair(p)[..|k|] == k;
    assert EncodePair(p)[|k| + 1..] == v;
    QueryUnescapeEscape(p.0);
    QueryUnescapeEscape(p.1);
  }

  /** A query of one non-empty segment without '&' reads as that segment's pair. */
  lemma {:induction false} ParseQuerySingle(e: string)
    requires |e| > 0 && '&' !in e
    ensures ParseQuery(e) == (match ParsePair(e) case None => None case Some(p) => Some([p]))
  {
    IndexOfAfter(e, '&', "");
    assert e[..|e|] == e;
    match ParsePair(e)
    case None =>
    case Some(p) => assert [p] + [] == [p];
  }

  /** A non-empty segment without '&', then '&', then more: its pair in front of the rest. */
  lemma {:induction false} ParseQueryCons(e: string, t: string)
    requires |e| > 0 && '&' !in e
    ensures ParseQuery(e + "&" + t)
         == (match ParsePair(e)
             case None => None
             case Some(p) => (match ParseQuery(t) case None => None case Some(r) => Some([p] + r)))
  {
    IndexOfAfter(e, '&', t);
    var s := e + "&" + t;
    assert s == e + ['&'] + t;
    assert s[..|e|] == e;
    assert s[|e| + 1..] == t;
  }

  /** An encoded pair is never empty (it holds '=') and holds no '&'. */
  lemma {:induction false} EncodePairShape(p: (string, string))
    ensures |EncodePair(p)| > 0 && '&' !in EncodePair(p)
  {
    assert EncodePair(p) == QueryEscape(p.0) + ['='] + QueryEscape(p.1);
  }

  /** The step of the round trip for two or more pairs, given the round trip of the rest. */
  lemma {:induction false} ParseEncodeQueryStep(ps: seq<(string, string)>)
    requires |ps| >= 2
    requires ParseQuery(EncodeQuery(ps[1..])) == Some(ps[1..])
    ensures ParseQuery(EncodeQuery(ps)) == Some(ps)
  {
    var e := EncodePair(ps[0]);
    EncodePairShape(ps[0]);
    ParsePairEncode(ps[0]);
    assert EncodeQuery(ps) == e + "&" + EncodeQuery(ps[1..]);
    ParseQueryCons(e, EncodeQuery(ps[1..]));
    assert [ps[0]] + ps[1..] == ps;
  }

  /** Reading an encoded query gives back every pair, in order. */
  lemma {:induction false} ParseEncodeQuery(ps: seq<(string, string)>)
    ensures ParseQuery(EncodeQuery(ps)) == Some(ps)
  {
    if |ps| == 1 {
      EncodePairShape(ps[0]);
      ParsePairEncode(ps[0]);
      ParseQuerySingle(EncodePair(ps[0]));
      assert [ps[0]] == ps;
    } else if |ps| >= 2 {
      ParseEncodeQuery(ps[1..]);
      ParseEncodeQueryStep(ps);
    }
  }
}

=== FILE: utf8.dfy ===
/** Go strings are byte sequences, and string literals and conversions from text are UTF-8.
    The model represents a Go string as the Unicode text it encodes; `Encode` gives its bytes
    (`[]byte(s)` and `len(s)` in Go), and `Decode` is the inverse used to state round trips. */
module Utf8 {
  import opened GoTypes

  predicate IsContinuation(b: byte) { 0x80 <= b < 0xC0 }

  /** The UTF-8 encoding of one Unicode scalar value (1 to 4 bytes). */
  function EncodeChar(c: char): (bs: seq<byte>)
    ensures 1 <= |bs| <= 4
    ensures (c as int < 0x80) <==> |bs| == 1
    ensures |bs| == 1 ==> bs[0] == c as int
    ensures |bs| > 1 ==> forall i :: 0 <= i < |bs| ==> bs[i] >= 0x80
  {
    var cp := c as int;
    if cp < 0x80 then [cp]
    else if cp < 0x800 then [0xC0 + cp / 64, 0x80 + cp % 64]
    else if cp < 0x1_0000 then [0xE0 + cp / 4096, 0x80 + (cp / 64) % 64, 0x80 + cp % 64]
    else [0xF0 + cp / 262144, 0x80 + (cp / 4096) % 64, 0x80 + (cp / 64) % 64, 0x80 + cp % 64]
  }

  /** The bytes of a Go string. */
  function Encode(s: string): seq<byte>
  {
    if |s| == 0 then [] else EncodeChar(s[0]) + Encode(s[1..])
  }

  lemma {:induction false} EncodeAppend(a: string, b: string)
    ensures Encode(a + b) == Encode(a) + Encode(b)
  {
    if |a| == 0 {
      assert a + b == b;
    } else {
      assert (a + b)[1..] == a[1..] + b;
      EncodeAppend(a[1..], b);
    }
  }

  predicate IsAscii(s: string) { forall i :: 0 <= i < |s| ==> s[i] as int < 0x80 }

  /** ASCII text encodes byte-for-byte. */
  lemma {:induction false} EncodeAscii(s: string)
    requires IsAscii(s)
    ensures |Encode(s)| == |s|
    ensures forall i :: 0 <= i < |s| ==> Encode(s)[i] == s[i] as int
  {
    if |s| > 0 {
      EncodeAscii(s[1..]);
    }
  }

  /** An ASCII byte occurs in an encoding only where that very character occurs in the text:
      multi-byte sequences use bytes of 0x80 and above only. */
  lemma {:induction false} AsciiByteOnlyFromChar(s: string, c: char)
    requires c as int < 0x80
    requires c !in s
    ensures (c as int) !in Encode(s)
  {
    if |s| > 0 {
      AsciiByteOnlyFromChar(s[1..], c);
      assert Encode(s) == EncodeChar(s[0]) + Encode(s[1..]);
    }
  }

  /** Decodes one scalar value at the front of `bs`, giving it and the bytes it used. */
  function DecodeChar(bs: seq<byte>): (r: Option<(char, nat)>)
    ensures r.Some? ==> 1 <= r.value.1 <= |bs|
  {
    if |bs| == 0 then None
    else if bs[0] < 0x80 then Some((bs[0] as char, 1))
    else if 0xC0 <= bs[0] < 0xE0 && |bs| >= 2 && IsContinuation(bs[1]) then
      var cp := (bs[0] as int - 0xC0) * 64 + (bs[1] as int - 0x80);
      if cp < 0x80 then None else Some((cp as char, 2))
    else if 0xE0 <= bs[0] < 0xF0 && |bs| >= 3 && IsContinuation(bs[1]) && IsContinuation(bs[2]) then
      var cp := (bs[0] as int - 0xE0) * 4096 + (bs[1] as int - 0x80) * 64 + (bs[2] as int - 0x80);
      if cp < 0x800 || (0xD800 <= cp < 0xE000) then None else Some((cp as char, 3))
    else if 0xF0 <= bs[0] < 0xF5 && |bs| >= 4 && IsContinuation(bs[1]) && IsContinuation(bs[2])
      && IsContinuation(bs[3]) then
      var cp := (bs[0] as int - 0xF0) * 262144 + (bs[1] as int - 0x80) * 4096 + (bs[2] as int - 0x80) * 64 + (bs[3] as int - 0x80);
      if cp < 0x1_0000 || cp > 0x10_FFFF then None else Some((cp as char, 4))
    else None
  }

  /** Well-formed UTF-8 back to text; None for malformed bytes. */
  function Decode(bs: seq<byte>): Option<string>
    decreases |bs|
  {
    if |bs| == 0 then Some("")
    else match DecodeChar(bs)
      case None => None
      case Some((c, n)) =>
        match Decode(bs[n..])
        case None => None
        case Some(rest) => Some([c] + rest)
  }

  /** `a` split into its quotient and remainder by 64. */
  lemma {:induction false} Split64(a: nat)
    ensures a == (a / 64) * 64 + a % 64
  {
  }

  /** Quotients by 64 compose: `(a / 64) / 64 == a / 4096`. */
  lemma {:induction false} Div64Twice(a: nat)
    ensures (a / 64) / 64 == a / 4096
    ensures (a / 4096) / 64 == a / 262144
  {
  }

  /** Two-byte sequences: five high bits after 110, six low bits after 10. */
  lemma {:induction false} DecodeEncodeTwo(c: char, tail: seq<byte>)
    requires 0x80 <= c as int < 0x800
    ensures DecodeChar(EncodeChar(c) + tail) == Some((c, 2))
  {
    var cp := c as int;
    var bs := EncodeChar(c) + tail;
    assert bs[0] == 0xC0 + cp / 64 && bs[1] == 0x80 + cp % 64;
    Split64(cp);
    assert (bs[0] as int - 0xC0) * 64 + (bs[1] as int - 0x80) == cp;
  }

  /** Three-byte sequences: four bits after 1110, then two groups of six. */
  lemma {:induction false} DecodeEncodeThree(c: char, tail: seq<byte>)
    requires 0x800 <= c as int < 0x1_0000
    ensures DecodeChar(EncodeChar(c) + tail) == Some((c, 3))
  {
    var cp := c as int;
    var q := cp / 64;
    var bs := EncodeChar(c) + tail;
    assert bs[0] == 0xE0 + cp / 4096 && bs[1] == 0x80 + q % 64 && bs[2] == 0x80 + cp % 64;
    Split64(cp);
    Split64(q);
    Div64Twice(cp);
    assert (bs[0] as int - 0xE0) * 4096 + (bs[1] as int - 0x80) * 64 + (bs[2] as int - 0x80) == cp;
  }

  /** Four-byte sequences: three bits after 11110, then three groups of six. */
  lemma {:induction false} DecodeEncodeFour(c: char, tail: seq<byte>)
    requires 0x1_0000 <= c as int
    ensures DecodeChar(EncodeChar(c) + tail) == Some((c, 4))
  {
    var cp := c as int;
    var q := cp / 64;
    var q2 := q / 64;
    var bs := EncodeChar(c) + tail;
    assert bs[0] == 0xF0 + cp / 262144 && bs[1] == 0x80 + q2 % 64 && bs[2] == 0x80 + q % 64 && bs[3] == 0x80 + cp % 64 by {
      Div64Twice(cp);
    }
    Split64(cp);
    Split64(q);
    Split64(q2);
    Div64Twice(cp);
    assert (bs[0] as int - 0xF0) * 262144 + (bs[1] as int - 0x80) * 4096 + (bs[2] as int - 0x80) * 64 + (bs[3] as int - 0x80) == cp;
  }

  /** One character's encoding, in front of any bytes, decodes back to it and its length. */
  lemma {:induction false} DecodeEncodeChar(c: char, tail: seq<byte>)
    ensures DecodeChar(EncodeChar(c) + tail) == Some((c, |EncodeChar(c)|))
  {
    var cp := c as int;
    if cp < 0x80 {
    } else if cp < 0x800 {
      DecodeEncodeTwo(c, tail);
    } else if cp < 0x1_0000 {
      DecodeEncodeThree(c, tail);
    } else {
      DecodeEncodeFour(c, tail);
    }
  }

  /** Decoding inverts encoding: every Go string built from text reads back as that text. */
  lemma {:induction false} DecodeEncode(s: string)
    ensures Decode(Encode(s)) == Some(s)
  {
    if |s| > 0 {
      var head := EncodeChar(s[0]);
      var bs := Encode(s);
      assert bs == head + Encode(s[1..]);
      DecodeEncodeChar(s[0], Encode(s[1..]));
      assert bs[|head|..] == Encode(s[1..]);
      DecodeEncode(s[1..]);
      assert [s[0]] + s[1..] == s;
    }
  }
}
